=== FILE: README.md ===
# PixArtConverter core, modelled in Dafny

This project models the core of the tile-art converter. The converter turns a
picture into Terraria block tiles. It reads the palette of tiles, dithers the
picture onto the palette colours, and writes one 5-byte tile record per
pixel to a binary file. The modelled parts are:

- **`Common`** (common.dfy): bytes, 16-bit identifiers, RGB colours and tile
  records. C# exceptions become an `Error` value inside `Result`. Also
  holds 32-bit wrap-around (`Wrap32`), the `ushort` cast (`ToU16`),
  `List.IndexOf`, and a fail-fast map.
- **`Text`** (text.dfy): the .NET primitives the parsers use. These are
  `Split`, `Join`, `Trim`, unsigned decimal parsing (`Convert.ToUInt16`,
  `Convert.ToByte`, `uint.TryParse`) and `Convert.ToInt32(s, 16)`.
- **`Palette`** (palette.dfy): `Pixel`, `Pixel.ToBytes` and the `Pixels`
  collection with its two memoised projections.
- **`ColorApproximater`** (color_approximater.dfy): the palette matcher. It
  covers hue bucketing of the palette, the bucket choice by nearest hue
  sample with the 720 sentinel, and the arg-min search inside a bucket. It
  also covers the bounded memo with "drop the oldest half" eviction, the
  record lookup `GetColor` and `SetGray`.
- **`Kernels`** (kernels.dfy): the eight error-diffusion kernels (offsets and
  exact rational weights). It also has the six-way and eight-way
  name-to-ditherer switches.
- **`Selector`** (selector.dfy): the guard chain that names a ditherer from
  the image statistics.
- **`ByteImage`** (byte_image.dfy): `TempByteImageFormat`. It covers both
  storages (3-D cube and flat buffer), pixel get and set, quantisation
  errors, clamped error application and the raw export.
- **`Diffusion`** (diffusion.dfy): `DitheringBase.DoDithering` as a loop
  with invariants. `PushError` and `ModifyImageWithErrorAndMultiplier` are
  functions.
- **`OptimalDithering`** (optimal_dithering.dfy): `OptimalDitheringSelector.Do`
  and the older `AtkinsonDithering.Do`. The pipeline reads the bitmap into a
  cube, dithers it with the palette colour function, and writes the records
  in column-major order through the binary worker. It also holds the
  web-safe quantiser.
- **`BinaryWorker`** (binary_worker.dfy): the file layout. This is a 6-byte
  little-endian header followed by 5-byte records. It also covers the
  chunked write buffer, the lenient reader and `ConvertToBinary`.
- **`StringExtensions`** (string_extensions.dfy): `FormatInputData` and
  `IsHexColor`.
- **`MatrixCoder`** (matrix_coder.dfy): the 2x2 matrix with 2-digit base-62
  obfuscation. Plain text and encoded text are both sequences of UTF-16 code
  units. The digit strings the encoder builds are ASCII and become units
  one character each (`Units`).
- **`GradientBoundary`** (gradient_boundary.dfy): the argument checks of the
  edge detector, `CreateBinaryMask` and the mask-to-coordinates extraction.
- **`UnionFind`** (union_find.dfy): the union-find with path halving. A
  ghost rank witnesses the forest.
- **`IndexGenerator`** (index_generator.dfy): the sequential frame counter.
- **`FrameIndex`** (frame_index.dfy): the output-index collision probe of the
  photo pipeline. The file system is a snapshot set of existing indices, and
  the in-flight table is a set.

## Modelling choices

- **Exceptions.** A thrown exception is an `Err` naming its .NET type.
  Exceptions that wrap a cause carry it: `DitheringException` is
  `Dithering(cause)`, `ImageProcessingException` is `ImageProcessing(cause)`,
  and the `AggregateException` that `Parallel.For` throws when a row fails
  is `Aggregate(cause)`.
- **Mutation.** The image buffer, the worker's `FileValues` and the
  union-find parent array are threaded through pure functions as values.
  The approximater's memo is threaded the same way through
  `ColorApproximater.Convert`. The dithering pipeline does not thread it: it
  uses the memo-free `Resolve` as its colour function (see "Colour
  function").
- **Distances.** `ColorDiff` is compared as a squared integer distance.
  `Math.Sqrt` is monotone and keeps distinct integers up to 3 * 255 * 255
  distinct, so minima and ties agree. The sentinel 720 becomes 720 * 720.
- **Kernel weights.** They are exact rationals (`real`). The clamping
  `(byte)Math.Clamp` is modelled on reals as clamp-then-truncate.
- **Colour function.** The dithering engine takes a pure colour function.
  `ConvertTransparent` proves that, with a coherent memo, the approximater's
  memoised `Convert` returns exactly what the pure `Resolve` returns. This
  justifies using `Resolve` as the colour function in the pipeline.
- **Inputs.** The sampled HSL hue table, the torch-id list and the image
  statistics are inputs. They come from code that is not part of this
  model.
- **Duplicates.** The copies of `BinaryWorker` and `UniqueIndexGenerator` in
  WpfApp1/Converter.cs, and the kernel and selector copies in
  WpfApp1/Dithering.cs, are modelled once. The older eight-way switch is
  `Kernels.LegacyDispatch`.

Behaviour of the code that a reader might not expect, which the model
follows:

- The kernel weight sums are not all 1. Atkinson hands on 6/8 and
  Sierra3/Sierra24a hand on 22/32.
- `WriteToBitmap` emits records column by column (x outer), not row by row.
- The reader discards the header and silently ignores a trailing partial
  record instead of reporting a truncated record.
- The current switch covers six ditherers, not eight. `"Stucki"` can be
  selected but not dispatched.
- The bucket choice is by the nearest of all 24 x 16 hue samples (flat
  index divided by 16), not by a bucket centre.
- An empty palette file gives an empty palette rather than a load error.
- A bad hex colour throws whatever `Convert.ToInt32(s, 16)` throws. An
  empty string is `ArgumentOutOfRange` and a leading '-' is `Argument`. A
  run of hex digits worth 2^32 or more is `Overflow`, even with junk after
  it. No digits, or junk after the digits, is `Format`. One leading '+' and
  a "0x" prefix are accepted.
- The decimal parsers behind `Convert.ToUInt16`, `Convert.ToByte` and
  `uint.TryParse` accept white space around the number, one sign ('+' or
  '-' under a culture whose sign strings are those), leading zeros and
  trailing NUL characters after everything. "-0" is zero; any other
  negative value overflows.

## Model

| member | source | states |
|---|---|---|
| `Common.Wrap32` | WpfApp1/MediaProcessing/UniqueIndexGenerator.cs:19 | the C# `int` result is in the 32-bit range and equals the exact value when that fits |
| `Common.IndexOf` | WpfApp1/Dithering.cs:974 | `List.IndexOf`: -1 exactly when absent, otherwise the first position holding the element |
| `Common.MapResultPointwise` | WpfApp1/Converter.cs:410-414 | a fail-fast loop succeeds iff every element does, and then holds each element's result at its position |
| `Text.SplitJoin` | WpfApp1/Converter.cs:412 | splitting a join of separator-free parts on the same separator gives the parts back |
| `Text.JoinSplit` | WpfApp1/Converter.cs:412 | joining the pieces of a split rebuilds the input |
| `Text.RemoveEmpty` | WpfApp1/DataTools/StringExtensions.cs:15 | `RemoveEmptyEntries` keeps exactly the non-empty pieces; a single piece is kept iff it is non-empty |
| `Text.RemoveEmptyAppend` | WpfApp1/DataTools/StringExtensions.cs:15 | the filter of a concatenation is the concatenation of the filters, so pieces keep their order and repeats |
| `Text.Trim` | WpfApp1/DataTools/StringExtensions.cs:24 | the result is a slice of the input; everything cut off before and after it is white space; it neither starts nor ends with white space; all-white input gives "" |
| `Text.ParseUnsigned` | WpfApp1/Converter.cs:476-477 | after dropping trailing NULs, then surrounding white space, and one optional sign: `Format` iff the remaining digits part is empty or not all digits; success iff it is all digits, worth at most the type's maximum, and zero when the sign is '-'; the value is the digits' value; all other failures are `Overflow` |
| `Text.StripNumberWhiteCut` | WpfApp1/Converter.cs:476-477 | the number text is a slice of the input with only number white space (U+0009..U+000D, U+0020) removed before and after it |
| `Text.TrailingNul` | WpfApp1/Converter.cs:476-477 | "5 \0\0" parses to 5, while "5\0 " (white space after a NUL) is `Format` |
| `Text.NegativeZero` | WpfApp1/Converter.cs:476-477 | " -0 " parses to 0 |
| `Text.PlusLeadingZeros` | WpfApp1/Converter.cs:476-477 | "+007" parses to 7 |
| `Text.NegativeOverflows` | WpfApp1/Converter.cs:476-477 | "-1" is `Overflow` |
| `Text.ParseDecimal` | WpfApp1/Converter.cs:476-477 | the decimal rendering of any value within the bound parses back to it |
| `Text.ParseHex32` | WpfApp1/Converter.cs:484 | `Convert.ToInt32(s, 16)`: a parsed value is a 32-bit pattern; `ArgumentOutOfRange` exactly for "", `Argument` exactly for a leading '-'; other failures are `Format` or `Overflow` |
| `Text.GrabHexRun` | WpfApp1/Converter.cs:484 | the digit loop overflows exactly when the run of hex digits is worth 2^32 or more, and otherwise stops after the run with its value |
| `Text.ParseHex32Exact` | WpfApp1/Converter.cs:484 | after the optional '+' and "0x", `Overflow` iff the leading hex run is worth 2^32 or more; success iff the rest is a non-empty all-hex string below 2^32, with its value |
| `Text.ParseHex32Digits` | WpfApp1/Converter.cs:484 | a non-empty hex string below 2^32 parses to its value |
| `Text.PlusAccepted` | WpfApp1/Converter.cs:484 | "+FF" parses to 255 |
| `Text.HexValueAppend2` | WpfApp1/Converter.cs:484-487 | two more hex digits multiply the value so far by 256 and add theirs |
| `Palette.AsRecord` | WpfApp1/Converter.cs:441 | the projection written to tile files carries the entry's wall, torch, id and paint |
| `Palette.RemoveHash` | WpfApp1/Converter.cs:484 | no '#' remains, a string without '#' is unchanged, and a single '#' becomes "" |
| `Palette.RemoveHashAppend` | WpfApp1/Converter.cs:484 | `Replace("#", "")` of a concatenation is the concatenation of the replacements, so the other characters keep their order |
| `Palette.ToBytes` | WpfApp1/Converter.cs:482-488 | fails exactly when `Convert.ToInt32(s, 16)` of the text with every '#' removed fails; otherwise the colour packs back to the low 24 bits of the parsed value, so the top byte is ignored |
| `Palette.UnpackLow` | WpfApp1/Converter.cs:485-487 | the three shifted and masked bytes of a value pack back into its low 24 bits |
| `Palette.ToBytesHexColor` | WpfApp1/Converter.cs:482-488 | `ToBytes` of the `#RRGGBB` rendering of any colour gives that colour back |
| `Palette.ToBytesFields` | WpfApp1/Converter.cs:482-488 | any string whose digits denote `r * 65536 + g * 256 + b` parses as `(r, g, b)` |
| `Palette.ByteFields` | WpfApp1/Converter.cs:485-487 | the shifts and masks recover the three bytes of a packed colour |
| `Palette.FromParts` | WpfApp1/Converter.cs:472-480 | fewer than seven fields fail; success iff id, paint and colour parse; name is fields 5 and 6 joined by a space; torch flag false for walls, otherwise membership of field 1 in the torch list |
| `Palette.FromPartsFields` | WpfApp1/Converter.cs:472-480 | seven fields whose id, paint and colour parse give exactly the entry with those values |
| `Palette.ParseLine` | WpfApp1/Converter.cs:408-425 | a line with fewer than seven ':'-separated fields fails with `IndexOutOfRange`; a parsed entry is a wall iff field 0 is "0" (always in mode false), is named from fields 5 and 6, and carries the parses of fields 1, 2 and 3 |
| `Palette.NewPixels` | WpfApp1/Converter.cs:406-426 | the collection is built iff every line parses; it then holds one entry per line, in line order, and both caches start empty |
| `Palette.ParseLinesPointwise` | WpfApp1/Converter.cs:406-426 | the palette parses iff every line does; entry `i` comes from line `i`, marked wall iff field 0 is "0" in mode true and always in mode false |
| `Palette.ParseLineRoundTrip` | WpfApp1/Converter.cs:406-414 | a line joined with ':' from seven well-formed fields parses back into the entry built from them |
| `Palette.GetPixels` | WpfApp1/Converter.cs:438-443 | the first call projects the current entries and fills the memo; later calls return the memo unchanged |
| `Palette.GetColors` | WpfApp1/Converter.cs:445-450 | the same for the colours |
| `Palette.MemoIgnoresAdd` | WpfApp1/Converter.cs:428-450 | after the projections are taken, `Add` does not change them, and they stay index-aligned |
| `ColorApproximater.SquaredDiff` | WpfApp1/Dithering.cs:1142-1147 | the distance is zero exactly for equal colours and is below the sentinel |
| `ColorApproximater.ArgMinFirst` | WpfApp1/Dithering.cs:987 | `IndexOf(Min())`: fails with `InvalidOperation` on an empty list; otherwise the first position of a value no larger than any other |
| `ColorApproximater.MinMaxRgb` | WpfApp1/Dithering.cs:1064-1084 | min is at most each channel and max at least each channel, both drawn from the channels |
| `ColorApproximater.Hue` | WpfApp1/Dithering.cs:1040-1063 | 0 for a grey, otherwise in [0, 360) |
| `ColorApproximater.HueSectors` | WpfApp1/Dithering.cs:1051-1060 | red-, green- and blue-maximal colours fall in their 120-degree sectors |
| `ColorApproximater.RowDiffs` | WpfApp1/Dithering.cs:1179-1190 | a skipped row contributes sixteen sentinels; any other row contributes its distances, one per sample |
| `ColorApproximater.BucketIndex` | WpfApp1/Dithering.cs:1171-1192 | fails with `InvalidOperation` exactly when there are no distances at all |
| `ColorApproximater.FlatPosition` | WpfApp1/Dithering.cs:1191 | in a well-formed table flat position `k` is row `k / 16`, offset `k % 16` |
| `ColorApproximater.BucketIndexAvoidsSkipped` | WpfApp1/Dithering.cs:1171-1192 | when some unskipped bucket has samples, the chosen bucket is unskipped |
| `ColorApproximater.BucketIndexHasSamples` | WpfApp1/Dithering.cs:1171-1192 | with nothing skipped, the chosen bucket has samples |
| `ColorApproximater.BucketIndexNearest` | WpfApp1/Dithering.cs:1171-1192 | the chosen bucket holds a hue sample whose distance is at most every distance considered; every sample of an earlier bucket, and every earlier sample of the same bucket, is strictly farther (the first minimum wins) |
| `ColorApproximater.SetHueEqRgb` | WpfApp1/Dithering.cs:1028-1039 | drops the last sample of the last row, and throws on an empty table or empty last row |
| `ColorApproximater.SampledTableWellFormed` | WpfApp1/Dithering.cs:1028-1039 | 24 rows of 16 samples give a well-formed table |
| `ColorApproximater.InsertBySorted` | WpfApp1/Dithering.cs:1100 | inserting into a hue-sorted bucket keeps it sorted |
| `ColorApproximater.InsertByPermutes` | WpfApp1/Dithering.cs:1100 | one insertion step of `OrderBy` adds exactly the inserted colour: the result is the old bucket plus that colour, as a multiset |
| `ColorApproximater.SortBy` | WpfApp1/Dithering.cs:1100 | `OrderBy` yields a sorted permutation |
| `ColorApproximater.InsertByStable` | WpfApp1/Dithering.cs:1100 | inserting after the elements of equal key keeps, for every key, the earlier elements first and the new one last |
| `ColorApproximater.SortByStable` | WpfApp1/Dithering.cs:1100 | `OrderBy` is stable: for every key, the colours with that key appear in their input order |
| `ColorApproximater.SortByHueMembers` | WpfApp1/Dithering.cs:1098-1101 | sorting keeps exactly the colours of the bucket |
| `ColorApproximater.PlaceContents` | WpfApp1/Dithering.cs:1094-1097 | every palette colour lands in some bucket, and only where its hue bucket index points |
| `ColorApproximater.EmptyBuckets` | WpfApp1/Dithering.cs:1102-1106 | the skip list holds exactly the empty buckets |
| `ColorApproximater.New` | WpfApp1/Dithering.cs:945-955 | a built approximater has 24 buckets, each sorted by hue, a skip list of exactly the empty buckets, the given palette and bound, and an empty memo |
| `ColorApproximater.NewParts` | WpfApp1/Dithering.cs:945-955 | the constructor builds the hue table, places and sorts the palette, and starts with an empty memo |
| `ColorApproximater.NewBuckets` | WpfApp1/Dithering.cs:1088-1107 | a non-empty palette leaves some unskipped, non-empty bucket |
| `ColorApproximater.Nearest` | WpfApp1/Dithering.cs:978-987 | fails on an empty bucket; otherwise a member of the bucket at minimal distance, the first such on ties |
| `ColorApproximater.Resolve` | WpfApp1/Dithering.cs:979-987 | a miss answers with a colour of some bucket |
| `ColorApproximater.ResolveTotal` | WpfApp1/Dithering.cs:979-987 | built from a well-formed table and a non-empty palette, every colour resolves to a palette colour |
| `ColorApproximater.ResetHalf` | WpfApp1/Dithering.cs:1130-1134 | both memo lists drop their first `max / 2` entries, order kept |
| `ColorApproximater.Skip` | WpfApp1/Dithering.cs:1132 | LINQ `Skip`: the suffix after `n`, empty when `n` exceeds the length |
| `ColorApproximater.Convert` | WpfApp1/Dithering.cs:970-994 | only the memo ever changes; a colour already queried leaves the state unchanged; a miss that succeeds answers a colour of one of the buckets |
| `ColorApproximater.ConvertHit` | WpfApp1/Dithering.cs:974-977 | a colour in the memo is answered from the same index and nothing changes |
| `ColorApproximater.ConvertMiss` | WpfApp1/Dithering.cs:978-993 | a miss answers what `Resolve` computes and appends the query and its answer together, then evicts |
| `ColorApproximater.NewCoherent` | WpfApp1/Dithering.cs:950-951 | a fresh memo is coherent |
| `ColorApproximater.CoherentExtend` | WpfApp1/Dithering.cs:986-988 | appending a resolved pair keeps the memo coherent |
| `ColorApproximater.CoherentSkip` | WpfApp1/Dithering.cs:1130-1134 | eviction keeps the memo coherent |
| `ColorApproximater.ConvertTransparent` | WpfApp1/Dithering.cs:970-994 | with a coherent memo, `Convert` answers exactly what a miss would compute and leaves the memo coherent |
| `ColorApproximater.ConvertIdempotent` | WpfApp1/Dithering.cs:970-994 | asking the same colour twice gives the same answer |
| `ColorApproximater.ConvertBounded` | WpfApp1/Dithering.cs:986-992 | with `max >= 2` and a memo below `max`, both lists stay equal in length and below `max` |
| `ColorApproximater.MaxLengthOneGrows` | WpfApp1/Dithering.cs:989-992 | with `max == 1` eviction drops nothing and the memo grows past the bound |
| `ColorApproximater.FailedMissMisaligns` | WpfApp1/Dithering.cs:986-988 | a miss that throws on an empty bucket has already recorded the query, so the two lists differ in length |
| `ColorApproximater.GetColor` | WpfApp1/Dithering.cs:956-959 | the record at the first position of the colour among the palette colours; a colour not in the palette throws |
| `ColorApproximater.ResolvedHasRecord` | WpfApp1/Dithering.cs:956-959 | every colour a fresh palette resolves to has a record |
| `ColorApproximater.TileColor` | WpfApp1/Dithering.cs:1226 | field 3 of a tile line parsed as hex; fewer than four fields throw |
| `ColorApproximater.GreyTiles` | WpfApp1/Dithering.cs:1224-1232 | succeeds iff every tile's colour reads; a single tile is kept iff it is grey |
| `ColorApproximater.GreyTilesMembers` | WpfApp1/Dithering.cs:1224-1232 | the kept tiles are exactly the grey ones |
| `ColorApproximater.GreyTilesAppend` | WpfApp1/Dithering.cs:1224-1232 | the grey tiles of a concatenation are those of each half, in order, repeats included |
| `ColorApproximater.SetGray` | WpfApp1/Dithering.cs:1218-1235 | false and no change for an empty list; otherwise true and exactly the grey tiles, in list order with repeats as `GreyTiles` collects them, unless a colour cannot be read |
| `Kernels.KernelOf` | WpfApp1/MediaProcessing/Dithering/DitheringAlgorithms.cs:32-185 | each kernel's offset and weight tables have equal lengths |
| `Kernels.ScanOrderStrict` | WpfApp1/MediaProcessing/Dithering/DitheringAlgorithms.cs:42-50 | forward taps listed in scan order are pairwise distinct |
| `Kernels.KernelForward` | WpfApp1/MediaProcessing/Dithering/DitheringAlgorithms.cs:34-35 | every offset of every kernel has `dy > 0`, or `dy == 0` and `dx > 0` |
| `Kernels.KernelTaps` | WpfApp1/Dithering.cs:461-466 | every kernel's taps reach forward and are pairwise distinct |
| `Kernels.AtkinsonTotal` | WpfApp1/MediaProcessing/Dithering/DitheringAlgorithms.cs:34-50 | Atkinson's weights sum to 6/8 |
| `Kernels.FloydSteinbergTotal` | WpfApp1/MediaProcessing/Dithering/DitheringAlgorithms.cs:60-65 | Floyd-Steinberg's weights sum to 1 |
| `Kernels.JarvisJudiceNinkeTotal` | WpfApp1/MediaProcessing/Dithering/DitheringAlgorithms.cs:91-94 | Jarvis-Judice-Ninke's weights sum to 1 |
| `Kernels.StuckiTotal` | WpfApp1/Dithering.cs:461-466 | Stucki's weights sum to 1 |
| `Kernels.BurkesTotal` | WpfApp1/MediaProcessing/Dithering/DitheringAlgorithms.cs:117-120 | Burkes's weights sum to 1 |
| `Kernels.SierraTotal` | WpfApp1/MediaProcessing/Dithering/DitheringAlgorithms.cs:143-146 | Sierra3's weights sum to 22/32 |
| `Kernels.SierraLiteTotal` | WpfApp1/MediaProcessing/Dithering/DitheringAlgorithms.cs:169-171 | Sierra Lite's weights sum to 1 |
| `Kernels.FullShare` | WpfApp1/MediaProcessing/Dithering/DitheringAlgorithms.cs:60-171 | every kernel but Atkinson, Sierra3 and Sierra24a hands on the whole error |
| `Kernels.PartialShare` | WpfApp1/Dithering.cs:560-565 | Atkinson hands on 6/8, Sierra3 and Sierra24a 22/32 |
| `Kernels.Sierra24aIsSierra3` | WpfApp1/Dithering.cs:560-565 | the Sierra24a table equals the Sierra3 table |
| `Kernels.Dispatch` | WpfApp1/MediaProcessing/Dithering/DitheringBase.cs:140-149 | succeeds exactly for the six registered names, with the ditherer of that name; otherwise `NotSupported` |
| `Kernels.LegacyDispatch` | WpfApp1/Dithering.cs:796-807 | the same for the eight names of the older switch |
| `Kernels.DispatchNames` | WpfApp1/Dithering.cs:70-80 | every ditherer's name dispatches back to it in the older switch; the current switch rejects only Stucki and Sierra24a |
| `Selector.Select` | WpfApp1/MediaProcessing/Dithering/DitheringAlgorithms.cs:389-418 | always one of the eight names, never Sierra24a; tiny images get Atkinson iff noise < 0.1, else SierraLite; exact conditions for Stucki and Sierra3 |
| `Selector.SelectDispatch` | WpfApp1/MediaProcessing/Dithering/DitheringAlgorithms.cs:404 | the current switch fails on the selected name exactly when it is Stucki; the older switch accepts every selected name |
| `Selector.StuckiReachable` | WpfApp1/MediaProcessing/Dithering/DitheringAlgorithms.cs:403-405 | a 1000 x 1000 smooth image with noise 0.1 is sent to Stucki, which the current switch rejects |
| `Selector.HugeImageCountsAsSmall` | WpfApp1/MediaProcessing/Dithering/DitheringAlgorithms.cs:634 | the wrapped `int` pixel count makes a 65536 x 65536 image count as small |
| `ByteImage.Get` | WpfApp1/MediaProcessing/Dithering/DitheringAlgorithms.cs:303-329 | an out-of-bounds read throws `ArgumentOutOfRange` |
| `ByteImage.GetValid` | WpfApp1/MediaProcessing/Dithering/DitheringAlgorithms.cs:311-329 | every in-bounds pixel of a valid image reads as `channels` bytes |
| `ByteImage.Set` | WpfApp1/MediaProcessing/Dithering/DitheringAlgorithms.cs:283-301 | out-of-bounds writes throw `ArgumentOutOfRange`, wrong-length data throws `Argument`; the shape is kept |
| `ByteImage.SetGet` | WpfApp1/MediaProcessing/Dithering/DitheringAlgorithms.cs:283-329 | a written pixel reads back as written, and every other pixel reads as before |
| `ByteImage.SetSame` | WpfApp1/MediaProcessing/Dithering/DitheringAlgorithms.cs:283-329 | writing back what a pixel holds leaves the image unchanged |
| `ByteImage.FlatOffsetExact` | WpfApp1/MediaProcessing/Dithering/DitheringAlgorithms.cs:291 | the `int` offset `(y * W + x) * C` never wraps in a valid image and lies inside the buffer |
| `ByteImage.CopyOut` | WpfApp1/MediaProcessing/Dithering/DitheringAlgorithms.cs:320 | `Array.Copy` succeeds iff the run lies inside the source, and copies it |
| `ByteImage.QuantErrors` | WpfApp1/MediaProcessing/Dithering/DitheringAlgorithms.cs:343-354 | defined iff both pixels have `channels` values; each error is original minus replacement |
| `ByteImage.Clamp` | WpfApp1/MediaProcessing/Dithering/DitheringAlgorithms.cs:370-373 | 0 below, 255 above, and the truncation of the value in between |
| `ByteImage.AddError` | WpfApp1/MediaProcessing/Dithering/DitheringAlgorithms.cs:356-368 | defined iff both arrays have `channels` values; each channel becomes the clamp of value plus error times share |
| `ByteImage.QuantSame` | WpfApp1/MediaProcessing/Dithering/DitheringAlgorithms.cs:350-353 | replacing a pixel by itself makes a zero error |
| `ByteImage.AddNoError` | WpfApp1/MediaProcessing/Dithering/DitheringAlgorithms.cs:363-367 | a zero error leaves the channels unchanged |
| `ByteImage.FromCube` | WpfApp1/MediaProcessing/Dithering/DitheringAlgorithms.cs:219-236 | null throws; otherwise a valid image adopting the cube |
| `ByteImage.FromFlat` | WpfApp1/MediaProcessing/Dithering/DitheringAlgorithms.cs:238-258 | null throws; a buffer is accepted iff its length equals the wrapped `int` product `w * h * c` |
| `ByteImage.FromFlatAcceptsBadShapes` | WpfApp1/MediaProcessing/Dithering/DitheringAlgorithms.cs:242 | a wrapped product or negative dimensions let an invalid shape through |
| `ByteImage.FromFlatChecked` | WpfApp1/MediaProcessing/Dithering/DitheringAlgorithms.cs:238-258 | accepts exactly non-negative dimensions whose exact product is the length, giving a valid image |
| `ByteImage.RawContent` | WpfApp1/MediaProcessing/Dithering/DitheringAlgorithms.cs:264-281 | the export has `W * H * C` bytes |
| `ByteImage.RawLayout` | WpfApp1/MediaProcessing/Dithering/DitheringAlgorithms.cs:264-281 | pixel `(x, y)` of the export is the run at `(y * W + x) * C` |
| `ByteImage.RawRoundTrip` | WpfApp1/MediaProcessing/Dithering/DitheringAlgorithms.cs:238-281 | exporting and re-importing with the flat constructor gives an image with the same pixels |
| `Diffusion.Spread` | WpfApp1/MediaProcessing/Dithering/DitheringBase.cs:99-105 | moving a neighbour keeps the shape |
| `Diffusion.SpreadEffect` | WpfApp1/MediaProcessing/Dithering/DitheringBase.cs:99-105 | on a valid image an in-bounds spread succeeds, moves that pixel by the error times the share, and changes no other pixel |
| `Diffusion.PushInside` | WpfApp1/MediaProcessing/Dithering/DitheringAlgorithms.cs:42-52 | a tap landing inside hands the spread image on |
| `Diffusion.PushOutside` | WpfApp1/MediaProcessing/Dithering/DitheringBase.cs:92-95 | a tap outside the image is skipped |
| `Diffusion.PushEffect` | WpfApp1/MediaProcessing/Dithering/DitheringAlgorithms.cs:39-54 | with forward, distinct taps pushing succeeds; each pixel is moved once by its tap's share if a tap lands on it, else unchanged |
| `Diffusion.PushFrame` | WpfApp1/MediaProcessing/Dithering/DitheringAlgorithms.cs:34-35 | pushing never changes a pixel visited at or before the current one |
| `Diffusion.PushIdle` | WpfApp1/MediaProcessing/Dithering/DitheringAlgorithms.cs:39-54 | a zero error leaves the image unchanged |
| `Diffusion.Visit` | WpfApp1/MediaProcessing/Dithering/DitheringBase.cs:73-81 | any failure of one pixel step is wrapped as a dithering failure; the shape is kept |
| `Diffusion.VisitEffect` | WpfApp1/MediaProcessing/Dithering/DitheringBase.cs:73-81 | a step succeeds iff the colour function answers with `channels` values; the pixel then holds that answer |
| `Diffusion.VisitSettles` | WpfApp1/MediaProcessing/Dithering/DitheringBase.cs:69-83 | after a step every pixel visited so far holds a colour-function answer |
| `Diffusion.VisitIdle` | WpfApp1/MediaProcessing/Dithering/DitheringBase.cs:73-81 | a colour function that keeps every pixel makes a step change nothing |
| `Diffusion.DoDithering` | WpfApp1/MediaProcessing/Dithering/DitheringBase.cs:51-90 | null input or approximater throws unwrapped; other failures are wrapped; the result keeps the shape, every pixel is a colour-function answer, pixel (0, 0) is the answer for its original value; a total colour function never fails; an identity one returns the input unchanged |
| `OptimalDithering.ReadBitmap` | WpfApp1/MediaProcessing/Dithering/DitheringBase.cs:189-219 | the cube is `[width, height, 3]` with `cube[x][y]` the pixel's R, G, B; an array beyond the `int` limit fails with `OutOfMemory` |
| `OptimalDithering.ReadBitmapPixels` | WpfApp1/MediaProcessing/Dithering/DitheringBase.cs:151-152 | the wrapped cube shows every picture pixel at its coordinates |
| `OptimalDithering.WebSafeLevel` | WpfApp1/MediaProcessing/Dithering/DitheringBase.cs:180 | a multiple of 51 within 25 of the input |
| `OptimalDithering.WebSafeNearest` | WpfApp1/MediaProcessing/Dithering/DitheringBase.cs:180 | no other multiple of 51 in [0, 255] is strictly nearer |
| `OptimalDithering.WebSafe` | WpfApp1/MediaProcessing/Dithering/DitheringBase.cs:176-182 | each channel becomes its web-safe level |
| `OptimalDithering.ToPalette` | WpfApp1/MediaProcessing/Dithering/DitheringBase.cs:184-187 | fewer than three channels throw; otherwise the approximater's answer for the first three, as three bytes |
| `OptimalDithering.Quantise` | WpfApp1/MediaProcessing/Dithering/DitheringBase.cs:116-174 | with the mode fixed at 1 the colour function is the palette quantiser |
| `OptimalDithering.NewReady` | WpfApp1/Dithering.cs:945-955 | a well-formed table and a non-empty, aligned palette give an approximater that resolves every colour to a palette colour |
| `OptimalDithering.QuantiseReady` | WpfApp1/MediaProcessing/Dithering/DitheringBase.cs:184-187 | such an approximater answers every three-channel pixel, always with a palette colour |
| `OptimalDithering.ScanOrderMembers` | WpfApp1/MediaProcessing/Dithering/DitheringBase.cs:223-231 | the write loop visits every pixel of the picture and nothing else, `width * height` visits |
| `OptimalDithering.ScanIndex` | WpfApp1/MediaProcessing/Dithering/DitheringBase.cs:223-231 | pixel `(x, y)` is visit number `x * height + y` |
| `OptimalDithering.PixelRecords` | WpfApp1/MediaProcessing/Dithering/DitheringBase.cs:228-229 | the records exist iff every pixel has one, in visit order |
| `OptimalDithering.WriteToBitmap` | WpfApp1/MediaProcessing/Dithering/DitheringBase.cs:221-233 | a null worker fails; the worker gains one palette record per pixel after its earlier ones, and the file is written with the `ushort` dimensions and `widthStart` 0 |
| `OptimalDithering.WriteToBitmapOk` | WpfApp1/MediaProcessing/Dithering/DitheringBase.cs:223-231 | with a worker, writing succeeds iff every pixel's colour has a record |
| `OptimalDithering.Ditherer` | WpfApp1/Dithering.cs:796-807 | the older pipeline uses the eight-way switch, the current one the six-way switch |
| `OptimalDithering.DitherPicture` | WpfApp1/MediaProcessing/Dithering/DitheringBase.cs:151-153 | the dithered cube keeps the picture's shape; with a ready approximater it succeeds and every pixel is a palette colour |
| `OptimalDithering.ReadyRecords` | WpfApp1/MediaProcessing/Dithering/DitheringBase.cs:228-229 | after dithering with a ready approximater every pixel has a record |
| `OptimalDithering.Pipeline` | WpfApp1/MediaProcessing/Dithering/DitheringBase.cs:151-154 | a too-large picture fails with `OutOfMemory`, a null worker fails, and a ready approximater with a worker succeeds with `width * height` new records |
| `OptimalDithering.Do` | WpfApp1/MediaProcessing/Dithering/DitheringBase.cs:118-166 | null image or approximater throws unwrapped; every other failure is wrapped; an unsupported name gives a wrapped `NotSupported`; on success the picture is returned as given, the worker holds one palette record per pixel and the file is the written list; success is guaranteed for a ready approximater, a supported name, a worker and a picture that fits |
| `BinaryWorker.Le16` | WpfApp1/DataTools/BinaryWorker.cs:77-82 | two bytes, low byte first, denoting the value |
| `BinaryWorker.Header` | WpfApp1/DataTools/BinaryWorker.cs:76-83 | six bytes holding widthStart, width and height little-endian |
| `BinaryWorker.EncodeRecord` | WpfApp1/DataTools/BinaryWorker.cs:92-96 | each record is five bytes |
| `BinaryWorker.Write` | WpfApp1/DataTools/BinaryWorker.cs:61-114 | the file is the header then five bytes per record, `6 + 5n` bytes, with `FileValues` used when no list is passed |
| `BinaryWorker.WriteBuffered` | WpfApp1/DataTools/BinaryWorker.cs:86-108 | the flushed chunks are non-empty, fit in the buffer and concatenate to the record stream |
| `BinaryWorker.BufferRecord` | WpfApp1/DataTools/BinaryWorker.cs:90-102 | one loop turn keeps the index below `length - 4`, so the next record fits, and extends the stream by one record |
| `BinaryWorker.Read` | WpfApp1/DataTools/BinaryWorker.cs:28-47 | fewer than six bytes throw; otherwise one record per whole five-byte group after the header |
| `BinaryWorker.ReadWrite` | WpfApp1/DataTools/BinaryWorker.cs:28-114 | reading a written file gives back the records written |
| `BinaryWorker.WriteRead` | WpfApp1/DataTools/BinaryWorker.cs:28-114 | a file with 0/1 flags and no partial record is rewritten byte for byte from what is read |
| `BinaryWorker.ReadIgnoresTail` | WpfApp1/DataTools/BinaryWorker.cs:37 | one to four bytes after the last record are ignored |
| `BinaryWorker.ReadIgnoresHeader` | WpfApp1/DataTools/BinaryWorker.cs:33-35 | the header does not influence the records read |
| `BinaryWorker.BinaryDigitsValue` | WpfApp1/DataTools/BinaryWorker.cs:52 | `Convert.ToString(v, 2)` denotes `v` |
| `BinaryWorker.ConvertToBinary` | WpfApp1/DataTools/BinaryWorker.cs:49-59 | the digits left-padded with '0' to `length`, never truncated |
| `BinaryWorker.ConvertToBinaryValue` | WpfApp1/DataTools/BinaryWorker.cs:49-59 | the padded string still denotes the value |
| `StringExtensions.HexColorRecognised` | WpfApp1/DataTools/StringExtensions.cs:47-50 | every `#RRGGBB` rendering passes `IsHexColor` |
| `StringExtensions.HexColorLoose` | WpfApp1/DataTools/StringExtensions.cs:47-50 | '#' need not come first and may repeat; the length must be 7 and the characters hex digits or '#' |
| `StringExtensions.Scan` | WpfApp1/DataTools/StringExtensions.cs:22-41 | the loop keeps the last part of each kind |
| `StringExtensions.LastOfKind` | WpfApp1/DataTools/StringExtensions.cs:22-41 | the kept part is empty or one of the parts, of the right kind |
| `StringExtensions.InputParts` | WpfApp1/DataTools/StringExtensions.cs:15-24 | the trimmed parts contain no ':' or ',' |
| `StringExtensions.BlockLineFields` | WpfApp1/DataTools/StringExtensions.cs:44 | a block line of ':'-free fields splits into exactly its seven fields |
| `StringExtensions.FormatInputData` | WpfApp1/DataTools/StringExtensions.cs:12-45 | the output splits on ':' into "1", the last id, "0", the last colour, "Block", the last name and "-" |
| `MatrixCoder.Base62Chars` | WpfApp1/DataTools/StringExtensions.cs:54 | 62 digits in the order 0-9, A-Z, a-z |
| `MatrixCoder.IndexOfDigit` | WpfApp1/DataTools/StringExtensions.cs:138 | `IndexOf` of a code unit in the alphabet is its digit value, -1 for any other unit |
| `MatrixCoder.DigitsLength` | WpfApp1/DataTools/StringExtensions.cs:119-124 | the loop emits one digit below 62 and two below 3844 |
| `MatrixCoder.DigitsReadBack` | WpfApp1/DataTools/StringExtensions.cs:119-139 | the emitted digits read back as the number |
| `MatrixCoder.ToBase62` | WpfApp1/DataTools/StringExtensions.cs:115-133 | negative numbers throw `Argument`, numbers of 3844 or more throw `InvalidOperation`, others give exactly two digit characters |
| `MatrixCoder.ToBase62Value` | WpfApp1/DataTools/StringExtensions.cs:115-139 | two characters are quotient and remainder by 62, and their code units read back as the number |
| `MatrixCoder.EncodePairsOk` | WpfApp1/DataTools/StringExtensions.cs:68-81 | encoding succeeds iff both products of every pair fit in two digits |
| `MatrixCoder.SmallPairsFit` | WpfApp1/DataTools/StringExtensions.cs:73-74 | code units up to 768 always fit |
| `MatrixCoder.LargeUnitDoesNotFit` | WpfApp1/DataTools/StringExtensions.cs:73-74 | a code unit of 1282 or more never fits |
| `MatrixCoder.Pad` | WpfApp1/DataTools/StringExtensions.cs:63-64 | an odd number of codes gets one 0 appended |
| `MatrixCoder.Encode` | WpfApp1/DataTools/StringExtensions.cs:58-82 | empty input gives ""; output is two digit characters per padded code; failures are `InvalidOperation` |
| `MatrixCoder.EncodeRange` | WpfApp1/DataTools/StringExtensions.cs:58-82 | text with units up to 768 encodes; text with a unit of 1282 or more throws |
| `MatrixCoder.DecodePairs` | WpfApp1/DataTools/StringExtensions.cs:99-109 | an odd count of numbers throws on the missing partner; otherwise one code per number |
| `MatrixCoder.TakeNonZero` | WpfApp1/DataTools/StringExtensions.cs:112 | the longest prefix without 0 |
| `MatrixCoder.Decode` | WpfApp1/DataTools/StringExtensions.cs:84-113 | over code units: "" for empty input, `Argument` for odd length, `ArgumentOutOfRange` for length 2 mod 4, otherwise at most half as many units as it was given |
| `MatrixCoder.DecodeMix` | WpfApp1/DataTools/StringExtensions.cs:55-56 | the decoding matrix divided by 10 undoes the encoding matrix on non-negative codes |
| `MatrixCoder.NumbersOfEncoding` | WpfApp1/DataTools/StringExtensions.cs:66-97 | the code units of an encoding read back, pair by pair, as the matrix products |
| `MatrixCoder.RoundTrip` | WpfApp1/DataTools/StringExtensions.cs:58-113 | text without U+0000 that encodes decodes back to itself from the code units of its encoding |
| `MatrixCoder.TrailingNulLost` | WpfApp1/DataTools/StringExtensions.cs:64 | a lone U+0000 encodes to "0000" and decodes to "" |
| `MatrixCoder.SurrogatesDecode` | WpfApp1/DataTools/StringExtensions.cs:84-113 | two surrogate pairs, which hold no digit, decode to two U+FFF4 units through the truncating division and the `(char)` cast |
| `GradientBoundary.CheckArguments` | WpfApp1/MediaProcessing/EdgeDetecting/GradientBoundaryProcessor.cs:60-64 | no error iff sensitivity is in [0.01, 0.5] and minRegionSize is non-negative; otherwise `ArgumentOutOfRange` |
| `GradientBoundary.CreateBinaryMask` | WpfApp1/MediaProcessing/EdgeDetecting/GradientBoundaryProcessor.cs:144-155 | the mask has the gradients' length and cell `i` is set iff gradient `i` exceeds sensitivity times the maximum |
| `GradientBoundary.MaskMonotone` | WpfApp1/MediaProcessing/EdgeDetecting/GradientBoundaryProcessor.cs:146-151 | a higher sensitivity sets no more cells |
| `GradientBoundary.RowCoordsExact` | WpfApp1/MediaProcessing/EdgeDetecting/GradientBoundaryProcessor.cs:215-225 | a row succeeds iff it lies inside the mask, and then lists exactly its set cells in column order |
| `GradientBoundary.RowsOk` | WpfApp1/MediaProcessing/EdgeDetecting/GradientBoundaryProcessor.cs:213-232 | the rows succeed iff they lie inside the mask |
| `GradientBoundary.RowsMembers` | WpfApp1/MediaProcessing/EdgeDetecting/GradientBoundaryProcessor.cs:213-232 | the rows list exactly their set cells, in raster order |
| `GradientBoundary.RowsCount` | WpfApp1/MediaProcessing/EdgeDetecting/GradientBoundaryProcessor.cs:213-234 | their number is the number of set cells in those rows |
| `GradientBoundary.Coordinates` | WpfApp1/MediaProcessing/EdgeDetecting/GradientBoundaryProcessor.cs:208-236 | no rows give no coordinates; a negative width with rows to scan fails; every failure comes out of `Parallel.For` wrapped in an `AggregateException` |
| `GradientBoundary.CoordinatesExact` | WpfApp1/MediaProcessing/EdgeDetecting/GradientBoundaryProcessor.cs:208-236 | on a mask covering `w * h` cells, the output is exactly the set cells, each once, in raster order, as many as there are set cells |
| `GradientBoundary.IncreasingDistinct` | WpfApp1/MediaProcessing/EdgeDetecting/GradientBoundaryProcessor.cs:223 | coordinates in raster order are pairwise distinct |
| `GradientBoundary.ProcessImage` | WpfApp1/MediaProcessing/EdgeDetecting/GradientBoundaryProcessor.cs:55-78 | bad arguments, and only they, throw `ArgumentOutOfRange` unwrapped; every later failure is an `ImageProcessingException` around an `AggregateException` |
| `GradientBoundary.ProcessImageExact` | WpfApp1/MediaProcessing/EdgeDetecting/GradientBoundaryProcessor.cs:55-78 | with valid arguments, a gradient map of the image's size and a size-keeping filter, the result is exactly the set cells of the filtered mask |
| `UnionFind.New` | WpfApp1/MediaProcessing/EdgeDetecting/GradientBoundaryProcessor.cs:246-250 | `size + 1` elements (wrapped), each its own parent; a negative length throws |
| `UnionFind.NewSingletons` | WpfApp1/MediaProcessing/EdgeDetecting/GradientBoundaryProcessor.cs:246-250 | a fresh structure is a forest of singletons |
| `UnionFind.HalveRoots` | WpfApp1/MediaProcessing/EdgeDetecting/GradientBoundaryProcessor.cs:256 | one halving step keeps the forest and changes no element's root |
| `UnionFind.Find` | WpfApp1/MediaProcessing/EdgeDetecting/GradientBoundaryProcessor.cs:252-260 | an index outside the array throws; otherwise the root of `x`, a self-parented element, with the forest and every element's root kept |
| `UnionFind.RootRankFree` | WpfApp1/MediaProcessing/EdgeDetecting/GradientBoundaryProcessor.cs:252-260 | the root does not depend on the rank that witnesses the forest |
| `UnionFind.LinkRoots` | WpfApp1/MediaProcessing/EdgeDetecting/GradientBoundaryProcessor.cs:266 | linking `rootY` under `rootX` moves exactly `rootY`'s class |
| `UnionFind.Union` | WpfApp1/MediaProcessing/EdgeDetecting/GradientBoundaryProcessor.cs:262-267 | succeeds iff both indices are inside; otherwise `IndexOutOfRange` |
| `UnionFind.UnionEffect` | WpfApp1/MediaProcessing/EdgeDetecting/GradientBoundaryProcessor.cs:262-267 | afterwards `x` and `y` share a root, `y`'s class joins `x`'s, and every other element keeps its root |
| `IndexGenerator.Next` | WpfApp1/MediaProcessing/UniqueIndexGenerator.cs:14-25 | returns the counter and increments it by one, wrapping at the `int` maximum |
| `IndexGenerator.CallsCount` | WpfApp1/MediaProcessing/UniqueIndexGenerator.cs:19 | without wrapping, call `k` from counter `c` returns `c + k` and leaves `c + n` |
| `IndexGenerator.FreshCalls` | WpfApp1/MediaProcessing/UniqueIndexGenerator.cs:12-19 | from a fresh generator the first `n` calls return 1..n, strictly increasing, and the counter is `n + 1` |
| `IndexGenerator.WrapAfterMax` | WpfApp1/MediaProcessing/UniqueIndexGenerator.cs:19 | after the `int` maximum the next value is the `int` minimum |
| `FrameIndex.FirstFree` | WpfApp1/Converter.cs:227-235 | the first index from `i` on without a file; every index skipped has one |
| `FrameIndex.Probe` | WpfApp1/Converter.cs:223-237 | the result is at least the index and has no file; it equals the index iff there is no collision; every index skipped has a file |
| `FrameIndex.Step` | WpfApp1/Converter.cs:223-252 | the claim fails iff the probed index is in flight; the original index is removed; a moved, claimed index stays in the table |
| `FrameIndex.StepDropsFrame` | WpfApp1/Converter.cs:223-252 | when `photo1` exists and another frame has claimed 2, frame 1 is probed onto 2, its claim fails, and the table is left holding only the other frame's 2 |
| `FrameIndex.StepLeaksEntry` | WpfApp1/Converter.cs:223-252 | when `photo1` exists and nothing is in flight, frame 1 claims 2 but removes 1 on exit, so the entry for 2 is left behind |
| `FrameIndex.FirstUnused` | WpfApp1/Converter.cs:225-235 | the first index from `i` on with neither a file nor an in-flight entry |
| `FrameIndex.SafeStep` | WpfApp1/Converter.cs:223-252 | always claims an index with no file that is not in flight, keeps the index when it is free, and restores the table |

## Left out

- The image analyser (WpfApp1/Dithering.cs:82-263, WpfApp1/MediaProcessing/Dithering/DitheringAlgorithms.cs:436-617). It needs ImageSharp grey-scaling and Sobel edge detection and floating-point statistics. Its result is an input record of the selector.
- The HSL sampling of the hue ranges, `HueRange`, the default tile list and the torch-id list. They are in parts of the partial classes that are not part of this model, so the sampled table and the torch ids are inputs.
- File, stream and buffer-pool I/O (`File.ReadAllBytes`, `FileStream`, `ArrayPool`), `File.Exists`, and the palette file loader. Files are byte sequences and the existing output files are a set.
- Concurrency: the semaphore of the index generator, `Parallel.For` in the mask and coordinate passes, the worker pool and the concurrent in-flight dictionary. Each is modelled sequentially. The coordinate pass's row order under `Parallel.For` is nondeterministic; the model fixes row order, and `CoordinatesExact` states membership and count, which hold in every order.
- `CalculateGradients` and `FilterSmallRegions` (float vectors, racy parallel labelling). `ProcessImage` takes the gradient map and the filter as parameters.
- Floating point: kernel weights, errors, hue and the sensitivity threshold are exact reals. The web-safe `Math.Round` is modelled as round-half-up on integers; the two agree for byte inputs.
- `ColorApproximater.Resolve`: its contract states only that the answer lies in some bucket. The exact arg-min promise is on `Nearest`, and membership of the palette is proved under well-formedness by `ResolveTotal`.
- `GradientBoundary.Coordinates`: its contract states the empty and failing cases only. The full behaviour is in `CoordinatesExact`. The `int` overflow of `y * width` for huge masks is not modelled. `Parallel.For` collects the exceptions of every failing row into its `AggregateException`; the model's `Aggregate` carries the first failing row's exception only.
- `UnionFind.Union`: it is modelled on a fresh copy of the array. A failing `Find(y)` after a successful `Find(x)` leaves `x`'s path halved in the source; the model returns only the error.
- `FrameIndex.Probe`: the source loop increments an `int` without bound. The model uses unbounded integers and a finite set of existing files.
- `OptimalDithering.WriteToBitmap`: on failure part of `FileValues` may already have been appended in the source. The model returns only the error.
- `OptimalDithering.ReadBitmap`: the .NET array size limit is approximated by the `int` maximum on `width * height * 3`.
- `ByteImage.FromCube`: the `createCopy` flag is left out, since a copy and the original hold the same values.
- `Text.ParseUnsigned`: the current culture's positive and negative sign strings are taken to be '+' and '-'. `Convert.ToUInt16`, `Convert.ToByte` and `uint.TryParse` read them from `NumberFormatInfo.CurrentInfo`, so a culture with another minus sign (U+2212 under sv-SE, for one) accepts "\u22120" where the model gives `Format`. The culture is process state the model does not carry; `StringExtensions.KindOf` and `StringExtensions.FormatInputData` inherit the same assumption.
- The XML constructor of `Pixel` and the `Del` method of `Pixels`, which the core does not call.
- `PhotoTileConverter.Convert` and the video pipeline, which are not part of this model.

## Findings

| source | as written | input that shows it | evidently intended | confidence | as-written member | corrected member |
|---|---|---|---|---|---|---|
| WpfApp1/MediaProcessing/Dithering/DitheringAlgorithms.cs:404 | the selector returns "Stucki", but the switch of `OptimalDitheringSelector.Do` (WpfApp1/MediaProcessing/Dithering/DitheringBase.cs:140-149) has no Stucki arm, so the pipeline throws `NotSupportedException` | a 1000 x 1000 image with smooth gradients and noise 0.1 | every name the selector returns has a ditherer, as in the eight-way switch of the older file | high, not executed | `Selector.StuckiReachable` | `Selector.SelectDispatch` |
| WpfApp1/MediaProcessing/Dithering/DitheringAlgorithms.cs:242 | the shape check compares a wrapped `int` product, so invalid shapes pass | an empty buffer with 65536 x 65536 x 1; a one-byte buffer with width and height -1 | accept exactly non-negative dimensions whose product is the buffer length | high, not executed | `ByteImage.FromFlatAcceptsBadShapes` | `ByteImage.FromFlatChecked` |
| WpfApp1/Converter.cs:223-252 | the probe skips indices with a file but not indices in flight, and the `finally` removes the original index, not the claimed one | `photo1` exists and another frame has already claimed 2: frame 1 probes to 2, `TryAdd` fails and the frame is not converted; with nothing in flight frame 1 claims 2 and its entry is never removed. The drop needs two frames at once, which the shipped processors, feeding one image through a semaphore of 1, do not run, so it is latent | skip in-flight indices too and release the index that was claimed | low, not executed | `FrameIndex.StepDropsFrame`, `FrameIndex.StepLeaksEntry` | `FrameIndex.SafeStep` |

=== FILE: binary_worker.dfy ===
/** `BinaryWorker`: the tile file. A 6-byte header (three little-endian
    16-bit values: first column, width, height) is followed by one 5-byte
    record per tile: wall flag, torch flag, id low byte, id high byte,
    paint. The writer stages records in a large pooled buffer and flushes it
    in chunks; the reader is lenient about flags and trailing bytes. */
module BinaryWorker {
  import opened Common

  /** The worker: the output path and the records queued in `FileValues`. */
  datatype Worker = Worker(path: string, fileValues: seq<Record>)

  /** The size asked of the buffer pool; the pool may hand out more. */
  const BufferSize: int := 6 * 1024 * 1024

  /** `(byte)v, (byte)(v >> 8)`. */
  function Le16(v: U16): (b: seq<Byte>)
    ensures |b| == 2 && b[0] as int + 256 * b[1] as int == v
  {
    [v % 256, v / 256]
  }

  function FlagByte(f: bool): Byte {
    if f then 1 else 0
  }

  /** The header of `Write`. */
  function Header(widthStart: U16, width: U16, height: U16): (h: seq<Byte>)
    ensures |h| == 6
    ensures h[0] as int + 256 * h[1] as int == widthStart
    ensures h[2] as int + 256 * h[3] as int == width
    ensures h[4] as int + 256 * h[5] as int == height
  {
    Le16(widthStart) + Le16(width) + Le16(height)
  }

  /** The five bytes of one record. */
  function EncodeRecord(r: Record): (b: seq<Byte>)
    ensures |b| == 5
  {
    [FlagByte(r.isWall), FlagByte(r.isTorch)] + Le16(r.id) + [r.paint]
  }

  function EncodeAll(rs: seq<Record>): (b: seq<Byte>)
    ensures |b| == 5 * |rs|
  {
    if |rs| == 0 then [] else EncodeRecord(rs[0]) + EncodeAll(rs[1..])
  }

  lemma {:induction false} EncodeAllAppend(a: seq<Record>, b: seq<Record>)
    ensures EncodeAll(a + b) == EncodeAll(a) + EncodeAll(b)
  {
    if |a| > 0 {
      assert (a + b)[0] == a[0];
      assert (a + b)[1..] == a[1..] + b;
      EncodeAllAppend(a[1..], b);
    } else {
      assert a + b == b;
    }
  }

  /** `array ??= FileValues`. */
  function Values(w: Worker, values: Option<seq<Record>>): seq<Record> {
    match values
    case Some(a) => a
    case None => w.fileValues
  }

  /** The file `Write` leaves behind. */
  function Write(w: Worker, width: U16, height: U16, widthStart: U16, values: Option<seq<Record>>): (file: seq<Byte>)
    ensures |file| == 6 + 5 * |Values(w, values)|
    ensures file[..6] == Header(widthStart, width, height)
  {
    Header(widthStart, width, height) + EncodeAll(Values(w, values))
  }

  /** The concatenation of the flushed chunks, in order. */
  function Flatten(chunks: seq<seq<Byte>>): seq<Byte> {
    if |chunks| == 0 then [] else Flatten(chunks[..|chunks| - 1]) + chunks[|chunks| - 1]
  }

  /** The buffered record loop of `Write` with a pooled buffer of
      `bufferLength` bytes: each record is copied in at `bufferIndex`, and the
      buffer is flushed once fewer than five free bytes could remain. Every
      write stays inside the buffer, no chunk is empty, and the chunks
      concatenate to the record stream. */
  method WriteBuffered(records: seq<Record>, bufferLength: int) returns (chunks: seq<seq<Byte>>)
    requires bufferLength >= BufferSize
    ensures Flatten(chunks) == EncodeAll(records)
    ensures forall i :: 0 <= i < |chunks| ==> 0 < |chunks[i]| <= bufferLength
  {
    var buffer: seq<Byte> := seq(bufferLength, _ => 0);
    var bufferIndex := 0;
    chunks := [];
    var n := 0;
    while n < |records|
      invariant 0 <= n <= |records|
      invariant |buffer| == bufferLength
      invariant 0 <= bufferIndex < bufferLength - 4
      invariant Flatten(chunks) + buffer[..bufferIndex] == EncodeAll(records[..n])
      invariant forall i :: 0 <= i < |chunks| ==> 0 < |chunks[i]| <= bufferLength
    {
      chunks, buffer, bufferIndex := BufferRecord(chunks, buffer, bufferIndex, records, n);
      n := n + 1;
    }
    assert records[..n] == records;
    if bufferIndex > 0 {
      chunks := Flush(chunks, buffer[..bufferIndex]);
    }
  }

  /** One turn of the record loop: copy the record in, then flush if the
      buffer is nearly full. */
  method BufferRecord(chunks: seq<seq<Byte>>, buffer: seq<Byte>, bufferIndex: int, records: seq<Record>, n: int)
    returns (chunks': seq<seq<Byte>>, buffer': seq<Byte>, bufferIndex': int)
    requires 0 <= n < |records| && 0 <= bufferIndex < |buffer| - 4
    requires Flatten(chunks) + buffer[..bufferIndex] == EncodeAll(records[..n])
    requires forall i :: 0 <= i < |chunks| ==> 0 < |chunks[i]| <= |buffer|
    ensures |buffer'| == |buffer| && 0 <= bufferIndex' < |buffer| - 4
    ensures Flatten(chunks') + buffer'[..bufferIndex'] == EncodeAll(records[..n + 1])
    ensures forall i :: 0 <= i < |chunks'| ==> 0 < |chunks'[i]| <= |buffer|
  {
    buffer' := CopyIn(buffer, bufferIndex, EncodeRecord(records[n]));
    bufferIndex' := bufferIndex + 5;
    RecordAppended(records, n);
    chunks' := chunks;
    if bufferIndex' >= |buffer| - 4 {
      chunks' := Flush(chunks, buffer'[..bufferIndex']);
      bufferIndex' := 0;
    }
  }

  /** Copying `bytes` into the buffer at `at`: the bound check of the array
      writes is the precondition. */
  function CopyIn(buffer: seq<Byte>, at: int, bytes: seq<Byte>): (r: seq<Byte>)
    requires 0 <= at && at + |bytes| <= |buffer|
    ensures |r| == |buffer| && r[..at + |bytes|] == buffer[..at] + bytes
  {
    buffer[..at] + bytes + buffer[at + |bytes|..]
  }

  /** Flushing a chunk appends it to the stream. */
  function Flush(chunks: seq<seq<Byte>>, chunk: seq<Byte>): (r: seq<seq<Byte>>)
    ensures Flatten(r) == Flatten(chunks) + chunk
    ensures r == chunks + [chunk]
  {
    assert (chunks + [chunk])[..|chunks|] == chunks;
    chunks + [chunk]
  }

  lemma RecordAppended(records: seq<Record>, n: int)
    requires 0 <= n < |records|
    ensures EncodeAll(records[..n + 1]) == EncodeAll(records[..n]) + EncodeRecord(records[n])
  {
    EncodeAllAppend(records[..n], [records[n]]);
    assert records[..n + 1] == records[..n] + [records[n]];
    assert EncodeAll([records[n]]) == EncodeRecord(records[n]) + EncodeAll([]);
  }

  /** `Convert.ToBoolean(byte)`: any non-zero byte is true. */
  function FlagOf(b: Byte): bool {
    b != 0
  }

  /** The record at offset `i`. */
  function DecodeAt(bytes: seq<Byte>, i: int): Record
    requires 0 <= i && i + 5 <= |bytes|
  {
    Record(FlagOf(bytes[i]), FlagOf(bytes[i + 1]), bytes[i + 2] as int + 256 * bytes[i + 3] as int, bytes[i + 4])
  }

  /** The record loop of `Read` from offset `i`: it runs while a whole record
      is left, so a tail of one to four bytes is skipped. */
  function ReadFrom(bytes: seq<Byte>, i: int): (rs: seq<Record>)
    requires 0 <= i <= |bytes|
    ensures |rs| == (|bytes| - i) / 5
    decreases |bytes| - i
  {
    if i < |bytes| && i + 4 < |bytes| then [DecodeAt(bytes, i)] + ReadFrom(bytes, i + 5) else []
  }

  /** `Read`: the header is decoded and dropped; a file shorter than the
      header fails on the index. */
  function Read(bytes: seq<Byte>): (r: Result<seq<Record>>)
    ensures |bytes| < 6 <==> r == Err(IndexOutOfRange)
    ensures r.Ok? ==> |r.value| == (|bytes| - 6) / 5
  {
    if |bytes| < 6 then Err(IndexOutOfRange) else Ok(ReadFrom(bytes, 6))
  }

  lemma DecodeEncoded(prefix: seq<Byte>, r: Record, rest: seq<Byte>)
    ensures DecodeAt(prefix + EncodeRecord(r) + rest, |prefix|) == r
  {
    var bytes := prefix + EncodeRecord(r) + rest;
    var i := |prefix|;
    assert bytes[i..i + 5] == EncodeRecord(r);
  }

  lemma {:induction false} ReadFromEncoded(prefix: seq<Byte>, rs: seq<Record>)
    ensures ReadFrom(prefix + EncodeAll(rs), |prefix|) == rs
    decreases |rs|
  {
    if |rs| > 0 {
      var head := prefix + EncodeRecord(rs[0]);
      assert prefix + EncodeAll(rs) == head + EncodeAll(rs[1..]);
      DecodeEncoded(prefix, rs[0], EncodeAll(rs[1..]));
      ReadFromEncoded(head, rs[1..]);
    }
  }

  /** Reading a written file gives back the records written. */
  lemma ReadWrite(w: Worker, width: U16, height: U16, widthStart: U16, values: Option<seq<Record>>)
    ensures Read(Write(w, width, height, widthStart, values)) == Ok(Values(w, values))
  {
    ReadFromEncoded(Header(widthStart, width, height), Values(w, values));
  }

  /** A file whose flags are all 0 or 1 and that ends on a record boundary
      is exactly what `Write` makes of its own records. */
  predicate Canonical(bytes: seq<Byte>) {
    |bytes| >= 6 && (|bytes| - 6) % 5 == 0
    && forall i :: 6 <= i < |bytes| && (i - 6) % 5 < 2 ==> bytes[i] < 2
  }

  /** A record whose flag bytes are 0 or 1 re-encodes to its own bytes. */
  lemma RecordBytes(bytes: seq<Byte>, i: int)
    requires 0 <= i && i + 5 <= |bytes| && bytes[i] < 2 && bytes[i + 1] < 2
    ensures EncodeRecord(DecodeAt(bytes, i)) == bytes[i..i + 5]
  {
  }

  lemma {:induction false} EncodeReadFrom(bytes: seq<Byte>, i: int)
    requires 6 <= i <= |bytes| && (|bytes| - i) % 5 == 0 && (i - 6) % 5 == 0
    requires forall j :: 6 <= j < |bytes| && (j - 6) % 5 < 2 ==> bytes[j] < 2
    ensures EncodeAll(ReadFrom(bytes, i)) == bytes[i..]
    decreases |bytes| - i
  {
    if i < |bytes| {
      assert (i + 1 - 6) % 5 == 1;
      assert bytes[i] < 2 && bytes[i + 1] < 2;
      RecordBytes(bytes, i);
      EncodeReadFrom(bytes, i + 5);
      assert bytes[i..] == bytes[i..i + 5] + bytes[i + 5..];
    }
  }

  /** The other direction of the round trip: a canonical file is rewritten
      byte for byte from its header and the records read from it. */
  lemma WriteRead(bytes: seq<Byte>)
    requires Canonical(bytes)
    ensures Read(bytes).Ok?
    ensures bytes[..6] + EncodeAll(Read(bytes).value) == bytes
  {
    EncodeReadFrom(bytes, 6);
  }

  lemma {:induction false} ReadFromTail(bytes: seq<Byte>, tail: seq<Byte>, i: int)
    requires 0 <= i <= |bytes| && (|bytes| - i) % 5 == 0 && |tail| < 5
    ensures ReadFrom(bytes + tail, i) == ReadFrom(bytes, i)
    decreases |bytes| - i
  {
    if i < |bytes| {
      ReadFromTail(bytes, tail, i + 5);
      assert DecodeAt(bytes + tail, i) == DecodeAt(bytes, i);
    }
  }

  /** One to four bytes after the last whole record are ignored. */
  lemma ReadIgnoresTail(bytes: seq<Byte>, tail: seq<Byte>)
    requires |bytes| >= 6 && (|bytes| - 6) % 5 == 0 && |tail| < 5
    ensures Read(bytes + tail) == Read(bytes)
  {
    ReadFromTail(bytes, tail, 6);
  }

  lemma {:induction false} ReadFromShift(a: seq<Byte>, b: seq<Byte>, body: seq<Byte>)
    requires |a| == |b|
    ensures ReadFrom(a + body, |a|) == ReadFrom(b + body, |b|)
    decreases |body|
  {
    if |body| >= 5 {
      assert a + body == (a + body[..5]) + body[5..];
      assert b + body == (b + body[..5]) + body[5..];
      ReadFromShift(a + body[..5], b + body[..5], body[5..]);
      assert DecodeAt(a + body, |a|) == DecodeAt(b + body, |b|);
    }
  }

  /** The header does not influence the records read. */
  lemma ReadIgnoresHeader(h1: seq<Byte>, h2: seq<Byte>, body: seq<Byte>)
    requires |h1| == 6 && |h2| == 6
    ensures Read(h1 + body) == Read(h2 + body)
  {
    ReadFromShift(h1, h2, body);
  }

  // ------------------------------------------------------------ ConvertToBinary

  function BitChar(b: int): char
    requires 0 <= b < 2
  {
    if b == 0 then '0' else '1'
  }

  function BitValue(c: char): int {
    if c == '1' then 1 else 0
  }

  /** `Convert.ToString(v, 2)`: the base-2 digits without leading zeros, and
      "0" for zero. */
  function BinaryDigits(v: nat): (s: string)
    ensures |s| >= 1 && (v > 0 ==> s[0] == '1')
    ensures forall i :: 0 <= i < |s| ==> s[i] == '0' || s[i] == '1'
  {
    if v < 2 then [BitChar(v)] else BinaryDigits(v / 2) + [BitChar(v % 2)]
  }

  /** The value of a string of binary digits. */
  function FromBinary(s: string): nat {
    if |s| == 0 then 0 else 2 * FromBinary(s[..|s| - 1]) + BitValue(s[|s| - 1])
  }

  lemma {:induction false} BinaryDigitsValue(v: nat)
    ensures FromBinary(BinaryDigits(v)) == v
  {
    if v >= 2 {
      BinaryDigitsValue(v / 2);
      var s := BinaryDigits(v / 2) + [BitChar(v % 2)];
      assert s[..|s| - 1] == BinaryDigits(v / 2);
    }
  }

  /** The padding loop: `n` zeros, none for `n <= 0`. */
  function ZeroPad(n: int): (s: string)
    ensures |s| == if n > 0 then n else 0
    ensures forall i :: 0 <= i < |s| ==> s[i] == '0'
    decreases n
  {
    if n <= 0 then "" else ZeroPad(n - 1) + "0"
  }

  lemma {:induction false} LeadingZeros(n: nat, s: string)
    ensures FromBinary(ZeroPad(n) + s) == FromBinary(s)
    decreases |s|, n
  {
    if |s| > 0 {
      var t := ZeroPad(n) + s;
      assert t[..|t| - 1] == ZeroPad(n) + s[..|s| - 1];
      LeadingZeros(n, s[..|s| - 1]);
    } else if n > 0 {
      assert ZeroPad(n) + s == ZeroPad(n - 1) + "0";
      LeadingZeros(n - 1, s);
      assert ZeroPad(n - 1) + s == ZeroPad(n - 1);
    }
  }

  /** `ConvertToBinary`: the digits of `value`, left-padded with '0' to
      `length` characters; a longer digit string is kept whole. */
  function ConvertToBinary(value: U16, length: Byte): (s: string)
    ensures |s| == if length > |BinaryDigits(value)| then length else |BinaryDigits(value)|
    ensures s[|s| - |BinaryDigits(value)|..] == BinaryDigits(value)
    ensures forall i :: 0 <= i < |s| - |BinaryDigits(value)| ==> s[i] == '0'
  {
    var digits := BinaryDigits(value);
    ZeroPad(length - |digits|) + digits
  }

  /** The padded string still denotes `value`. */
  lemma ConvertToBinaryValue(value: U16, length: Byte)
    ensures FromBinary(ConvertToBinary(value, length)) == value
  {
    var digits := BinaryDigits(value);
    LeadingZeros(if length - |digits| > 0 then length - |digits| else 0, digits);
    BinaryDigitsValue(value);
  }
}

=== FILE: byte_image.dfy ===
/** `TempByteImageFormat`: the pixel buffer the error-diffusion engine works
    on, with its two storages (a 3-D array `[x, y, channel]` or a flat
    row-major buffer), its checked pixel accessors, its raw export and the
    per-channel error arithmetic. */
module ByteImage {
  import opened Common

  datatype Storage = Cube(cells: seq<seq<seq<Byte>>>) | Flat(data: seq<Byte>)

  datatype Image = Image(width: int, height: int, channels: int, storage: Storage)

  /** `cells` has the shape of a `byte[w, h, c]` array. */
  predicate IsArray3(cells: seq<seq<seq<Byte>>>, w: int, h: int, c: int) {
    |cells| == w
    && forall x :: 0 <= x < w ==>
         |cells[x]| == h && forall y :: 0 <= y < h ==> |cells[x][y]| == c
  }

  /** Dimensions that describe the storage: what a 3-D array always has and
      what the flat constructor means to check. A .NET array holds at most
      `int.MaxValue` elements. */
  predicate Valid(img: Image) {
    0 <= img.width && 0 <= img.height && 0 <= img.channels
    && img.width * img.height * img.channels <= Int32Max
    && match img.storage
       case Cube(cells) => IsArray3(cells, img.width, img.height, img.channels)
       case Flat(data) => |data| == img.width * img.height * img.channels
  }

  /** `ValidateCoordinates`. */
  predicate InBounds(img: Image, x: int, y: int) {
    0 <= x < img.width && 0 <= y < img.height
  }

  /** A two-digit mixed-radix number stays below its range. */
  lemma PairBound(a: int, b: int, na: int, nb: int)
    requires 0 <= a < na && 0 <= b < nb
    ensures 0 <= a * nb + b < na * nb
  {
    MulMono(a, na - 1, nb);
  }

  lemma PairUnique(a1: int, b1: int, a2: int, b2: int, nb: int)
    requires 0 <= b1 < nb && 0 <= b2 < nb && a1 * nb + b1 == a2 * nb + b2
    ensures a1 == a2 && b1 == b2
  {
    DivMod(a1 * nb + b1, nb, a1, b1);
    DivMod(a2 * nb + b2, nb, a2, b2);
  }

  /** Splitting an index below `n * d` into quotient and remainder by `d`. */
  lemma SplitIndex(k: int, d: int, n: int)
    requires d > 0 && 0 <= k < n * d
    ensures 0 <= k / d < n && 0 <= k % d < d
  {
    if k / d >= n {
      MulMono(n, k / d, d);
    }
  }

  /** The `int` expression `(y * Width + x) * ChannelsPerPixel` of the flat
      accessors, wrap-around included. */
  function FlatOffset(img: Image, x: int, y: int): int {
    Wrap32(Wrap32(Wrap32(y * img.width) + x) * img.channels)
  }

  /** A run of `c` bytes at slot `p` of `n` slots lies inside `n * c` bytes. */
  lemma RunBound(p: int, n: int, c: int)
    requires 0 <= p < n && 0 <= c
    ensures 0 <= p * c && p * c + c <= n * c
  {
    MulMono(p + 1, n, c);
    MulMono(0, p, c);
  }

  lemma AtMostProduct(n: int, c: int)
    requires 0 <= n && 1 <= c
    ensures n <= n * c
  {
    MulMono(1, c, n);
  }

  /** The row-major offset of a pixel never wraps in a valid image. */
  lemma FlatOffsetExact(img: Image, x: int, y: int)
    requires Valid(img) && InBounds(img, x, y)
    ensures FlatOffset(img, x, y) == (y * img.width + x) * img.channels
    ensures 0 <= (y * img.width + x) * img.channels
    ensures (y * img.width + x) * img.channels + img.channels <= img.width * img.height * img.channels
  {
    var w, h, c := img.width, img.height, img.channels;
    var p := y * w + x;
    var n := w * h;
    PairBound(y, x, h, w);
    assert h * w == n;
    RunBound(p, n, c);
    if c > 0 {
      AtMostProduct(n, c);
      MulMono(0, y, w);
      assert 0 <= y * w <= p < n <= Int32Max;
      assert Wrap32(y * w) == y * w;
      assert Wrap32(y * w + x) == p;
      assert Wrap32(p * c) == p * c;
    } else {
      assert p * c == 0;
    }
  }

  /** `Array.Copy` out of `data`: a negative index or count is out of range,
      a run past the end is an argument error. */
  function CopyOut(data: seq<Byte>, o: int, n: int): (r: Result<seq<Byte>>)
    ensures r.Ok? <==> 0 <= o && 0 <= n && o + n <= |data|
    ensures r.Ok? ==> |r.value| == n && forall i :: 0 <= i < n ==> r.value[i] == data[o + i]
  {
    if o < 0 || n < 0 then Err(ArgumentOutOfRange)
    else if o + n > |data| then Err(Argument)
    else Ok(data[o..o + n])
  }

  /** `GetPixelChannels(x, y, ref buffer)` with a buffer of `channels` bytes
      (every caller passes one). */
  function Get(img: Image, x: int, y: int): (r: Result<seq<Byte>>)
    ensures !InBounds(img, x, y) ==> r == Err(ArgumentOutOfRange)
  {
    if !InBounds(img, x, y) then Err(ArgumentOutOfRange)
    else match img.storage
      case Cube(cells) =>
        if x < |cells| && y < |cells[x]| && |cells[x][y]| == img.channels then Ok(cells[x][y])
        else Err(IndexOutOfRange)
      case Flat(data) => CopyOut(data, FlatOffset(img, x, y), img.channels)
  }

  /** `SetPixelChannels`. */
  function Set(img: Image, x: int, y: int, v: seq<Byte>): (r: Result<Image>)
    ensures !InBounds(img, x, y) ==> r == Err(ArgumentOutOfRange)
    ensures InBounds(img, x, y) && |v| != img.channels ==> r == Err(Argument)
    ensures r.Ok? ==> (r.value.width, r.value.height, r.value.channels)
                      == (img.width, img.height, img.channels)
                      && r.value.storage.Cube? == img.storage.Cube?
  {
    if !InBounds(img, x, y) then Err(ArgumentOutOfRange)
    else if |v| != img.channels then Err(Argument)
    else match img.storage
      case Cube(cells) =>
        if x < |cells| && y < |cells[x]| then Ok(img.(storage := Cube(cells[x := cells[x][y := v]])))
        else Err(IndexOutOfRange)
      case Flat(data) =>
        var o := FlatOffset(img, x, y);
        if o < 0 then Err(ArgumentOutOfRange)
        else if o + |v| > |data| then Err(Argument)
        else Ok(img.(storage := Flat(data[..o] + v + data[o + |v|..])))
  }

  /** Every in-bounds pixel of a valid image can be read and has `channels`
      bytes. */
  lemma GetValid(img: Image, x: int, y: int)
    requires Valid(img) && InBounds(img, x, y)
    ensures Get(img, x, y).Ok? && |Get(img, x, y).value| == img.channels
  {
    if img.storage.Flat? {
      FlatOffsetExact(img, x, y);
    }
  }

  /** Runs of `c` bytes at two different slots do not overlap. */
  lemma SlotRunsApart(p: int, q: int, c: int)
    requires 0 <= p && 0 <= q && p != q && 0 <= c
    ensures p * c + c <= q * c || q * c + c <= p * c
  {
    if p < q {
      MulMono(p + 1, q, c);
    } else {
      MulMono(q + 1, p, c);
    }
  }

  /** Two distinct pixels occupy disjoint row-major runs. */
  lemma RowMajorRunsApart(x: int, y: int, x': int, y': int, w: int, c: int)
    requires 0 <= x < w && 0 <= x' < w && 0 <= y && 0 <= y' && (x, y) != (x', y') && 0 <= c
    ensures (y * w + x) * c + c <= (y' * w + x') * c || (y' * w + x') * c + c <= (y * w + x) * c
  {
    var p, q := y * w + x, y' * w + x';
    if p == q {
      PairUnique(y, x, y', x', w);
    }
    MulMono(0, y, w);
    MulMono(0, y', w);
    SlotRunsApart(p, q, c);
  }

  /** Writing a pixel: it reads back as written, every other pixel reads as
      before, and the image keeps its dimensions and validity. */
  lemma SetGet(img: Image, x: int, y: int, v: seq<Byte>)
    requires Valid(img) && InBounds(img, x, y) && |v| == img.channels
    ensures Set(img, x, y, v).Ok?
    ensures var img' := Set(img, x, y, v).value;
      Valid(img') && Get(img', x, y) == Ok(v)
      && forall x', y' :: InBounds(img, x', y') && (x', y') != (x, y) ==>
           Get(img', x', y') == Get(img, x', y')
  {
    FlatOffsetExact(img, x, y);
    var img' := Set(img, x, y, v).value;
    if img.storage.Flat? {
      var o := FlatOffset(img, x, y);
      assert img'.storage.data[o..o + img.channels] == v;
      forall x', y' | InBounds(img, x', y') && (x', y') != (x, y)
        ensures Get(img', x', y') == Get(img, x', y')
      {
        SetOther(img, x, y, v, x', y');
      }
    }
  }

  /** Writing one pixel of a flat image leaves another pixel's run alone. */
  lemma SetOther(img: Image, x: int, y: int, v: seq<Byte>, x': int, y': int)
    requires Valid(img) && img.storage.Flat? && |v| == img.channels
    requires InBounds(img, x, y) && InBounds(img, x', y') && (x', y') != (x, y)
    ensures Set(img, x, y, v).Ok?
    ensures Get(Set(img, x, y, v).value, x', y') == Get(img, x', y')
  {
    FlatOffsetExact(img, x, y);
    FlatOffsetExact(img, x', y');
    RowMajorRunsApart(x, y, x', y', img.width, img.channels);
    SpliceElsewhere(img.storage.data, FlatOffset(img, x, y), v, FlatOffset(img, x', y'), img.channels);
  }

  /** Splicing a run into a buffer leaves a disjoint run alone. */
  lemma SpliceElsewhere(data: seq<Byte>, o: int, v: seq<Byte>, o': int, n: int)
    requires 0 <= o && o + |v| <= |data| && 0 <= o' && o' + n <= |data| && 0 <= n
    requires o + |v| <= o' || o' + n <= o
    ensures (data[..o] + v + data[o + |v|..])[o'..o' + n] == data[o'..o' + n]
  {
    var data' := data[..o] + v + data[o + |v|..];
    assert |data'| == |data|;
    forall i | o' <= i < o' + n
      ensures data'[i] == data[i]
    {
    }
  }

  lemma Resplice(data: seq<Byte>, o: int, n: int)
    requires 0 <= o && 0 <= n && o + n <= |data|
    ensures data[..o] + data[o..o + n] + data[o + n..] == data
  {
  }

  /** Writing back what a pixel already holds leaves the image as it was. */
  lemma SetSame(img: Image, x: int, y: int)
    requires Valid(img) && InBounds(img, x, y)
    ensures Get(img, x, y).Ok? && Set(img, x, y, Get(img, x, y).value) == Ok(img)
  {
    GetValid(img, x, y);
    if img.storage.Cube? {
      SetSameCube(img, x, y);
    } else {
      SetSameFlat(img, x, y);
    }
  }

  lemma SetSameCube(img: Image, x: int, y: int)
    requires Valid(img) && InBounds(img, x, y) && img.storage.Cube?
    ensures Get(img, x, y).Ok? && Set(img, x, y, Get(img, x, y).value) == Ok(img)
  {
    var cells := img.storage.cells;
    assert Get(img, x, y) == Ok(cells[x][y]);
    assert cells[x][y := cells[x][y]] == cells[x];
    assert cells[x := cells[x]] == cells;
  }

  lemma SetSameFlat(img: Image, x: int, y: int)
    requires Valid(img) && InBounds(img, x, y) && img.storage.Flat?
    ensures Get(img, x, y).Ok? && Set(img, x, y, Get(img, x, y).value) == Ok(img)
  {
    var data := img.storage.data;
    FlatOffsetExact(img, x, y);
    var o := FlatOffset(img, x, y);
    assert Get(img, x, y) == Ok(data[o..o + img.channels]);
    Resplice(data, o, img.channels);
  }

  /** The quantisation error per channel: original minus replacement. */
  function QuantErrors(img: Image, original: seq<Byte>, replacement: seq<Byte>): (r: Result<seq<real>>)
    ensures r.Ok? <==> |original| == img.channels && |replacement| == img.channels
    ensures r.Ok? ==> |r.value| == img.channels
                      && forall i :: 0 <= i < img.channels ==>
                           r.value[i] == original[i] as real - replacement[i] as real
  {
    if |original| != img.channels || |replacement| != img.channels then Err(Argument)
    else Ok(seq(img.channels, i requires 0 <= i < img.channels => original[i] as real - replacement[i] as real))
  }

  /** `(byte)Math.Clamp(v, 0, 255)`: clamp, then drop the fraction. */
  function Clamp(v: real): (r: Byte)
    ensures v <= 0.0 ==> r == 0
    ensures v >= 255.0 ==> r == 255
    ensures 0.0 <= v <= 255.0 ==> r as real <= v < r as real + 1.0
  {
    if v <= 0.0 then 0 else if v >= 255.0 then 255 else v.Floor
  }

  /** A channel value moved by its error times a tap's share. */
  function Moved(v: Byte, error: real, share: real): real {
    v as real + error * share
  }

  /** `ModifyPixelChannelsWithQuantError`: each channel moves by its error
      times the tap's share, then is clamped to a byte. */
  function AddError(img: Image, values: seq<Byte>, errors: seq<real>, share: real): (r: Result<seq<Byte>>)
    ensures r.Ok? <==> |values| == img.channels && |errors| == img.channels
    ensures r.Ok? ==> |r.value| == img.channels
                      && forall i :: 0 <= i < img.channels ==>
                           r.value[i] == Clamp(Moved(values[i], errors[i], share))
  {
    if |values| != img.channels || |errors| != img.channels then Err(Argument)
    else
      Ok(seq(img.channels, i requires 0 <= i < img.channels => Clamp(Moved(values[i], errors[i], share))))
  }

  /** The error of a pixel that was left as it was. */
  function Zeros(n: nat): (r: seq<real>)
    ensures |r| == n && forall i :: 0 <= i < n ==> r[i] == 0.0
  {
    seq(n, _ => 0.0)
  }

  /** Replacing a pixel by itself makes no error. */
  lemma QuantSame(img: Image, v: seq<Byte>)
    requires |v| == img.channels
    ensures QuantErrors(img, v, v) == Ok(Zeros(img.channels))
  {
    assert QuantErrors(img, v, v).value == Zeros(img.channels);
  }

  /** A byte is its own clamp, so a zero error leaves a pixel unchanged. */
  lemma AddNoError(img: Image, values: seq<Byte>, share: real)
    requires |values| == img.channels
    ensures AddError(img, values, Zeros(img.channels), share) == Ok(values)
  {
    var zeros := Zeros(img.channels);
    var r := AddError(img, values, zeros, share).value;
    forall i | 0 <= i < img.channels
      ensures r[i] == values[i]
    {
      assert Moved(values[i], zeros[i], share) == values[i] as real;
      assert (values[i] as real).Floor == values[i];
    }
    assert r == values;
  }


  /** `new TempByteImageFormat(byte[,,])`: adopts the array as is. */
  function FromCube(input: Option<seq<seq<seq<Byte>>>>, w: int, h: int, c: int): (r: Result<Image>)
    requires input.Some? ==> IsArray3(input.value, w, h, c) && 0 <= h && 0 <= c && w * h * c <= Int32Max
    ensures input.None? <==> r == Err(ArgumentNull)
    ensures r.Ok? ==> Valid(r.value) && r.value.storage == Cube(input.value)
                      && forall x, y :: InBounds(r.value, x, y) ==> Get(r.value, x, y) == Ok(input.value[x][y])
  {
    match input
    case None => Err(ArgumentNull)
    case Some(cells) => Ok(Image(w, h, c, Cube(cells)))
  }

  /** `new TempByteImageFormat(byte[], width, height, channels)`: the
      dimensions are checked against the length with `int` products, so a
      product that wraps or two negative factors pass the check. */
  function FromFlat(input: Option<seq<Byte>>, w: int, h: int, c: int): (r: Result<Image>)
    requires input.Some? ==> |input.value| <= Int32Max
    ensures input.None? <==> r == Err(ArgumentNull)
    ensures input.Some? && 0 <= w && 0 <= h && 0 <= c && w * h * c == |input.value| ==>
              r.Ok? && Valid(r.value)
    ensures input.Some? ==> (r.Ok? <==> Wrap32(Wrap32(w * h) * c) == |input.value|)
    ensures r.Ok? ==> r.value == Image(w, h, c, Flat(input.value))
  {
    match input
    case None => Err(ArgumentNull)
    case Some(data) =>
      if Wrap32(Wrap32(w * h) * c) != |data| then
        if 0 <= w && 0 <= h && 0 <= c then ExactShapeWraps(w, h, c, |data|); Err(Argument)
        else Err(Argument)
      else Ok(Image(w, h, c, Flat(data)))
  }

  /** An exact shape that fits in an `int` survives the wrapped product. */
  lemma ExactShapeWraps(w: int, h: int, c: int, n: int)
    requires 0 <= w && 0 <= h && 0 <= c && 0 <= n <= Int32Max
    ensures w * h * c == n ==> Wrap32(Wrap32(w * h) * c) == n
  {
    if w * h * c == n && c > 0 && w * h > 0 {
      MulAtLeast(c, w * h);
      assert c * (w * h) == w * h * c;
    }
  }

  /** An empty buffer passes as a 65536 x 65536 one-channel image, and one
      byte as a -1 x -1 image; neither describes its buffer. */
  lemma FromFlatAcceptsBadShapes()
    ensures FromFlat(Some([]), 65536, 65536, 1).Ok?
    ensures !Valid(FromFlat(Some([]), 65536, 65536, 1).value)
    ensures FromFlat(Some([0]), -1, -1, 1).Ok?
    ensures !Valid(FromFlat(Some([0]), -1, -1, 1).value)
  {
    assert 65536 * 65536 == TwoTo32;
  }

  /** The intended check: non-negative dimensions whose exact product is the
      buffer length. */
  function FromFlatChecked(input: Option<seq<Byte>>, w: int, h: int, c: int): (r: Result<Image>)
    requires input.Some? ==> |input.value| <= Int32Max
    ensures input.None? <==> r == Err(ArgumentNull)
    ensures r.Ok? <==> input.Some? && 0 <= w && 0 <= h && 0 <= c && w * h * c == |input.value|
    ensures r.Ok? ==> Valid(r.value) && r.value == Image(w, h, c, Flat(input.value))
  {
    match input
    case None => Err(ArgumentNull)
    case Some(data) =>
      if w < 0 || h < 0 || c < 0 || w * h * c != |data| then Err(Argument)
      else Ok(Image(w, h, c, Flat(data)))
  }

  /** One byte of the row-major export of a cube: position `k` holds channel
      `k % c` of pixel number `k / c` in row-major order. */
  function RawAt(cells: seq<seq<seq<Byte>>>, w: int, h: int, c: int, k: int): Byte
    requires IsArray3(cells, w, h, c) && 0 <= h && 0 <= c && 0 <= k < w * h * c
  {
    assert c > 0 && w > 0;
    SplitIndex(k, c, w * h);
    var q := k / c;
    assert q < h * w;
    SplitIndex(q, w, h);
    cells[q % w][q / w][k % c]
  }

  /** `GetRawContent`: the flat buffer itself, or the cube read out row by
      row (y, then x, then channel). */
  function RawContent(img: Image): (r: seq<Byte>)
    requires Valid(img)
    ensures |r| == img.width * img.height * img.channels
  {
    match img.storage
    case Flat(data) => data
    case Cube(cells) =>
      var (w, h, c) := (img.width, img.height, img.channels);
      seq(w * h * c, k requires 0 <= k < w * h * c => RawAt(cells, w, h, c, k))
  }

  /** Pixel `(x, y)` of the export is the run of `channels` bytes at
      `(y * width + x) * channels`, and it holds what `Get` reads. */
  lemma RawLayout(img: Image, x: int, y: int)
    requires Valid(img) && InBounds(img, x, y)
    ensures CopyOut(RawContent(img), (y * img.width + x) * img.channels, img.channels) == Get(img, x, y)
  {
    FlatOffsetExact(img, x, y);
    if img.storage.Cube? {
      var (w, h, c) := (img.width, img.height, img.channels);
      var cells := img.storage.cells;
      var raw := RawContent(img);
      var p := y * w + x;
      var run := CopyOut(raw, p * c, c).value;
      forall i | 0 <= i < c
        ensures run[i] == cells[x][y][i]
      {
        DivMod(p * c + i, c, p, i);
        DivMod(p, w, y, x);
        assert raw[p * c + i] == RawAt(cells, w, h, c, p * c + i);
      }
      assert run == cells[x][y];
    }
  }

  /** Exporting an image and re-importing the buffer with the flat
      constructor gives the same pixels. */
  lemma RawRoundTrip(img: Image)
    requires Valid(img)
    ensures var r := FromFlat(Some(RawContent(img)), img.width, img.height, img.channels);
      r.Ok? && Valid(r.value) && r.value.storage.Flat?
      && forall x, y :: InBounds(img, x, y) ==> Get(r.value, x, y) == Get(img, x, y)
  {
    var img' := FromFlat(Some(RawContent(img)), img.width, img.height, img.channels).value;
    forall x, y | InBounds(img, x, y)
      ensures Get(img', x, y) == Get(img, x, y)
    {
      FlatOffsetExact(img', x, y);
      RawLayout(img, x, y);
    }
  }
}

=== FILE: color_approximater.dfy ===
/** `ColorApproximater`: nearest-palette-colour search through a hue-bucketed
    index with a bounded memo of earlier answers.

    The 24 hue ranges are sampled (HSL, one sample per degree) into the hue
    table; a query colour is first matched against every sample to pick a
    bucket (flat sample index divided by 16), then against every palette colour
    in that bucket.

    Distances are squared Euclidean RGB distances. The source compares
    `(float)Math.Sqrt` of the same integers, which is monotone and keeps
    distinct integers up to 3 * 255 * 255 distinct, so every minimum and every
    tie comes out the same. The sentinel distance 720 becomes 720 * 720. */
module ColorApproximater {
  import opened Common
  import opened Text
  import Palette

  const BucketCount: nat := 24
  const SamplesPerBucket: nat := 16
  const Sentinel: nat := 720 * 720

  /** `ColorDiff` squared. */
  function SquaredDiff(a: Rgb, b: Rgb): (d: nat)
    ensures d <= 3 * 255 * 255 < Sentinel
    ensures d == 0 <==> a == b
  {
    Square(a.r - b.r);
    Square(a.g - b.g);
    Square(a.b - b.b);
    (a.r - b.r) * (a.r - b.r) + (a.g - b.g) * (a.g - b.g) + (a.b - b.b) * (a.b - b.b)
  }

  lemma Square(x: int)
    requires -255 <= x <= 255
    ensures 0 <= x * x <= 255 * 255
    ensures x * x == 0 <==> x == 0
  {
    var y := if x < 0 then -x else x;
    assert x * x == y * y;
    assert y * y <= 255 * y by {
      MulLe(y, y, 255);
    }
    MulLe(y, 255, 255);
    if y > 0 {
      MulLe(1, y, y);
    }
  }

  lemma MulLe(a: int, b: int, c: int)
    requires 0 <= a <= c && b >= 0
    ensures a * b <= c * b
  {
  }

  /** `Diffs.IndexOf(Diffs.Min())`: the first position of the smallest value;
      `Min` of an empty list throws `InvalidOperationException`. */
  function ArgMinFirst(ds: seq<int>): (r: Result<nat>)
    ensures r.Err? <==> |ds| == 0
    ensures r.Err? ==> r.error == InvalidOperation
    ensures r.Ok? ==> (r.value < |ds|
                       && (forall j :: 0 <= j < |ds| ==> ds[r.value] <= ds[j])
                       && (forall j :: 0 <= j < r.value ==> ds[r.value] < ds[j]))
  {
    if |ds| == 0 then Err(InvalidOperation)
    else if |ds| == 1 then Ok(0)
    else
      var k := ArgMinFirst(ds[..|ds| - 1]).value;
      if ds[|ds| - 1] < ds[k] then Ok(|ds| - 1) else Ok(k)
  }

  // ---------------------------------------------------------------- hue

  /** `MinMaxRgb`, with its two comparisons. */
  function MinMaxRgb(c: Rgb): (r: (int, int))
    ensures r.0 <= c.r && r.0 <= c.g && r.0 <= c.b
    ensures r.0 == c.r || r.0 == c.g || r.0 == c.b
    ensures r.1 >= c.r && r.1 >= c.g && r.1 >= c.b
    ensures r.1 == c.r || r.1 == c.g || r.1 == c.b
  {
    var (max, min) := if c.r > c.g then (c.r, c.g) else (c.g, c.r);
    if c.b > max then (min, c.b)
    else if c.b < min then (c.b, max)
    else (min, max)
  }

  /** `GetHue` in exact arithmetic: 0 for a grey, otherwise the hexcone hue in
      degrees, in `[0, 360)`. */
  function Hue(c: Rgb): (h: real)
    ensures 0.0 <= h < 360.0
    ensures c.r == c.g == c.b ==> h == 0.0
  {
    if c.r == c.g && c.g == c.b then 0.0
    else
      var (min, max) := MinMaxRgb(c);
      var delta := (max - min) as real;
      var (num, base) := if c.r == max then (c.g - c.b, 0.0)
                         else if c.g == max then (c.b - c.r, 2.0)
                         else (c.r - c.g, 4.0);
      DivBounds(num as real, delta);
      var deg := (num as real / delta + base) * 60.0;
      if deg < 0.0 then deg + 360.0 else deg
  }

  /** The hexcone sectors: red-maximal colours lie in [0, 60] or [300, 360),
      green-maximal ones in [60, 180], blue-maximal ones in [180, 300]. */
  lemma HueSectors(c: Rgb)
    requires !(c.r == c.g == c.b)
    ensures c.r >= c.g && c.r >= c.b ==> Hue(c) <= 60.0 || Hue(c) >= 300.0
    ensures c.g > c.r && c.g >= c.b ==> 60.0 <= Hue(c) <= 180.0
    ensures c.b > c.r && c.b > c.g ==> 180.0 <= Hue(c) <= 300.0
  {
    var (min, max) := MinMaxRgb(c);
    var delta := (max - min) as real;
    var num := if c.r == max then c.g - c.b else if c.g == max then c.b - c.r else c.r - c.g;
    DivBounds(num as real, delta);
  }

  lemma DivBounds(x: real, d: real)
    requires d > 0.0 && -d <= x <= d
    ensures -1.0 <= x / d <= 1.0
  {
    assert x / d * d == x;
  }

  // ---------------------------------------------------------------- index

  /** The hue table row `i` as distances to `c`, or sixteen sentinels when the
      bucket is marked empty. */
  function RowDiffs(hues: seq<seq<Rgb>>, skip: set<int>, c: Rgb, i: nat): (ds: seq<int>)
    requires i < |hues|
    ensures i in skip ==> |ds| == SamplesPerBucket && forall k :: 0 <= k < |ds| ==> ds[k] == Sentinel
    ensures i !in skip ==> (|ds| == |hues[i]|
                            && forall k :: 0 <= k < |ds| ==> ds[k] == SquaredDiff(c, hues[i][k]))
  {
    if i in skip then seq(SamplesPerBucket, _ => Sentinel)
    else seq(|hues[i]|, k requires 0 <= k < |hues[i]| => SquaredDiff(c, hues[i][k]))
  }

  /** The rows from `i` on, concatenated: the list `diffs` of `GetIndexOfColor`. */
  function FlatDiffs(hues: seq<seq<Rgb>>, skip: set<int>, c: Rgb, i: nat): seq<int>
    requires i <= |hues|
    decreases |hues| - i
  {
    if i == |hues| then [] else RowDiffs(hues, skip, c, i) + FlatDiffs(hues, skip, c, i + 1)
  }

  /** `GetIndexOfColor`: the bucket of the nearest hue sample, by flat position
      divided by 16. */
  function BucketIndex(hues: seq<seq<Rgb>>, skip: set<int>, c: Rgb): (r: Result<nat>)
    ensures r.Err? <==> |FlatDiffs(hues, skip, c, 0)| == 0
    ensures r.Err? ==> r.error == InvalidOperation
  {
    var k :- ArgMinFirst(FlatDiffs(hues, skip, c, 0));
    Ok(k / SamplesPerBucket)
  }

  /** The shape the sampling loop gives the table: 24 rows, 16 samples in every
      row but the last, which lost one sample and holds at most 16. */
  predicate WellFormed(hues: seq<seq<Rgb>>) {
    |hues| == BucketCount
    && (forall i :: 0 <= i < |hues| - 1 ==> |hues[i]| == SamplesPerBucket)
    && |hues[|hues| - 1]| <= SamplesPerBucket
  }

  function RowLen(hues: seq<seq<Rgb>>, skip: set<int>, i: nat): nat
    requires i < |hues|
  {
    if i in skip then SamplesPerBucket else |hues[i]|
  }

  /** In a well-formed table row `b` starts at flat position `16 * b`. */
  lemma {:induction false} FlatLayout(hues: seq<seq<Rgb>>, skip: set<int>, c: Rgb, i: nat)
    requires WellFormed(hues) && i < |hues|
    ensures |FlatDiffs(hues, skip, c, i)|
            == SamplesPerBucket * (|hues| - 1 - i) + RowLen(hues, skip, |hues| - 1)
    ensures forall b, j :: i <= b < |hues| && 0 <= j < RowLen(hues, skip, b) ==>
      SamplesPerBucket * (b - i) + j < |FlatDiffs(hues, skip, c, i)|
      && FlatDiffs(hues, skip, c, i)[SamplesPerBucket * (b - i) + j] == RowDiffs(hues, skip, c, b)[j]
    decreases |hues| - i
  {
    var row := RowDiffs(hues, skip, c, i);
    if i == |hues| - 1 {
      assert FlatDiffs(hues, skip, c, i) == row;
    } else {
      FlatLayout(hues, skip, c, i + 1);
      assert |row| == SamplesPerBucket;
      forall b, j | i <= b < |hues| && 0 <= j < RowLen(hues, skip, b)
        ensures SamplesPerBucket * (b - i) + j < |FlatDiffs(hues, skip, c, i)|
        ensures FlatDiffs(hues, skip, c, i)[SamplesPerBucket * (b - i) + j] == RowDiffs(hues, skip, c, b)[j]
      {
        if b > i {
          assert SamplesPerBucket * (b - i) + j == SamplesPerBucket + (SamplesPerBucket * (b - (i + 1)) + j);
        }
      }
    }
  }

  /** Every flat position lies in row `k / 16` at offset `k % 16`. */
  lemma FlatPosition(hues: seq<seq<Rgb>>, skip: set<int>, c: Rgb, k: nat)
    requires WellFormed(hues) && k < |FlatDiffs(hues, skip, c, 0)|
    ensures k / SamplesPerBucket < |hues|
    ensures k % SamplesPerBucket < RowLen(hues, skip, k / SamplesPerBucket)
    ensures FlatDiffs(hues, skip, c, 0)[k] == RowDiffs(hues, skip, c, k / SamplesPerBucket)[k % SamplesPerBucket]
  {
    FlatLayout(hues, skip, c, 0);
    var last := |hues| - 1;
    var b, j := k / SamplesPerBucket, k % SamplesPerBucket;
    assert k == SamplesPerBucket * b + j && 0 <= j < SamplesPerBucket;
    assert |FlatDiffs(hues, skip, c, 0)| == SamplesPerBucket * last + RowLen(hues, skip, last);
    assert RowLen(hues, skip, last) <= SamplesPerBucket;
    assert b <= last;
    if b < last {
      assert RowLen(hues, skip, b) == SamplesPerBucket;
    }
  }

  /** When some bucket is not marked empty and has samples, the chosen bucket
      is not marked empty either, and it has samples. */
  lemma BucketIndexAvoidsSkipped(hues: seq<seq<Rgb>>, skip: set<int>, c: Rgb, b: nat)
    requires WellFormed(hues) && b < |hues| && b !in skip && |hues[b]| > 0
    ensures BucketIndex(hues, skip, c).Ok?
    ensures var i := BucketIndex(hues, skip, c).value;
      i < |hues| && i !in skip && |hues[i]| > 0
  {
    var ds := FlatDiffs(hues, skip, c, 0);
    FlatAt(hues, skip, c, b, 0);
    assert ds[SamplesPerBucket * b] < Sentinel;
    var k := ArgMinFirst(ds).value;
    assert ds[k] <= ds[SamplesPerBucket * b];
    FlatPosition(hues, skip, c, k);
  }

  /** Row `b`, offset `j` of a well-formed table sits at flat position `16 * b + j`. */
  lemma FlatAt(hues: seq<seq<Rgb>>, skip: set<int>, c: Rgb, b: nat, j: nat)
    requires WellFormed(hues) && b < |hues| && j < RowLen(hues, skip, b)
    ensures SamplesPerBucket * b + j < |FlatDiffs(hues, skip, c, 0)|
    ensures FlatDiffs(hues, skip, c, 0)[SamplesPerBucket * b + j] == RowDiffs(hues, skip, c, b)[j]
  {
    FlatLayout(hues, skip, c, 0);
    assert SamplesPerBucket * (b - 0) + j == SamplesPerBucket * b + j;
  }

  /** With no bucket marked empty, the chosen bucket has samples. */
  lemma BucketIndexHasSamples(hues: seq<seq<Rgb>>, c: Rgb)
    requires WellFormed(hues)
    ensures BucketIndex(hues, {}, c).Ok? ==>
      var i := BucketIndex(hues, {}, c).value;
      i < |hues| && |hues[i]| > 0
  {
    if BucketIndex(hues, {}, c).Ok? {
      var k := ArgMinFirst(FlatDiffs(hues, {}, c, 0)).value;
      FlatPosition(hues, {}, c, k);
    }
  }

  /** Sample `j` of row `b` is nearest to `c` among all the table's
      distances, and every sample before it (in an earlier row, or earlier in
      row `b`) is strictly farther: the first nearest sample. */
  predicate FirstNearestSample(hues: seq<seq<Rgb>>, skip: set<int>, c: Rgb, b: nat, j: nat)
    requires b < |hues|
  {
    var row := RowDiffs(hues, skip, c, b);
    var ds := FlatDiffs(hues, skip, c, 0);
    j < |row|
    && (forall k :: 0 <= k < |ds| ==> row[j] <= ds[k])
    && (forall b', j' :: 0 <= b' < b && 0 <= j' < |RowDiffs(hues, skip, c, b')| ==>
          RowDiffs(hues, skip, c, b')[j'] > row[j])
    && (forall j' :: 0 <= j' < j ==> row[j'] > row[j])
  }

  /** The chosen bucket is the row holding the first nearest hue sample. */
  lemma BucketIndexNearest(hues: seq<seq<Rgb>>, skip: set<int>, c: Rgb)
    requires WellFormed(hues)
    ensures BucketIndex(hues, skip, c).Ok? ==> BucketIndex(hues, skip, c).value < |hues|
    ensures BucketIndex(hues, skip, c).Ok? ==>
      exists j :: FirstNearestSample(hues, skip, c, BucketIndex(hues, skip, c).value, j)
  {
    if BucketIndex(hues, skip, c).Err? { return; }
    var ds := FlatDiffs(hues, skip, c, 0);
    var k := ArgMinFirst(ds).value;
    FlatPosition(hues, skip, c, k);
    var b, j := k / SamplesPerBucket, k % SamplesPerBucket;
    assert k == SamplesPerBucket * b + j;
    var row := RowDiffs(hues, skip, c, b);
    forall b', j' | 0 <= b' < b && 0 <= j' < |RowDiffs(hues, skip, c, b')|
      ensures RowDiffs(hues, skip, c, b')[j'] > row[j]
    {
      FlatAt(hues, skip, c, b', j');
      assert SamplesPerBucket * b' + j' < k;
    }
    forall j' | 0 <= j' < j
      ensures row[j'] > row[j]
    {
      FlatAt(hues, skip, c, b, j');
    }
    assert FirstNearestSample(hues, skip, c, b, j);
  }

  // ---------------------------------------------------------------- construction

  /** `SetHueEqRgb` after sampling: drop the last sample of the last row. A
      table without rows, or whose last row is empty, makes `RemoveAt` throw. */
  function SetHueEqRgb(sampled: seq<seq<Rgb>>): (r: Result<seq<seq<Rgb>>>)
    ensures r.Err? <==> |sampled| == 0 || |sampled[|sampled| - 1]| == 0
    ensures r.Err? ==> r.error == ArgumentOutOfRange
    ensures r.Ok? ==> (|r.value| == |sampled|
                       && r.value[..|sampled| - 1] == sampled[..|sampled| - 1]
                       && r.value[|sampled| - 1] == sampled[|sampled| - 1][..|sampled[|sampled| - 1]| - 1])
  {
    if |sampled| == 0 then Err(ArgumentOutOfRange)
    else
      var last := sampled[|sampled| - 1];
      if |last| == 0 then Err(ArgumentOutOfRange)
      else Ok(sampled[..|sampled| - 1] + [last[..|last| - 1]])
  }

  /** Sampling 16 degrees per range and removing one gives a well-formed table. */
  lemma SampledTableWellFormed(sampled: seq<seq<Rgb>>)
    requires |sampled| == BucketCount
    requires forall i :: 0 <= i < |sampled| ==> |sampled[i]| == SamplesPerBucket
    ensures SetHueEqRgb(sampled).Ok? && WellFormed(SetHueEqRgb(sampled).value)
  {
    var t := SetHueEqRgb(sampled).value;
    assert forall i :: 0 <= i < |t| - 1 ==> t[i] == t[..|t| - 1][i] == sampled[i];
  }

  /** Whether `s` is ordered by ascending `key`. */
  predicate SortedBy(s: seq<Rgb>, key: Rgb -> real) {
    forall i, j :: 0 <= i < j < |s| ==> key(s[i]) <= key(s[j])
  }

  /** In a sorted sequence no later element has a smaller key than the first. */
  lemma SortedHead(s: seq<Rgb>, key: Rgb -> real, y: Rgb)
    requires SortedBy(s, key) && |s| > 0 && y in s[1..]
    ensures key(s[0]) <= key(y)
  {
    var m :| 0 <= m < |s[1..]| && s[1..][m] == y;
    assert s[m + 1] == y;
  }

  /** Inserts `x` after every leading element whose key is not larger,
      which keeps the order of equal keys. */
  function InsertBy(x: Rgb, s: seq<Rgb>, key: Rgb -> real): (r: seq<Rgb>)
    ensures forall y :: y in r ==> y == x || y in s
  {
    if |s| == 0 then [x]
    else if key(x) < key(s[0]) then [x] + s
    else
      assert s == [s[0]] + s[1..];
      [s[0]] + InsertBy(x, s[1..], key)
  }

  /** Inserting adds exactly one `x` to the elements. */
  lemma {:induction false} InsertByPermutes(x: Rgb, s: seq<Rgb>, key: Rgb -> real)
    ensures multiset(InsertBy(x, s, key)) == multiset(s) + multiset{x}
  {
    if |s| > 0 && key(x) >= key(s[0]) {
      InsertByPermutes(x, s[1..], key);
      assert s == [s[0]] + s[1..];
    }
  }

  /** Inserting into a sorted sequence keeps it sorted. */
  lemma {:induction false} InsertBySorted(x: Rgb, s: seq<Rgb>, key: Rgb -> real)
    requires SortedBy(s, key)
    ensures SortedBy(InsertBy(x, s, key), key)
  {
    if |s| > 0 && key(x) >= key(s[0]) {
      var t := InsertBy(x, s[1..], key);
      InsertBySorted(x, s[1..], key);
      forall k | 0 <= k < |t|
        ensures key(s[0]) <= key(t[k])
      {
        if t[k] != x {
          SortedHead(s, key, t[k]);
        }
      }
    }
  }

  /** A stable insertion sort by `key`. */
  function SortBy(s: seq<Rgb>, key: Rgb -> real): (r: seq<Rgb>)
    ensures SortedBy(r, key)
    ensures multiset(r) == multiset(s)
  {
    if |s| == 0 then []
    else
      assert s == s[..|s| - 1] + [s[|s| - 1]];
      InsertBySorted(s[|s| - 1], SortBy(s[..|s| - 1], key), key);
      InsertByPermutes(s[|s| - 1], SortBy(s[..|s| - 1], key), key);
      InsertBy(s[|s| - 1], SortBy(s[..|s| - 1], key), key)
  }

  /** The elements of `s` whose key is `k`, in their order in `s`. */
  function WithKey(s: seq<Rgb>, key: Rgb -> real, k: real): (r: seq<Rgb>)
    ensures |r| <= |s|
  {
    if |s| == 0 then []
    else (if key(s[0]) == k then [s[0]] else []) + WithKey(s[1..], key, k)
  }

  lemma {:induction false} WithKeyAppend(a: seq<Rgb>, b: seq<Rgb>, key: Rgb -> real, k: real)
    ensures WithKey(a + b, key, k) == WithKey(a, key, k) + WithKey(b, key, k)
  {
    if |a| > 0 {
      assert (a + b)[0] == a[0] && (a + b)[1..] == a[1..] + b;
      WithKeyAppend(a[1..], b, key, k);
    } else {
      assert a + b == b;
    }
  }

  /** The tail of a sorted sequence is sorted and starts no lower than the head. */
  lemma SortedTail(s: seq<Rgb>, key: Rgb -> real)
    requires SortedBy(s, key) && |s| > 0
    ensures SortedBy(s[1..], key)
    ensures |s| > 1 ==> key(s[0]) <= key(s[1..][0])
  {
    assert forall i :: 0 <= i < |s| - 1 ==> s[1..][i] == s[i + 1];
  }

  /** No element of a sorted sequence whose first key exceeds `k` has key `k`. */
  lemma {:induction false} WithKeyAbove(s: seq<Rgb>, key: Rgb -> real, k: real)
    requires SortedBy(s, key) && |s| > 0 && k < key(s[0])
    ensures WithKey(s, key, k) == []
  {
    if |s| > 1 {
      SortedTail(s, key);
      WithKeyAbove(s[1..], key, k);
    }
  }

  /** The case where `x` goes in front. */
  lemma InsertByStableFront(x: Rgb, s: seq<Rgb>, key: Rgb -> real, k: real)
    requires SortedBy(s, key) && |s| > 0 && key(x) < key(s[0])
    ensures WithKey(InsertBy(x, s, key), key, k) == WithKey(s, key, k) + WithKey([x], key, k)
  {
    assert InsertBy(x, s, key) == [x] + s;
    WithKeyAppend([x], s, key, k);
    if k == key(x) {
      WithKeyAbove(s, key, k);
    }
  }

  /** `WithKey` looks at the head, then at the tail. */
  lemma WithKeyCons(s: seq<Rgb>, key: Rgb -> real, k: real)
    requires |s| > 0
    ensures WithKey(s, key, k) == (if key(s[0]) == k then [s[0]] else []) + WithKey(s[1..], key, k)
  {
  }

  /** An element whose key is not below the head's goes after the head. */
  lemma InsertByLater(x: Rgb, s: seq<Rgb>, key: Rgb -> real)
    requires |s| > 0 && key(x) >= key(s[0])
    ensures InsertBy(x, s, key) == [s[0]] + InsertBy(x, s[1..], key)
  {
  }

  /** Putting the same element in front of two sequences keeps a relation
      between their `WithKey` parts. */
  lemma WithKeyConsBoth(a: Rgb, t: seq<Rgb>, rest: seq<Rgb>, xs: seq<Rgb>, key: Rgb -> real, k: real)
    requires WithKey(t, key, k) == WithKey(rest, key, k) + xs
    ensures WithKey([a] + t, key, k) == WithKey([a] + rest, key, k) + xs
  {
    WithKeyCons([a] + t, key, k);
    WithKeyCons([a] + rest, key, k);
    assert ([a] + t)[1..] == t && ([a] + rest)[1..] == rest;
    var h: seq<Rgb> := if key(a) == k then [a] else [];
    assert h + (WithKey(rest, key, k) + xs) == (h + WithKey(rest, key, k)) + xs;
  }

  /** Inserting into a sorted sequence places `x` after every element of
      equal key. */
  lemma {:induction false} InsertByStable(x: Rgb, s: seq<Rgb>, key: Rgb -> real, k: real)
    requires SortedBy(s, key)
    ensures WithKey(InsertBy(x, s, key), key, k) == WithKey(s, key, k) + WithKey([x], key, k)
  {
    if |s| == 0 {
      assert InsertBy(x, s, key) == [x];
    } else if key(x) < key(s[0]) {
      InsertByStableFront(x, s, key, k);
    } else {
      SortedTail(s, key);
      InsertByStable(x, s[1..], key, k);
      InsertByLater(x, s, key);
      WithKeyConsBoth(s[0], InsertBy(x, s[1..], key), s[1..], WithKey([x], key, k), key, k);
      assert [s[0]] + s[1..] == s;
    }
  }

  /** The insertion sort is stable: for every key, the elements with that key
      keep their relative order, as with LINQ `OrderBy`. Together with the
      ensures of `SortBy` this pins the result down. */
  lemma {:induction false} SortByStable(s: seq<Rgb>, key: Rgb -> real, k: real)
    ensures WithKey(SortBy(s, key), key, k) == WithKey(s, key, k)
  {
    if |s| > 0 {
      var init, x := s[..|s| - 1], s[|s| - 1];
      var sorted := SortBy(init, key);
      assert SortBy(s, key) == InsertBy(x, sorted, key);
      calc {
        WithKey(SortBy(s, key), key, k);
        { InsertByStable(x, sorted, key, k); }
        WithKey(sorted, key, k) + WithKey([x], key, k);
        { SortByStable(init, key, k); }
        WithKey(init, key, k) + WithKey([x], key, k);
        { WithKeyAppend(init, [x], key, k); assert init + [x] == s; }
        WithKey(s, key, k);
      }
    }
  }

  /** `OrderBy(GetHue)`: the same colours in ascending hue order. */
  function SortByHue(s: seq<Rgb>): (r: seq<Rgb>)
    ensures SortedBy(r, Hue)
    ensures multiset(r) == multiset(s)
  {
    SortBy(s, Hue)
  }

  /** The first loop of `SetColors`: each palette colour appended to the bucket
      `GetIndexOfColor` chooses while no bucket is marked empty yet. */
  function Place(colors: seq<Rgb>, hues: seq<seq<Rgb>>, buckets: seq<seq<Rgb>>): (r: Result<seq<seq<Rgb>>>)
    ensures r.Ok? ==> |r.value| == |buckets|
    decreases |colors|
  {
    if |colors| == 0 then Ok(buckets)
    else
      var i :- BucketIndex(hues, {}, colors[0]);
      if i >= |buckets| then Err(ArgumentOutOfRange)
      else Place(colors[1..], hues, buckets[i := buckets[i] + [colors[0]]])
  }

  /** Placement puts every colour somewhere, only into buckets whose hue row
      has samples, and adds nothing but palette colours. */
  lemma {:induction false} PlaceContents(colors: seq<Rgb>, hues: seq<seq<Rgb>>, buckets: seq<seq<Rgb>>)
    requires WellFormed(hues) && |buckets| == |hues|
    requires forall b :: 0 <= b < |buckets| && |buckets[b]| > 0 ==> |hues[b]| > 0
    requires Place(colors, hues, buckets).Ok?
    ensures var r := Place(colors, hues, buckets).value;
      (forall b :: 0 <= b < |r| && |r[b]| > 0 ==> |hues[b]| > 0)
      && (forall b, x :: 0 <= b < |r| && x in r[b] ==> x in buckets[b] || x in colors)
      && (|colors| > 0 ==> exists b :: 0 <= b < |r| && |r[b]| > 0)
    decreases |colors|
  {
    if |colors| > 0 {
      var i := BucketIndex(hues, {}, colors[0]).value;
      BucketIndexHasSamples(hues, colors[0]);
      var next := buckets[i := buckets[i] + [colors[0]]];
      PlaceContents(colors[1..], hues, next);
      var r := Place(colors, hues, buckets).value;
      assert r == Place(colors[1..], hues, next).value;
      PlaceKeepsNonEmpty(colors[1..], hues, next, i);
      forall b, x | 0 <= b < |r| && x in r[b]
        ensures x in buckets[b] || x in colors
      {
        assert x in next[b] || x in colors[1..];
        if x in colors[1..] {
          assert colors == [colors[0]] + colors[1..];
        }
      }
    }
  }

  lemma {:induction false} PlaceKeepsNonEmpty(colors: seq<Rgb>, hues: seq<seq<Rgb>>, buckets: seq<seq<Rgb>>, b: nat)
    requires Place(colors, hues, buckets).Ok? && b < |buckets| && |buckets[b]| > 0
    ensures |Place(colors, hues, buckets).value[b]| > 0
    decreases |colors|
  {
    if |colors| > 0 {
      var i := BucketIndex(hues, {}, colors[0]).value;
      PlaceKeepsNonEmpty(colors[1..], hues, buckets[i := buckets[i] + [colors[0]]], b);
    }
  }

  /** The approximater's state: the palette, the hue table, the 24 hue-sorted
      buckets, the set of empty ones, and the memo of queried colours with the
      colour each resolved to. */
  datatype Approximater = Approximater(
    pixels: Palette.Pixels,
    hues: seq<seq<Rgb>>,
    buckets: seq<seq<Rgb>>,
    skip: set<int>,
    maxLength: int,
    queried: seq<Rgb>,
    resolved: seq<Rgb>)

  /** The palette colours, `_pixels.GetColors()`. */
  function PaletteColors(a: Approximater): seq<Rgb> {
    Palette.GetColors(a.pixels).0
  }

  function SortAll(buckets: seq<seq<Rgb>>): (r: seq<seq<Rgb>>)
    ensures |r| == |buckets|
    ensures forall i :: 0 <= i < |r| ==> r[i] == SortByHue(buckets[i])
  {
    seq(|buckets|, i requires 0 <= i < |buckets| => SortByHue(buckets[i]))
  }

  /** The indices of the empty buckets. */
  function EmptyBuckets(buckets: seq<seq<Rgb>>): (s: set<int>)
    ensures forall i :: i in s <==> 0 <= i < |buckets| && |buckets[i]| == 0
  {
    set i | 0 <= i < |buckets| && |buckets[i]| == 0
  }

  /** The constructor `ColorApproximater(Pixels, …, maxlenght)` given the
      sampled hue table: `SetHueEqRgb`, then `SetColors`. */
  function New(pixels: Palette.Pixels, sampled: seq<seq<Rgb>>, maxLength: int): (r: Result<Approximater>)
    ensures r.Ok? ==> (|r.value.buckets| == BucketCount
                       && r.value.queried == [] && r.value.resolved == []
                       && r.value.pixels == pixels && r.value.maxLength == maxLength
                       && (forall i :: 0 <= i < BucketCount ==> SortedBy(r.value.buckets[i], Hue))
                       && (forall i :: i in r.value.skip <==> 0 <= i < BucketCount && |r.value.buckets[i]| == 0))
  {
    var hues :- SetHueEqRgb(sampled);
    var placed :- Place(Palette.GetColors(pixels).0, hues, seq(BucketCount, _ => []));
    var buckets := SortAll(placed);
    Ok(Approximater(pixels, hues, buckets, EmptyBuckets(buckets), maxLength, [], []))
  }

  /** The nearest colour of a bucket, the first one on ties. */
  function Nearest(bucket: seq<Rgb>, c: Rgb): (r: Result<Rgb>)
    ensures r.Err? <==> |bucket| == 0
    ensures r.Err? ==> r.error == InvalidOperation
    ensures r.Ok? ==> (r.value in bucket
                       && forall y :: y in bucket ==> SquaredDiff(r.value, c) <= SquaredDiff(y, c))
    ensures r.Ok? ==> exists k :: (0 <= k < |bucket| && bucket[k] == r.value
                                   && forall j :: 0 <= j < k ==> SquaredDiff(bucket[j], c) > SquaredDiff(r.value, c))
  {
    var ds := seq(|bucket|, k requires 0 <= k < |bucket| => SquaredDiff(bucket[k], c));
    var k :- ArgMinFirst(ds);
    assert forall y :: y in bucket ==> exists j :: 0 <= j < |bucket| && bucket[j] == y && ds[j] == SquaredDiff(y, c);
    assert forall j :: 0 <= j < k ==> SquaredDiff(bucket[j], c) > SquaredDiff(bucket[k], c) by {
      forall j | 0 <= j < k ensures SquaredDiff(bucket[j], c) > SquaredDiff(bucket[k], c) {
        assert ds[j] > ds[k];
      }
    }
    Ok(bucket[k])
  }

  /** What a cache miss computes: the bucket of `c`, then its nearest colour. */
  function Resolve(a: Approximater, c: Rgb): (r: Result<Rgb>)
    ensures r.Ok? ==> exists i :: (0 <= i < |a.buckets| && r.value in a.buckets[i]
                                   && forall y :: y in a.buckets[i] ==> SquaredDiff(r.value, c) <= SquaredDiff(y, c))
  {
    var i :- BucketIndex(a.hues, a.skip, c);
    if i >= |a.buckets| then Err(ArgumentOutOfRange)
    else Nearest(a.buckets[i], c)
  }

  /** `ResetAHalfOfConverted`: drop the oldest `MaxLenght / 2` entries. */
  function ResetHalf(a: Approximater): (r: Approximater)
    requires a.maxLength >= 0
    ensures r.queried == Skip(a.queried, a.maxLength / 2)
    ensures r.resolved == Skip(a.resolved, a.maxLength / 2)
  {
    a.(queried := Skip(a.queried, a.maxLength / 2), resolved := Skip(a.resolved, a.maxLength / 2))
  }

  /** LINQ `Skip(n)`. */
  function Skip<T>(s: seq<T>, n: nat): (r: seq<T>)
    ensures n <= |s| ==> r == s[n..]
    ensures n > |s| ==> r == []
  {
    if n <= |s| then s[n..] else []
  }

  /** `Convert`: a colour already queried answers from the memo; otherwise it
      is recorded as queried, resolved, the answer recorded, and the oldest
      half of the memo dropped once it holds `maxLength` entries. The state is
      returned on failure too: a miss that fails after recording the query
      leaves it recorded. */
  function Convert(a: Approximater, c: Rgb): (r: (Approximater, Result<Rgb>))
    ensures r.0.pixels == a.pixels && r.0.hues == a.hues && r.0.buckets == a.buckets
    ensures r.0.skip == a.skip && r.0.maxLength == a.maxLength
    ensures IndexOf(a.queried, c) != -1 ==> r.0 == a
    ensures IndexOf(a.queried, c) == -1 && r.1.Ok? ==>
      exists i :: 0 <= i < |a.buckets| && r.1.value in a.buckets[i]
  {
    var index := IndexOf(a.queried, c);
    if index != -1 then
      if index < |a.resolved| then (a, Ok(a.resolved[index])) else (a, Err(ArgumentOutOfRange))
    else
      match BucketIndex(a.hues, a.skip, c)
      case Err(e) => (a, Err(e))
      case Ok(i) =>
        if i >= |a.buckets| then (a, Err(ArgumentOutOfRange))
        else
          var a1 := a.(queried := a.queried + [c]);
          match Nearest(a.buckets[i], c)
          case Err(e) => (a1, Err(e))
          case Ok(x) =>
            var a2 := a1.(resolved := a1.resolved + [x]);
            if |a2.queried| == a2.maxLength then (ResetHalf(a2), Ok(x)) else (a2, Ok(x))
  }

  /** The memo agrees with what a miss would compute, entry by entry. */
  predicate Coherent(a: Approximater) {
    |a.queried| == |a.resolved|
    && forall i :: 0 <= i < |a.queried| ==> Resolve(a, a.queried[i]) == Ok(a.resolved[i])
  }

  /** A fresh approximater has a coherent (empty) memo. */
  lemma NewCoherent(pixels: Palette.Pixels, sampled: seq<seq<Rgb>>, maxLength: int)
    requires New(pixels, sampled, maxLength).Ok?
    ensures Coherent(New(pixels, sampled, maxLength).value)
  {
  }

  /** `Resolve` reads only the index, not the palette object or the memo. */
  lemma ResolveFrame(a: Approximater, b: Approximater, c: Rgb)
    requires a.hues == b.hues && a.skip == b.skip && a.buckets == b.buckets
    ensures Resolve(a, c) == Resolve(b, c)
  {
  }

  lemma CoherentExtend(a: Approximater, c: Rgb, x: Rgb)
    requires Coherent(a) && Resolve(a, c) == Ok(x)
    ensures Coherent(a.(queried := a.queried + [c], resolved := a.resolved + [x]))
  {
    var b := a.(queried := a.queried + [c], resolved := a.resolved + [x]);
    forall i | 0 <= i < |b.queried|
      ensures Resolve(b, b.queried[i]) == Ok(b.resolved[i])
    {
      ResolveFrame(a, b, b.queried[i]);
    }
  }

  lemma CoherentSkip(b: Approximater, n: nat)
    requires Coherent(b)
    ensures Coherent(b.(queried := Skip(b.queried, n), resolved := Skip(b.resolved, n)))
  {
    var d := b.(queried := Skip(b.queried, n), resolved := Skip(b.resolved, n));
    forall i | 0 <= i < |d.queried|
      ensures Resolve(d, d.queried[i]) == Ok(d.resolved[i])
    {
      ResolveFrame(b, d, d.queried[i]);
      assert d.queried[i] == b.queried[i + n] && d.resolved[i] == b.resolved[i + n];
    }
  }

  /** What a successful miss leaves behind: the query and its answer appended,
      then the oldest half dropped if the memo reached `maxLength`. */
  lemma ConvertMiss(a: Approximater, c: Rgb)
    requires a.maxLength >= 0 && c !in a.queried
    ensures Convert(a, c).1 == Resolve(a, c)
    ensures Resolve(a, c).Ok? ==>
      var b := a.(queried := a.queried + [c], resolved := a.resolved + [Resolve(a, c).value]);
      Convert(a, c).0 == if |b.queried| == a.maxLength then ResetHalf(b) else b
  {
  }

  /** The memo is transparent: with a coherent memo, `Convert` answers exactly
      what `Resolve` computes, and a success keeps the memo coherent. */
  lemma ConvertTransparent(a: Approximater, c: Rgb)
    requires Coherent(a) && a.maxLength >= 0
    ensures Convert(a, c).1 == Resolve(a, c)
    ensures Convert(a, c).1.Ok? ==> Coherent(Convert(a, c).0)
  {
    var index := IndexOf(a.queried, c);
    if index == -1 {
      ConvertMiss(a, c);
      var r := Resolve(a, c);
      if r.Ok? {
        CoherentExtend(a, c, r.value);
        var b := a.(queried := a.queried + [c], resolved := a.resolved + [r.value]);
        CoherentSkip(b, a.maxLength / 2);
      }
    }
  }

  /** A cache hit returns the recorded answer and changes nothing. */
  lemma ConvertHit(a: Approximater, c: Rgb, i: nat)
    requires i < |a.queried| == |a.resolved| && a.queried[i] == c && c !in a.queried[..i]
    ensures Convert(a, c) == (a, Ok(a.resolved[i]))
  {
  }

  /** Asking twice gives the same answer. */
  lemma ConvertIdempotent(a: Approximater, c: Rgb)
    requires Coherent(a) && a.maxLength >= 0
    requires Convert(a, c).1.Ok?
    ensures Convert(Convert(a, c).0, c).1 == Convert(a, c).1
  {
    ConvertTransparent(a, c);
    ConvertTransparent(Convert(a, c).0, c);
    ResolveFrame(a, Convert(a, c).0, c);
  }

  /** The memo stays below `maxLength` entries when `maxLength >= 2`, and both
      lists keep the same length. */
  lemma ConvertBounded(a: Approximater, c: Rgb)
    requires a.maxLength >= 2 && |a.queried| == |a.resolved| < a.maxLength
    ensures var a2 := Convert(a, c).0;
      Convert(a, c).1.Ok? ==> |a2.queried| == |a2.resolved| < a.maxLength
  {
  }

  /** With `maxLength == 1` the reset drops nothing (`1 / 2 == 0`) and the memo
      grows with every new colour: two misses leave two entries. */
  lemma MaxLengthOneGrows(a: Approximater, c1: Rgb, c2: Rgb)
    requires a.maxLength == 1 && a.queried == [] && a.resolved == [] && c1 != c2
    requires Convert(a, c1).1.Ok? && Convert(Convert(a, c1).0, c2).1.Ok?
    ensures |Convert(Convert(a, c1).0, c2).0.queried| == 2
  {
    var a1 := Convert(a, c1).0;
    assert a1.queried == [c1];
  }

  /** A miss that fails on an empty bucket still records the query, so the
      memo lists one more query than answers. */
  lemma FailedMissMisaligns(a: Approximater, c: Rgb)
    requires |a.queried| == |a.resolved| && c !in a.queried
    requires BucketIndex(a.hues, a.skip, c).Ok?
    requires BucketIndex(a.hues, a.skip, c).value < |a.buckets|
    requires |a.buckets[BucketIndex(a.hues, a.skip, c).value]| == 0
    ensures Convert(a, c).1 == Err(InvalidOperation)
    ensures |Convert(a, c).0.queried| == |Convert(a, c).0.resolved| + 1
  {
  }

  /** How `New` builds its state. */
  lemma NewParts(pixels: Palette.Pixels, sampled: seq<seq<Rgb>>, maxLength: int)
    requires New(pixels, sampled, maxLength).Ok?
    ensures var a := New(pixels, sampled, maxLength).value;
      var placed := Place(Palette.GetColors(pixels).0, a.hues, seq(BucketCount, _ => []));
      a.hues == SetHueEqRgb(sampled).value && placed.Ok? && a.buckets == SortAll(placed.value)
  {
  }

  /** Sorting keeps exactly the colours of a bucket. */
  lemma SortByHueMembers(s: seq<Rgb>)
    ensures |SortByHue(s)| == |s|
    ensures forall x :: x in SortByHue(s) <==> x in s
  {
    var r := SortByHue(s);
    assert |r| == |multiset(r)| == |multiset(s)| == |s|;
    forall x
      ensures x in r <==> x in s
    {
      assert x in r <==> x in multiset(r);
      assert x in s <==> x in multiset(s);
    }
  }

  /** Placing a non-empty palette into empty buckets and sorting them
      leaves some bucket with colours, over a hue row with samples, and puts
      nothing but palette colours anywhere. */
  lemma PlacedBuckets(colors: seq<Rgb>, hues: seq<seq<Rgb>>)
    requires WellFormed(hues) && |colors| > 0
    requires Place(colors, hues, seq(BucketCount, _ => [])).Ok?
    ensures var buckets := SortAll(Place(colors, hues, seq(BucketCount, _ => [])).value);
      |buckets| == BucketCount
      && (exists b :: 0 <= b < BucketCount && |buckets[b]| > 0 && |hues[b]| > 0)
      && forall b, x :: 0 <= b < BucketCount && x in buckets[b] ==> x in colors
  {
    var empty: seq<seq<Rgb>> := seq(BucketCount, _ => []);
    PlaceContents(colors, hues, empty);
    var placed := Place(colors, hues, empty).value;
    var buckets := SortAll(placed);
    var b :| 0 <= b < |placed| && |placed[b]| > 0;
    SortByHueMembers(placed[b]);
    assert |buckets[b]| > 0;
    forall b', x | 0 <= b' < BucketCount && x in buckets[b']
      ensures x in colors
    {
      SortByHueMembers(placed[b']);
      assert x in placed[b'];
      assert x !in empty[b'];
    }
  }

  /** A fresh approximater built from a non-empty palette has a bucket that
      holds colours, is not marked empty and whose hue row has samples; and
      every bucket holds palette colours only. */
  lemma NewBuckets(pixels: Palette.Pixels, sampled: seq<seq<Rgb>>, maxLength: int)
    requires New(pixels, sampled, maxLength).Ok?
    requires WellFormed(SetHueEqRgb(sampled).value)
    requires |Palette.GetColors(pixels).0| > 0
    ensures var a := New(pixels, sampled, maxLength).value;
      WellFormed(a.hues)
      && (exists b :: 0 <= b < BucketCount && b !in a.skip && |a.hues[b]| > 0)
      && forall b, x :: 0 <= b < BucketCount && x in a.buckets[b] ==> x in PaletteColors(a)
  {
    var a := New(pixels, sampled, maxLength).value;
    NewParts(pixels, sampled, maxLength);
    PlacedBuckets(Palette.GetColors(pixels).0, a.hues);
    var b :| 0 <= b < BucketCount && |a.buckets[b]| > 0 && |a.hues[b]| > 0;
    assert b !in a.skip;
  }

  /** Built from a well-formed table and a non-empty palette, the approximater
      resolves every colour, always to one of the palette colours. */
  lemma ResolveTotal(pixels: Palette.Pixels, sampled: seq<seq<Rgb>>, maxLength: int, c: Rgb)
    requires New(pixels, sampled, maxLength).Ok?
    requires WellFormed(SetHueEqRgb(sampled).value)
    requires |Palette.GetColors(pixels).0| > 0
    ensures var a := New(pixels, sampled, maxLength).value;
      Resolve(a, c).Ok? && Resolve(a, c).value in PaletteColors(a)
  {
    var a := New(pixels, sampled, maxLength).value;
    NewBuckets(pixels, sampled, maxLength);
    var b :| 0 <= b < BucketCount && b !in a.skip && |a.hues[b]| > 0;
    BucketIndexAvoidsSkipped(a.hues, a.skip, c, b);
    var i := BucketIndex(a.hues, a.skip, c).value;
    assert |a.buckets[i]| > 0;
    var x := Nearest(a.buckets[i], c).value;
    assert Resolve(a, c) == Ok(x);
  }

  /** The palette object's two projections have the same length, as they do
      when both are computed from the same entries. */
  predicate Aligned(ps: Palette.Pixels) {
    |Palette.GetPixels(ps).0| == |Palette.GetColors(ps).0|
  }

  /** `GetColor`: the tile record at the first position of `c` among the
      palette colours; a colour not in the palette indexes at -1 and throws. */
  function GetColor(a: Approximater, c: Rgb): (r: Result<Record>)
    ensures c !in PaletteColors(a) ==> r == Err(ArgumentOutOfRange)
    ensures Aligned(a.pixels) ==> (r.Ok? <==> c in PaletteColors(a))
    ensures r.Ok? ==> exists i :: (0 <= i < |PaletteColors(a)| && PaletteColors(a)[i] == c
                                   && i < |Palette.GetPixels(a.pixels).0|
                                   && r.value == Palette.GetPixels(a.pixels).0[i])
  {
    var cols := PaletteColors(a);
    var recs := Palette.GetPixels(a.pixels).0;
    var i := IndexOf(cols, c);
    if i == -1 then Err(ArgumentOutOfRange)
    else if i >= |recs| then Err(ArgumentOutOfRange)
    else Ok(recs[i])
  }

  /** On a fresh palette object, every colour the approximater resolves to has
      a tile record: that of the first entry of that colour. */
  lemma ResolvedHasRecord(a: Approximater, c: Rgb)
    requires a.pixels.pixelsMemo.None? && a.pixels.colorsMemo.None?
    requires Resolve(a, c).Ok? && Resolve(a, c).value in PaletteColors(a)
    ensures var x := Resolve(a, c).value;
      var i := IndexOf(PaletteColors(a), x);
      0 <= i < |a.pixels.objects| && a.pixels.objects[i].color == x
      && GetColor(a, x) == Ok(Palette.AsRecord(a.pixels.objects[i]))
  {
  }

  // ---------------------------------------------------------------- SetGray

  function IsGrey(c: Rgb): bool {
    c.r == c.g && c.g == c.b
  }

  /** The colour of a tile line: field 3 parsed as hex. A line with fewer than
      four fields throws on the index. */
  function TileColor(tile: string): (r: Result<Rgb>)
    ensures |Split(tile, {':'})| < 4 ==> r == Err(IndexOutOfRange)
    ensures |Split(tile, {':'})| >= 4 ==> r == Palette.ToBytes(Split(tile, {':'})[3])
  {
    var parts := Split(tile, {':'});
    if |parts| < 4 then Err(IndexOutOfRange) else Palette.ToBytes(parts[3])
  }

  /** A tile whose colour can be read and is grey. */
  predicate GreyTile(t: string) {
    TileColor(t).Ok? && IsGrey(TileColor(t).value)
  }

  /** The grey tiles of `tiles`, in order; the first line whose colour cannot
      be read aborts. */
  function GreyTiles(tiles: seq<string>): (r: Result<seq<string>>)
    ensures r.Ok? <==> forall i :: 0 <= i < |tiles| ==> TileColor(tiles[i]).Ok?
    ensures |tiles| == 1 && r.Ok? ==> r.value == if GreyTile(tiles[0]) then tiles else []
  {
    if |tiles| == 0 then Ok([])
    else
      var c :- TileColor(tiles[0]);
      var rest :- GreyTiles(tiles[1..]);
      Ok(if IsGrey(c) then [tiles[0]] + rest else rest)
  }

  /** The kept tiles are exactly the grey ones. */
  lemma {:induction false} GreyTilesMembers(tiles: seq<string>)
    requires GreyTiles(tiles).Ok?
    ensures forall t :: t in GreyTiles(tiles).value <==> t in tiles && GreyTile(t)
  {
    if |tiles| > 0 {
      GreyTilesMembers(tiles[1..]);
      assert tiles == [tiles[0]] + tiles[1..];
    }
  }

  /** Filtering works line by line: the grey tiles of a concatenation are
      those of each half, in order, duplicates included. */
  lemma {:induction false} GreyTilesAppend(a: seq<string>, b: seq<string>)
    requires GreyTiles(a + b).Ok?
    ensures GreyTiles(a).Ok? && GreyTiles(b).Ok?
    ensures GreyTiles(a + b).value == GreyTiles(a).value + GreyTiles(b).value
  {
    if |a| > 0 {
      assert (a + b)[0] == a[0] && (a + b)[1..] == a[1..] + b;
      assert forall i :: 0 <= i < |a[1..] + b| ==> (a[1..] + b)[i] == (a + b)[i + 1];
      GreyTilesAppend(a[1..], b);
      assert forall i :: 0 <= i < |a| ==> a[i] == (a + b)[i];
    } else {
      assert a + b == b;
    }
  }

  /** `SetGray`: false and no change for an empty tile list; otherwise true,
      and the default tiles become their grey subset. */
  function SetGray(tiles: seq<string>): (r: Result<(bool, seq<string>)>)
    ensures |tiles| == 0 ==> r == Ok((false, tiles))
    ensures |tiles| > 0 ==> (r.Ok? <==> forall i :: 0 <= i < |tiles| ==> TileColor(tiles[i]).Ok?)
    ensures |tiles| > 0 && r.Ok? ==> r.value.0 && forall t :: t in r.value.1 <==> t in tiles && GreyTile(t)
    ensures |tiles| > 0 && r.Ok? ==> GreyTiles(tiles) == Ok(r.value.1)
  {
    if |tiles| == 0 then Ok((false, tiles))
    else
      var grey :- GreyTiles(tiles);
      GreyTilesMembers(tiles);
      Ok((true, grey))
  }
}

=== FILE: common.dfy ===
/** Shared value types of the tile-art converter: bytes, 16-bit identifiers,
    RGB colours, the 5-field tile record, and the failure values that stand for
    the exceptions the C# code throws. */
module Common {

  /** An unsigned 8-bit value (C# `byte`). */
  type Byte = x: int | 0 <= x < 256

  /** An unsigned 16-bit value (C# `ushort`). */
  type U16 = x: int | 0 <= x < 65536

  const TwoTo32: int := 0x1_0000_0000
  const Int32Max: int := 0x7FFF_FFFF

  /** Two's-complement wrap-around of an unbounded integer into C# `int`. */
  function Wrap32(x: int): (r: int)
    ensures -Int32Max - 1 <= r <= Int32Max
    ensures -Int32Max - 1 <= x <= Int32Max ==> r == x
  {
    var m := x % TwoTo32;
    if m > Int32Max then m - TwoTo32 else m
  }

  /** The C# cast `(ushort)v`: keep the low 16 bits. */
  function ToU16(v: int): (r: U16)
    ensures 0 <= v < 65536 ==> r == v
  {
    v % 65536
  }

  /** An RGB colour, the `(byte, byte, byte)` tuple of the source. */
  datatype Rgb = Rgb(r: Byte, g: Byte, b: Byte)

  /** A tile record `(isWall, isTorch, id, paint)` as stored in the output file. */
  datatype Record = Record(isWall: bool, isTorch: bool, id: U16, paint: Byte)

  /** The exceptions of the source, by .NET type. `Dithering` wraps the cause
      the way `DitheringException` does, and `ImageProcessing` the way
      `ImageProcessingException` does. */
  datatype Error =
    | ArgumentNull
    | Argument
    | ArgumentOutOfRange
    | IndexOutOfRange
    | InvalidOperation
    | NotSupported
    | Format
    | Overflow
    | OutOfMemory
    | NullReference
    | Dithering(cause: Error)
    | ImageProcessing(cause: Error)
    | Aggregate(cause: Error)

  datatype Option<+T> = None | Some(value: T)

  datatype Result<+T> = Ok(value: T) | Err(error: Error) {
    predicate IsFailure() {
      Err?
    }

    function PropagateFailure<U>(): Result<U>
      requires Err?
    {
      Err(error)
    }

    function Extract(): T
      requires Ok?
    {
      value
    }
  }

  /** First position of `x` in `s`, or -1 (C# `List.IndexOf`). */
  function IndexOf<T(==)>(s: seq<T>, x: T): (i: int)
    ensures -1 <= i < |s|
    ensures i == -1 <==> x !in s
    ensures 0 <= i ==> s[i] == x && x !in s[..i]
  {
    if |s| == 0 then -1
    else if s[0] == x then 0
    else
      var j := IndexOf(s[1..], x);
      if j == -1 then -1
      else
        assert s[..j+1] == [s[0]] + s[1..][..j];
        j + 1
  }

  /** `f` applied to every element in order; the first failure aborts (a
      `foreach` loop whose body can throw). */
  function MapResult<A, B>(xs: seq<A>, f: A -> Result<B>): (r: Result<seq<B>>)
    ensures r.Ok? ==> |r.value| == |xs|
  {
    if |xs| == 0 then Ok([])
    else
      var y :- f(xs[0]);
      var rest :- MapResult(xs[1..], f);
      Ok([y] + rest)
  }

  /** The loop succeeds exactly when every element does, and then collects
      each element's answer at its position. */
  lemma {:induction false} MapResultPointwise<A, B>(xs: seq<A>, f: A -> Result<B>)
    ensures MapResult(xs, f).Ok? <==> forall i :: 0 <= i < |xs| ==> f(xs[i]).Ok?
    ensures MapResult(xs, f).Ok? ==>
      forall i :: 0 <= i < |xs| ==> MapResult(xs, f).value[i] == f(xs[i]).value
  {
    if |xs| > 0 {
      var tail := xs[1..];
      MapResultPointwise(tail, f);
      if MapResult(xs, f).Ok? {
        forall i | 0 <= i < |xs|
          ensures f(xs[i]).Ok? && MapResult(xs, f).value[i] == f(xs[i]).value
        {
          if i > 0 {
            assert xs[i] == tail[i - 1];
          }
        }
      } else if f(xs[0]).Ok? {
        var j :| 0 <= j < |tail| && !f(tail[j]).Ok?;
        assert xs[j + 1] == tail[j];
      }
    }
  }

  /** Quotient and remainder are determined by any exact decomposition. */
  lemma DivMod(v: int, d: int, q: int, rem: int)
    requires d > 0 && v == q * d + rem && 0 <= rem < d
    ensures v / d == q && v % d == rem
  {
    var q', r' := v / d, v % d;
    assert (q - q') * d == r' - rem;
    if q > q' {
      MulAtLeast(q - q', d);
    } else if q < q' {
      MulAtLeast(q' - q, d);
    }
  }

  lemma MulAtLeast(k: int, d: int)
    requires k >= 1 && d > 0
    ensures k * d >= d
  {
  }

  lemma MulNonNeg(a: int, b: int)
    requires 0 <= a && 0 <= b
    ensures 0 <= a * b
  {
  }

  lemma MulMono(a: int, b: int, k: int)
    requires a <= b && 0 <= k
    ensures a * k <= b * k
  {
  }
}

=== FILE: diffusion.dfy ===
/** `DitheringBase.DoDithering`: the error-diffusion engine. Pixels are visited
    row by row, left to right; each is replaced by the colour function's
    answer and the difference is spread to the forward neighbours named by the
    ditherer's kernel. */
module Diffusion {
  import opened Common
  import opened Kernels
  import opened ByteImage

  /** The colour function with the approximater it is given: the delegate
      `ColorFunction(in original, ref replacement, approximater)`, with an
      exception as an error. */
  type ColorFunction<!A> = (seq<Byte>, A) -> Result<seq<Byte>>

  /** `(x', y')` is visited before `(x, y)` in scan order. */
  predicate Before(x': int, y': int, x: int, y: int) {
    y' < y || (y' == y && x' < x)
  }

  /** `ModifyImageWithErrorAndMultiplier`: read the neighbour, move it by its
      share of the error, write it back. */
  function Spread(img: Image, x: int, y: int, errors: seq<real>, share: real): (r: Result<Image>)
    ensures r.Ok? ==> (r.value.width, r.value.height, r.value.channels)
                      == (img.width, img.height, img.channels)
  {
    var v :- Get(img, x, y);
    var moved :- AddError(img, v, errors, share);
    Set(img, x, y, moved)
  }

  /** On a valid image, spreading to an in-bounds pixel succeeds, changes that
      pixel to its moved value and no other. */
  lemma SpreadEffect(img: Image, x: int, y: int, errors: seq<real>, share: real)
    requires Valid(img) && InBounds(img, x, y) && |errors| == img.channels
    ensures Spread(img, x, y, errors, share).Ok?
    ensures var img' := Spread(img, x, y, errors, share).value;
      Valid(img') && (img'.width, img'.height, img'.channels) == (img.width, img.height, img.channels)
      && Get(img', x, y) == AddError(img, Get(img, x, y).value, errors, share)
      && forall x', y' :: InBounds(img, x', y') && (x', y') != (x, y) ==>
           Get(img', x', y') == Get(img, x', y')
  {
    GetValid(img, x, y);
    var moved := AddError(img, Get(img, x, y).value, errors, share).value;
    SetGet(img, x, y, moved);
  }

  /** The first tap at or after index `i` that lands on offset `(dx, dy)`. */
  function TapFrom(k: Kernel, dx: int, dy: int, i: nat): (t: Option<nat>)
    requires WellFormed(k) && i <= |k.xs|
    ensures t.Some? ==> i <= t.value < |k.xs| && k.xs[t.value] == dx && k.ys[t.value] == dy
    ensures t.None? ==> forall j :: i <= j < |k.xs| ==> (k.xs[j], k.ys[j]) != (dx, dy)
    decreases |k.xs| - i
  {
    if i == |k.xs| then None
    else if k.xs[i] == dx && k.ys[i] == dy then Some(i)
    else TapFrom(k, dx, dy, i + 1)
  }

  /** `PushError` from tap `i` on: every tap that lands inside the image
      receives its share; taps that fall outside are skipped. */
  function Push(img: Image, x: int, y: int, errors: seq<real>, k: Kernel, i: nat): (r: Result<Image>)
    requires WellFormed(k) && i <= |k.xs|
    ensures r.Ok? ==> (r.value.width, r.value.height, r.value.channels)
                      == (img.width, img.height, img.channels)
    decreases |k.xs| - i, 1
  {
    if i == |k.xs| then Ok(img) else PushTap(img, x, y, errors, k, i)
  }

  /** Tap `i` of `PushError`, then the taps after it. */
  function PushTap(img: Image, x: int, y: int, errors: seq<real>, k: Kernel, i: nat): (r: Result<Image>)
    requires WellFormed(k) && i < |k.xs|
    ensures r.Ok? ==> (r.value.width, r.value.height, r.value.channels)
                      == (img.width, img.height, img.channels)
    decreases |k.xs| - i, 0
  {
    var nx, ny := x + k.xs[i], y + k.ys[i];
    if InBounds(img, nx, ny) then
      match Spread(img, nx, ny, errors, k.ms[i])
      case Err(e) => Err(e)
      case Ok(img') => Push(img', x, y, errors, k, i + 1)
    else Push(img, x, y, errors, k, i + 1)
  }

  /** A tap that lands inside hands the spread image on to the next tap. */
  lemma PushInside(img: Image, img1: Image, x: int, y: int, errors: seq<real>, k: Kernel, i: nat)
    requires WellFormed(k) && i < |k.xs| && InBounds(img, x + k.xs[i], y + k.ys[i])
    requires Spread(img, x + k.xs[i], y + k.ys[i], errors, k.ms[i]) == Ok(img1)
    ensures Push(img, x, y, errors, k, i) == Push(img1, x, y, errors, k, i + 1)
  {
  }

  /** A tap that falls outside is skipped. */
  lemma PushOutside(img: Image, x: int, y: int, errors: seq<real>, k: Kernel, i: nat)
    requires WellFormed(k) && i < |k.xs| && !InBounds(img, x + k.xs[i], y + k.ys[i])
    ensures Push(img, x, y, errors, k, i) == Push(img, x, y, errors, k, i + 1)
  {
  }

  /** What pushing from tap `i` does to one pixel, stated independently of
      the order of the taps: a pixel that some tap reaches is moved once by
      that tap's share; every other pixel keeps its value. */
  function Pushed(img: Image, x: int, y: int, errors: seq<real>, k: Kernel, i: nat, px: int, py: int): Result<seq<Byte>>
    requires WellFormed(k) && i <= |k.xs|
  {
    match TapFrom(k, px - x, py - y, i)
    case None => Get(img, px, py)
    case Some(j) =>
      var v :- Get(img, px, py);
      AddError(img, v, errors, k.ms[j])
  }

  /** A tap that does not land on `(dx, dy)` does not change the search. */
  lemma TapSkip(k: Kernel, dx: int, dy: int, i: nat)
    requires WellFormed(k) && i < |k.xs| && (k.xs[i], k.ys[i]) != (dx, dy)
    ensures TapFrom(k, dx, dy, i) == TapFrom(k, dx, dy, i + 1)
  {
  }

  /** With distinct taps, tap `i` is the only one from `i` on with its offset. */
  lemma TapHere(k: Kernel, i: nat)
    requires WellFormed(k) && DistinctForward(k) && i < |k.xs|
    ensures TapFrom(k, k.xs[i], k.ys[i], i) == Some(i)
    ensures TapFrom(k, k.xs[i], k.ys[i], i + 1) == None
  {
  }

  /** The pixel tap `i` lands on: moved once, by tap `i`'s share. */
  lemma PushedLanded(img: Image, img1: Image, x: int, y: int, errors: seq<real>, k: Kernel, i: nat)
    requires WellFormed(k) && DistinctForward(k) && i < |k.xs|
    requires img1.channels == img.channels && Get(img, x + k.xs[i], y + k.ys[i]).Ok?
    requires Get(img1, x + k.xs[i], y + k.ys[i])
             == AddError(img, Get(img, x + k.xs[i], y + k.ys[i]).value, errors, k.ms[i])
    ensures Pushed(img1, x, y, errors, k, i + 1, x + k.xs[i], y + k.ys[i])
            == Pushed(img, x, y, errors, k, i, x + k.xs[i], y + k.ys[i])
  {
    TapHere(k, i);
    assert (x + k.xs[i]) - x == k.xs[i] && (y + k.ys[i]) - y == k.ys[i];
  }

  /** Any other pixel: tap `i` does not change what happens to it. */
  lemma PushedOther(img: Image, img1: Image, x: int, y: int, errors: seq<real>, k: Kernel, i: nat, px: int, py: int)
    requires WellFormed(k) && i < |k.xs| && (px, py) != (x + k.xs[i], y + k.ys[i])
    requires img1.channels == img.channels && Get(img1, px, py) == Get(img, px, py)
    ensures Pushed(img1, x, y, errors, k, i + 1, px, py) == Pushed(img, x, y, errors, k, i, px, py)
  {
    TapSkip(k, px - x, py - y, i);
  }

  /** Spreading to an in-bounds pixel of a valid image gives a valid image. */
  lemma SpreadValid(img: Image, x: int, y: int, errors: seq<real>, share: real)
    requires Valid(img) && InBounds(img, x, y) && |errors| == img.channels
    ensures Spread(img, x, y, errors, share).Ok?
    ensures Valid(Spread(img, x, y, errors, share).value)
    ensures Spread(img, x, y, errors, share).value.channels == img.channels
  {
    SpreadEffect(img, x, y, errors, share);
  }

  /** The pixel a spread lands on holds its moved value. */
  lemma SpreadHere(img: Image, x: int, y: int, errors: seq<real>, share: real)
    requires Valid(img) && InBounds(img, x, y) && |errors| == img.channels
    ensures Spread(img, x, y, errors, share).Ok? && Get(img, x, y).Ok?
    ensures Get(Spread(img, x, y, errors, share).value, x, y)
            == AddError(img, Get(img, x, y).value, errors, share)
  {
    SpreadEffect(img, x, y, errors, share);
  }

  /** Every other pixel keeps its value. */
  lemma SpreadElsewhere(img: Image, x: int, y: int, errors: seq<real>, share: real, px: int, py: int)
    requires Valid(img) && InBounds(img, x, y) && |errors| == img.channels
    requires InBounds(img, px, py) && (px, py) != (x, y)
    ensures Spread(img, x, y, errors, share).Ok?
    ensures Get(Spread(img, x, y, errors, share).value, px, py) == Get(img, px, py)
  {
    SpreadEffect(img, x, y, errors, share);
  }

  /** One pixel of one step of `PushEffect`: tap `i` lands inside the image. */
  lemma PushEffectPixel(img: Image, img1: Image, x: int, y: int, errors: seq<real>, k: Kernel, i: nat, px: int, py: int)
    requires Valid(img) && |errors| == img.channels
    requires WellFormed(k) && DistinctForward(k) && i < |k.xs|
    requires InBounds(img, x + k.xs[i], y + k.ys[i]) && InBounds(img, px, py)
    requires Spread(img, x + k.xs[i], y + k.ys[i], errors, k.ms[i]) == Ok(img1)
    ensures Pushed(img1, x, y, errors, k, i + 1, px, py) == Pushed(img, x, y, errors, k, i, px, py)
  {
    var nx, ny := x + k.xs[i], y + k.ys[i];
    if (px, py) == (nx, ny) {
      SpreadHere(img, nx, ny, errors, k.ms[i]);
      PushedLanded(img, img1, x, y, errors, k, i);
    } else {
      SpreadElsewhere(img, nx, ny, errors, k.ms[i], px, py);
      PushedOther(img, img1, x, y, errors, k, i, px, py);
    }
  }

  /** Pushing from tap `i` succeeds, keeps the image valid and leaves every
      pixel as `Pushed` describes. */
  ghost predicate PushDescribed(img: Image, x: int, y: int, errors: seq<real>, k: Kernel, i: nat)
    requires WellFormed(k) && i <= |k.xs|
  {
    Push(img, x, y, errors, k, i).Ok?
    && Valid(Push(img, x, y, errors, k, i).value)
    && forall px, py :: InBounds(img, px, py) ==>
         Get(Push(img, x, y, errors, k, i).value, px, py) == Pushed(img, x, y, errors, k, i, px, py)
  }

  /** One step of `PushEffect`: tap `i` lands inside the image. */
  lemma PushEffectInside(img: Image, x: int, y: int, errors: seq<real>, k: Kernel, i: nat)
    requires Valid(img) && |errors| == img.channels
    requires WellFormed(k) && DistinctForward(k) && i < |k.xs|
    requires InBounds(img, x + k.xs[i], y + k.ys[i])
    requires Spread(img, x + k.xs[i], y + k.ys[i], errors, k.ms[i]).Ok?
    requires PushDescribed(Spread(img, x + k.xs[i], y + k.ys[i], errors, k.ms[i]).value, x, y, errors, k, i + 1)
    ensures PushDescribed(img, x, y, errors, k, i)
  {
    var img1 := Spread(img, x + k.xs[i], y + k.ys[i], errors, k.ms[i]).value;
    PushInside(img, img1, x, y, errors, k, i);
    var img' := Push(img1, x, y, errors, k, i + 1).value;
    forall px, py | InBounds(img, px, py)
      ensures Get(img', px, py) == Pushed(img, x, y, errors, k, i, px, py)
    {
      PushEffectPixel(img, img1, x, y, errors, k, i, px, py);
    }
  }

  /** One step of `PushEffect`: tap `i` falls outside the image. */
  lemma PushEffectOutside(img: Image, x: int, y: int, errors: seq<real>, k: Kernel, i: nat)
    requires WellFormed(k) && i < |k.xs| && !InBounds(img, x + k.xs[i], y + k.ys[i])
    requires PushDescribed(img, x, y, errors, k, i + 1)
    ensures PushDescribed(img, x, y, errors, k, i)
  {
    PushOutside(img, x, y, errors, k, i);
    var img' := Push(img, x, y, errors, k, i).value;
    forall px, py | InBounds(img, px, py)
      ensures Get(img', px, py) == Pushed(img, x, y, errors, k, i, px, py)
    {
      TapSkip(k, px - x, py - y, i);
    }
  }

  /** On a valid image with forward, distinct taps, pushing succeeds and every
      pixel ends as `Pushed` describes. */
  lemma {:induction false} PushEffect(img: Image, x: int, y: int, errors: seq<real>, k: Kernel, i: nat)
    requires Valid(img) && |errors| == img.channels
    requires WellFormed(k) && DistinctForward(k) && i <= |k.xs|
    ensures PushDescribed(img, x, y, errors, k, i)
    decreases |k.xs| - i
  {
    if i < |k.xs| {
      var nx, ny := x + k.xs[i], y + k.ys[i];
      if InBounds(img, nx, ny) {
        SpreadValid(img, nx, ny, errors, k.ms[i]);
        PushEffect(Spread(img, nx, ny, errors, k.ms[i]).value, x, y, errors, k, i + 1);
        PushEffectInside(img, x, y, errors, k, i);
      } else {
        PushEffect(img, x, y, errors, k, i + 1);
        PushEffectOutside(img, x, y, errors, k, i);
      }
    }
  }

  /** Pushing never reaches back: a pixel visited no later than `(x, y)`
      keeps its value. */
  lemma PushFrame(img: Image, x: int, y: int, errors: seq<real>, k: Kernel)
    requires Valid(img) && |errors| == img.channels
    requires WellFormed(k) && DistinctForward(k)
    ensures Push(img, x, y, errors, k, 0).Ok?
    ensures var img' := Push(img, x, y, errors, k, 0).value;
      Valid(img') && (img'.width, img'.height, img'.channels) == (img.width, img.height, img.channels)
      && forall px, py :: InBounds(img, px, py) && (Before(px, py, x, y) || (px, py) == (x, y)) ==>
           Get(img', px, py) == Get(img, px, py)
  {
    PushEffect(img, x, y, errors, k, 0);
    var img' := Push(img, x, y, errors, k, 0).value;
    forall px, py | InBounds(img, px, py) && (Before(px, py, x, y) || (px, py) == (x, y))
      ensures Get(img', px, py) == Get(img, px, py)
    {
      assert !Forward(px - x, py - y);
      assert TapFrom(k, px - x, py - y, 0).None?;
    }
  }

  /** Spreading a zero error leaves the image as it was. */
  lemma SpreadIdle(img: Image, x: int, y: int, share: real)
    requires Valid(img) && InBounds(img, x, y)
    ensures Spread(img, x, y, Zeros(img.channels), share) == Ok(img)
  {
    GetValid(img, x, y);
    var v := Get(img, x, y).value;
    AddNoError(img, v, share);
    SetSame(img, x, y);
  }

  /** A zero error moves nothing: pushing it leaves the image as it was. */
  lemma {:induction false} PushIdle(img: Image, x: int, y: int, k: Kernel, i: nat)
    requires Valid(img) && WellFormed(k) && i <= |k.xs|
    ensures Push(img, x, y, Zeros(img.channels), k, i) == Ok(img)
    decreases |k.xs| - i
  {
    if i < |k.xs| {
      var nx, ny := x + k.xs[i], y + k.ys[i];
      if InBounds(img, nx, ny) {
        SpreadIdle(img, nx, ny, k.ms[i]);
        PushInside(img, img, x, y, Zeros(img.channels), k, i);
      } else {
        PushOutside(img, x, y, Zeros(img.channels), k, i);
      }
      PushIdle(img, x, y, k, i + 1);
    }
  }

  /** `v` is an answer the colour function can give. */
  ghost predicate Produced<A>(cf: ColorFunction<A>, a: A, v: seq<Byte>) {
    exists p: seq<Byte> :: cf(p, a) == Ok(v)
  }

  /** The colour function answers every pixel of `c` channels with `c`
      channels. */
  ghost predicate Total<A>(cf: ColorFunction<A>, a: A, c: int) {
    forall p: seq<Byte> :: |p| == c ==> cf(p, a).Ok? && |cf(p, a).value| == c
  }

  /** The colour function answers every pixel of `c` channels with itself. */
  ghost predicate Keeps<A>(cf: ColorFunction<A>, a: A, c: int) {
    forall p: seq<Byte> :: |p| == c ==> cf(p, a) == Ok(p)
  }

  /** The body of the pixel loop for `(x, y)`: quantise the pixel, write the
      answer back, push the error forward. A failure is wrapped. */
  function Visit<A>(cur: Image, x: int, y: int, a: A, cf: ColorFunction<A>, k: Kernel): (r: Result<Image>)
    requires WellFormed(k)
    ensures r.Err? ==> r.error.Dithering?
    ensures r.Ok? ==> (r.value.width, r.value.height, r.value.channels)
                      == (cur.width, cur.height, cur.channels)
  {
    match Get(cur, x, y)
    case Err(e) => Err(Dithering(e))
    case Ok(original) =>
      match cf(original, a)
      case Err(e) => Err(Dithering(e))
      case Ok(pixel) =>
        if |pixel| != cur.channels then Err(Dithering(InvalidOperation))
        else match Set(cur, x, y, pixel)
          case Err(e) => Err(Dithering(e))
          case Ok(written) =>
            match QuantErrors(cur, original, pixel)
            case Err(e) => Err(Dithering(e))
            case Ok(errors) =>
              match Push(written, x, y, errors, k, 0)
              case Err(e) => Err(Dithering(e))
              case Ok(pushed) => Ok(pushed)
  }

  /** On a valid image, visiting an in-bounds pixel succeeds exactly when the
      colour function answers with a pixel of the right size; the pixel then
      holds that answer, and no pixel visited earlier changes. */
  lemma VisitEffect<A>(cur: Image, x: int, y: int, a: A, cf: ColorFunction<A>, k: Kernel)
    requires Valid(cur) && InBounds(cur, x, y)
    requires WellFormed(k) && DistinctForward(k)
    ensures Get(cur, x, y).Ok?
    ensures var answer := cf(Get(cur, x, y).value, a);
      Visit(cur, x, y, a, cf, k).Ok? <==> answer.Ok? && |answer.value| == cur.channels
    ensures Visit(cur, x, y, a, cf, k).Ok? ==>
      var next := Visit(cur, x, y, a, cf, k).value;
      Valid(next)
      && Get(next, x, y) == cf(Get(cur, x, y).value, a)
      && forall px, py :: InBounds(cur, px, py) && Before(px, py, x, y) ==>
           Get(next, px, py) == Get(cur, px, py)
  {
    GetValid(cur, x, y);
    var original := Get(cur, x, y).value;
    var answer := cf(original, a);
    if answer.Ok? && |answer.value| == cur.channels {
      var pixel := answer.value;
      SetGet(cur, x, y, pixel);
      var written := Set(cur, x, y, pixel).value;
      var errors := QuantErrors(cur, original, pixel).value;
      PushFrame(written, x, y, errors, k);
    }
  }

  /** A colour function that keeps every pixel makes a visit change nothing. */
  lemma VisitIdle<A>(cur: Image, x: int, y: int, a: A, cf: ColorFunction<A>, k: Kernel)
    requires Valid(cur) && InBounds(cur, x, y) && WellFormed(k)
    requires Keeps(cf, a, cur.channels)
    ensures Visit(cur, x, y, a, cf, k) == Ok(cur)
  {
    SetSame(cur, x, y);
    var original := Get(cur, x, y).value;
    assert cf(original, a) == Ok(original);
    QuantSame(cur, original);
    PushIdle(cur, x, y, k, 0);
  }

  /** Every pixel visited before `(x, y)` holds an answer of the colour
      function. */
  ghost predicate Settled<A>(cf: ColorFunction<A>, a: A, img: Image, x: int, y: int) {
    forall px, py :: InBounds(img, px, py) && Before(px, py, x, y) ==>
      Get(img, px, py).Ok? && Produced(cf, a, Get(img, px, py).value)
  }

  /** A successful visit of `(x, y)` settles it and keeps the earlier pixels
      settled. */
  lemma VisitSettles<A>(cur: Image, x: int, y: int, a: A, cf: ColorFunction<A>, k: Kernel)
    requires Valid(cur) && InBounds(cur, x, y)
    requires WellFormed(k) && DistinctForward(k)
    requires Settled(cf, a, cur, x, y) && Visit(cur, x, y, a, cf, k).Ok?
    ensures Settled(cf, a, Visit(cur, x, y, a, cf, k).value, x + 1, y)
  {
    VisitEffect(cur, x, y, a, cf, k);
    var next := Visit(cur, x, y, a, cf, k).value;
    var original := Get(cur, x, y).value;
    forall px, py | InBounds(next, px, py) && Before(px, py, x + 1, y)
      ensures Get(next, px, py).Ok? && Produced(cf, a, Get(next, px, py).value)
    {
      if (px, py) == (x, y) {
        assert cf(original, a) == Ok(Get(next, x, y).value);
      }
    }
  }

  /** A finished row settles everything above the next one. */
  lemma RowSettled<A>(cf: ColorFunction<A>, a: A, img: Image, y: int)
    requires 0 <= img.width && Settled(cf, a, img, img.width, y)
    ensures Settled(cf, a, img, 0, y + 1)
  {
  }

  /** `DoDithering`: quantise every pixel in scan order, diffusing each
      pixel's error forward with the kernel of `alg`. Any failure inside is
      reported wrapped, as `DitheringException` wraps it. */
  method DoDithering<A>(input: Option<Image>, approximater: Option<A>, cf: ColorFunction<A>, alg: Algorithm)
    returns (r: Result<Image>)
    ensures input.None? || approximater.None? <==> r == Err(ArgumentNull)
    ensures r.Err? && r != Err(ArgumentNull) ==> r.error.Dithering?
    ensures input.Some? && r.Ok? ==>
      (r.value.width, r.value.height, r.value.channels)
      == (input.value.width, input.value.height, input.value.channels)
    ensures input.Some? && approximater.Some? && r.Ok? && Valid(input.value) ==>
      Valid(r.value)
      && forall x, y :: InBounds(r.value, x, y) ==>
           Get(r.value, x, y).Ok? && Produced(cf, approximater.value, Get(r.value, x, y).value)
    ensures input.Some? && approximater.Some? && r.Ok? && Valid(input.value)
            && Get(input.value, 0, 0).Ok? ==>
      Get(r.value, 0, 0) == cf(Get(input.value, 0, 0).value, approximater.value)
    ensures (input.Some? && approximater.Some? && Valid(input.value)
             && Total(cf, approximater.value, input.value.channels)) ==> r.Ok?
    ensures (input.Some? && approximater.Some? && Valid(input.value)
             && Keeps(cf, approximater.value, input.value.channels)) ==> r == Ok(input.value)
  {
    if input.None? || approximater.None? {
      return Err(ArgumentNull);
    }
    var img, a := input.value, approximater.value;
    var w, h, c := img.width, img.height, img.channels;
    if c < 0 {
      // `new T[channelsPerPixel]` with a negative length
      return Err(Dithering(Overflow));
    }
    var k := KernelOf(alg);
    KernelTaps(alg);
    ghost var valid := Valid(img);
    ghost var total := Total(cf, a, c);
    ghost var keeps := Keeps(cf, a, c);
    ghost var first := Get(img, 0, 0);
    var cur := img;
    var y := 0;
    while y < h
      invariant 0 <= y && (0 <= h ==> y <= h)
      invariant (cur.width, cur.height, cur.channels) == (w, h, c)
      invariant valid ==> Valid(cur)
      invariant valid ==> Settled(cf, a, cur, 0, y)
      invariant valid && y > 0 && 0 < w && first.Ok? ==> Get(cur, 0, 0) == cf(first.value, a)
      invariant y == 0 ==> cur == img
      invariant valid && keeps ==> cur == img
    {
      var x := 0;
      while x < w
        invariant 0 <= x && (0 <= w ==> x <= w)
        invariant (cur.width, cur.height, cur.channels) == (w, h, c)
        invariant valid ==> Valid(cur)
        invariant valid ==> Settled(cf, a, cur, x, y)
        invariant valid && (y > 0 || x > 0) && first.Ok? ==> Get(cur, 0, 0) == cf(first.value, a)
        invariant y == 0 && x == 0 ==> cur == img
        invariant valid && keeps ==> cur == img
      {
        if valid {
          VisitEffect(cur, x, y, a, cf, k);
          if keeps {
            VisitIdle(cur, x, y, a, cf, k);
          }
        }
        var next := Visit(cur, x, y, a, cf, k);
        if next.Err? {
          return Err(next.error);
        }
        if valid {
          VisitSettles(cur, x, y, a, cf, k);
        }
        cur := next.value;
        x := x + 1;
      }
      if valid {
        RowSettled(cf, a, cur, y);
      }
      y := y + 1;
    }
    return Ok(cur);
  }
}

=== FILE: frame_index.dfy ===
/** The index-collision step of the photo pipeline: before a frame is
    converted, its index is moved past output files that already exist, the
    index is claimed in the shared in-flight table, and the table entry is
    released when the frame is done. The file system is a snapshot set of the
    indices whose output file exists; the in-flight table is a set. */
module FrameIndex {

  /** The first index from `i` on whose output file does not exist. */
  function FirstFree(i: int, existing: set<int>): (r: int)
    ensures r >= i && r !in existing
    ensures forall j :: i <= j < r ==> j in existing
    decreases set j | j in existing && j >= i
  {
    if i !in existing then i
    else
      var later := set j | j in existing && j >= i + 1;
      var here := set j | j in existing && j >= i;
      assert i in here && i !in later;
      assert later < here;
      FirstFree(i + 1, existing)
  }

  /** The probe as written: when the file exists or the index is in flight,
      increment the index until no file exists for it. The loop consults the
      file system only, not the in-flight table. The index is kept exactly
      when there is no collision; otherwise the result is the nearest later
      index with no file, every index skipped having one. */
  function Probe(index: int, existing: set<int>, inFlight: set<int>): (r: int)
    ensures r >= index && r !in existing
    ensures r == index <==> index !in existing && index !in inFlight
    ensures forall j :: index < j < r ==> j in existing
  {
    if index in existing || index in inFlight then FirstFree(index + 1, existing) else index
  }

  /** The outcome of one frame: the index used, whether claiming it in the
      table succeeded, and the table afterwards. */
  datatype Outcome = Outcome(resolved: int, claimed: bool, inFlight: set<int>)

  /** The step as written: probe, claim the probed index (`TryAdd` fails when
      it is already present, and the frame is then dropped with a logged
      error), and on exit remove the ORIGINAL index. When a collision moves
      the index and the claim succeeds, the claimed entry outlives the frame,
      and the entry under the original index — possibly another frame's — is
      removed instead. */
  function Step(index: int, existing: set<int>, inFlight: set<int>): (o: Outcome)
    ensures o.resolved == Probe(index, existing, inFlight)
    ensures o.claimed <==> o.resolved !in inFlight
    ensures index !in o.inFlight
    ensures o.claimed && o.resolved != index ==> o.resolved in o.inFlight
    ensures o.resolved == index ==> o.inFlight == inFlight - {index}
  {
    var r := Probe(index, existing, inFlight);
    var claimed := r !in inFlight;
    var table := if claimed then inFlight + {r} else inFlight;
    Outcome(r, claimed, table - {index})
  }

  /** A frame can be dropped once two frames run at the same time: frame 1
      finds `photo1` on disk, the probe moves it to 2, and frame 2 has already
      claimed 2, so the claim fails and frame 1 is never converted. The
      shipped processors run one frame at a time, so the flaw is latent. */
  lemma StepDropsFrame()
    ensures var o := Step(1, {1}, {2});
      o.resolved == 2 && !o.claimed && o.inFlight == {2}
  {
    assert FirstFree(2, {1}) == 2;
  }

  /** A moved frame leaks its claim: frame 1 finds `photo1` on disk, claims 2,
      and on exit removes 1, so the entry for 2 outlives the frame. */
  lemma StepLeaksEntry()
    ensures var o := Step(1, {1}, {});
      o.resolved == 2 && o.claimed && o.inFlight == {2}
  {
    assert FirstFree(2, {1}) == 2;
  }

  /** The first index from `i` on that has neither a file nor an entry in
      the table. */
  function FirstUnused(i: int, existing: set<int>, inFlight: set<int>): (r: int)
    ensures r >= i && r !in existing && r !in inFlight
    ensures forall j :: i <= j < r ==> j in existing || j in inFlight
    decreases (set j | j in existing && j >= i) + (set j | j in inFlight && j >= i)
  {
    if i !in existing && i !in inFlight then i
    else
      var later := (set j | j in existing && j >= i + 1) + (set j | j in inFlight && j >= i + 1);
      var here := (set j | j in existing && j >= i) + (set j | j in inFlight && j >= i);
      assert i in here && i !in later;
      assert later < here;
      FirstUnused(i + 1, existing, inFlight)
  }

  /** The step as intended: skip indices that are in flight as well as those
      with a file, and release the index that was claimed. It always claims an
      index that has no file and is not in flight, keeps the index when it is
      free, and leaves the table as it found it: no frame is dropped and no
      entry leaks or is lost. */
  function SafeStep(index: int, existing: set<int>, inFlight: set<int>): (o: Outcome)
    ensures o.claimed && o.resolved >= index
    ensures o.resolved !in existing && o.resolved !in inFlight
    ensures o.resolved == index <==> index !in existing && index !in inFlight
    ensures o.inFlight == inFlight
  {
    var r := FirstUnused(index, existing, inFlight);
    Outcome(r, true, (inFlight + {r}) - {r})
  }
}

=== FILE: gradient_boundary.dfy ===
/** `GradientBoundaryProcessor`: argument checks, thresholding of the
    gradient map into a mask, and the extraction of the coordinates of the
    mask's set cells. The gradient map and the region filter are inputs. */
module GradientBoundary {
  import opened Common

  const MinSensitivity: real := 0.01
  const MaxSensitivity: real := 0.5

  /** The argument checks of `ProcessImageAsync`, sensitivity first. */
  function CheckArguments(sensitivity: real, minRegionSize: int): (r: Option<Error>)
    ensures r.None? <==> MinSensitivity <= sensitivity <= MaxSensitivity && minRegionSize >= 0
    ensures r.Some? ==> r.value == ArgumentOutOfRange
  {
    if sensitivity < MinSensitivity || sensitivity > MaxSensitivity then Some(ArgumentOutOfRange)
    else if minRegionSize < 0 then Some(ArgumentOutOfRange)
    else None
  }

  /** `CreateBinaryMask`: a cell is set when its gradient exceeds
      `sensitivity * maxGradient`. */
  function CreateBinaryMask(gradients: seq<real>, maxGradient: real, sensitivity: real): (mask: seq<bool>)
    ensures |mask| == |gradients|
  {
    seq(|gradients|, i requires 0 <= i < |gradients| => gradients[i] > sensitivity * maxGradient)
  }

  /** A higher sensitivity keeps fewer cells: with a non-negative maximum,
      every cell set at `s2` is set at any `s1 <= s2`, and a cell is set at
      all exactly when its gradient is above the threshold. */
  lemma MaskMonotone(gradients: seq<real>, maxGradient: real, s1: real, s2: real)
    requires maxGradient >= 0.0 && s1 <= s2
    ensures forall i :: 0 <= i < |gradients| ==>
      (CreateBinaryMask(gradients, maxGradient, s2)[i] ==> CreateBinaryMask(gradients, maxGradient, s1)[i])
    ensures forall i :: 0 <= i < |gradients| ==>
      (CreateBinaryMask(gradients, maxGradient, s1)[i] <==> gradients[i] > s1 * maxGradient)
  {
    assert s1 * maxGradient <= s2 * maxGradient;
  }

  /** The number of set cells. */
  function CountTrue(s: seq<bool>): (n: nat)
    ensures n <= |s|
  {
    if |s| == 0 then 0 else (if s[0] then 1 else 0) + CountTrue(s[1..])
  }

  lemma {:induction false} CountTrueAppend(a: seq<bool>, b: seq<bool>)
    ensures CountTrue(a + b) == CountTrue(a) + CountTrue(b)
  {
    if |a| == 0 {
      assert a + b == b;
    } else {
      assert (a + b)[1..] == a[1..] + b;
      CountTrueAppend(a[1..], b);
    }
  }

  /** Cell `(x, y)` of a `w`-wide mask lies inside the mask and is set. */
  predicate SetCell(mask: seq<bool>, w: int, x: int, y: int) {
    0 <= x < w && 0 <= y && 0 <= y * w + x < |mask| && mask[y * w + x]
  }

  /** Raster order: by row, then by column. */
  predicate RasterLess(a: (int, int), b: (int, int)) {
    a.1 < b.1 || (a.1 == b.1 && a.0 < b.0)
  }

  predicate Increasing(s: seq<(int, int)>) {
    forall i, j :: 0 <= i < j < |s| ==> RasterLess(s[i], s[j])
  }

  /** The set cells of row `y` from column `x` on, in column order; a cell
      beyond the mask throws. */
  function RowCoords(mask: seq<bool>, w: int, y: int, x: int): (r: Result<seq<(int, int)>>)
    requires 0 <= w && 0 <= y && 0 <= x
    ensures r.Err? ==> r.error == IndexOutOfRange
    decreases w - x
  {
    if x >= w then Ok([])
    else if y * w + x >= |mask| then Err(IndexOutOfRange)
    else
      var rest :- RowCoords(mask, w, y, x + 1);
      Ok(if mask[y * w + x] then [(x, y)] + rest else rest)
  }

  lemma MulStep(y: int, w: int)
    ensures (y + 1) * w == y * w + w
  {
  }

  /** A row succeeds exactly when it lies inside the mask, and then lists its
      set cells, each once, in column order. */
  lemma {:induction false} RowCoordsExact(mask: seq<bool>, w: int, y: int, x: int)
    requires 0 <= x <= w && 0 <= y
    ensures RowCoords(mask, w, y, x).Ok? <==> x == w || y * w + w <= |mask|
    ensures RowCoords(mask, w, y, x).Ok? && x < w ==>
      var r := RowCoords(mask, w, y, x).value;
      Increasing(r)
      && (forall p :: p in r <==> x <= p.0 && p.1 == y && SetCell(mask, w, p.0, p.1))
      && |r| == CountTrue(mask[y * w + x..y * w + w])
    decreases w - x
  {
    if x < w {
      MulNonNeg(y, w);
      if y * w + x < |mask| {
        RowCoordsExact(mask, w, y, x + 1);
        if RowCoords(mask, w, y, x + 1).Ok? {
          var rest := RowCoords(mask, w, y, x + 1).value;
          var cells := mask[y * w + x..y * w + w];
          assert cells == [mask[y * w + x]] + mask[y * w + x + 1..y * w + w];
          if x + 1 == w {
            assert rest == [];
          }
        }
      }
    }
  }

  /** Rows `y` to `h - 1`, in row order. */
  function Rows(mask: seq<bool>, w: int, h: int, y: int): (r: Result<seq<(int, int)>>)
    requires 0 <= w && 0 <= y
    ensures r.Err? ==> r.error == IndexOutOfRange
    decreases h - y
  {
    if y >= h then Ok([])
    else
      var row :- RowCoords(mask, w, y, 0);
      var rest :- Rows(mask, w, h, y + 1);
      Ok(row + rest)
  }

  /** Rows `y..h-1` succeed exactly when they lie inside the mask. */
  lemma {:induction false} RowsOk(mask: seq<bool>, w: int, h: int, y: int)
    requires 0 <= w && 0 <= y <= h
    ensures Rows(mask, w, h, y).Ok? <==> y == h || h * w <= |mask|
    decreases h - y
  {
    if y < h {
      MulStep(y, w);
      MulMono(y + 1, h, w);
      RowCoordsExact(mask, w, y, 0);
      RowsOk(mask, w, h, y + 1);
    }
  }

  /** The rows list the set cells of rows `y..h-1`, each once, in raster
      order. */
  lemma {:induction false} RowsMembers(mask: seq<bool>, w: int, h: int, y: int)
    requires 0 <= w && 0 <= y <= h && Rows(mask, w, h, y).Ok?
    ensures var r := Rows(mask, w, h, y).value;
      Increasing(r)
      && forall p :: p in r <==> y <= p.1 < h && SetCell(mask, w, p.0, p.1)
    decreases h - y
  {
    if y < h {
      RowCoordsExact(mask, w, y, 0);
      RowsMembers(mask, w, h, y + 1);
      var row := RowCoords(mask, w, y, 0).value;
      var rest := Rows(mask, w, h, y + 1).value;
      if w == 0 {
        assert row == [];
      }
      RowsOrdered(row, rest, y);
    }
  }

  /** Their number is the number of set cells in those rows. */
  lemma {:induction false} RowsCount(mask: seq<bool>, w: int, h: int, y: int)
    requires 0 <= w && 0 <= y <= h && h * w <= |mask|
    ensures Rows(mask, w, h, y).Ok?
    ensures |Rows(mask, w, h, y).value| == CountTrue(mask[y * w..h * w])
    decreases h - y
  {
    RowsOk(mask, w, h, y);
    if y < h {
      MulStep(y, w);
      MulMono(y + 1, h, w);
      MulNonNeg(y, w);
      RowCoordsExact(mask, w, y, 0);
      RowsCount(mask, w, h, y + 1);
      assert mask[y * w..h * w] == mask[y * w..y * w + w] + mask[(y + 1) * w..h * w];
      CountTrueAppend(mask[y * w..y * w + w], mask[(y + 1) * w..h * w]);
      if w == 0 {
        assert RowCoords(mask, w, y, 0).value == [];
      }
    } else {
      assert mask[y * w..h * w] == [];
    }
  }

  lemma RowsOrdered(row: seq<(int, int)>, rest: seq<(int, int)>, y: int)
    requires Increasing(row) && Increasing(rest)
    requires forall p :: p in row ==> p.1 == y
    requires forall p :: p in rest ==> p.1 > y
    ensures Increasing(row + rest)
  {
    var s := row + rest;
    forall i, j | 0 <= i < j < |s|
      ensures RasterLess(s[i], s[j])
    {
      if j < |row| {
        assert s[i] == row[i] && s[j] == row[j];
      } else if i >= |row| {
        assert s[i] == rest[i - |row|] && s[j] == rest[j - |row|];
      } else {
        assert s[i] in row && s[j] in rest;
      }
    }
  }

  /** `GetBoundaryCoordinatesOptimized`: a negative width fails on the row
      buffer when there is a row to scan. Rows run in parallel and the order of
      rows in the output is not fixed; this model lists them top to bottom.
      An exception thrown by a row reaches the caller wrapped by
      `Parallel.For` in an `AggregateException`. */
  function Coordinates(mask: seq<bool>, w: int, h: int): (r: Result<seq<(int, int)>>)
    ensures h > 0 && w < 0 ==> r == Err(Aggregate(Overflow))
    ensures r.Err? ==> r.error.Aggregate?
    ensures h <= 0 ==> r == Ok([])
  {
    if h <= 0 then Ok([])
    else if w < 0 then Err(Aggregate(Overflow))
    else
      match Rows(mask, w, h, 0)
      case Err(e) => Err(Aggregate(e))
      case Ok(points) => Ok(points)
  }

  /** On a mask that covers `w * h` cells, the coordinates are exactly the set
      cells, each once, and their number is the number of set cells; the
      output therefore never outgrows the mask. A mask too short for the
      image fails. */
  lemma CoordinatesExact(mask: seq<bool>, w: int, h: int)
    requires 0 <= w && 0 <= h
    ensures Coordinates(mask, w, h).Ok? <==> h == 0 || h * w <= |mask|
    ensures h * w <= |mask| ==>
      var r := Coordinates(mask, w, h).value;
      Increasing(r)
      && (forall p :: p in r <==> p.1 < h && SetCell(mask, w, p.0, p.1))
      && |r| == CountTrue(mask[..h * w]) <= |mask|
  {
    if h > 0 {
      RowsOk(mask, w, h, 0);
      if h * w <= |mask| {
        RowsMembers(mask, w, h, 0);
        RowsCount(mask, w, h, 0);
        assert mask[0 * w..h * w] == mask[..h * w];
      }
    } else {
      assert mask[..h * w] == [];
    }
  }

  /** Distinct positions in raster order are distinct coordinates. */
  lemma IncreasingDistinct(s: seq<(int, int)>)
    requires Increasing(s)
    ensures forall i, j :: 0 <= i < j < |s| ==> s[i] != s[j]
  {
  }

  /** `ProcessImageAsync` after the gradient pass: check the arguments, then
      threshold, filter and extract, wrapping any failure in the
      image-processing error. */
  function ProcessImage(gradients: seq<real>, maxGradient: real, w: int, h: int,
                        sensitivity: real, minRegionSize: int,
                        filter: seq<bool> -> seq<bool>): (r: Result<seq<(int, int)>>)
    ensures CheckArguments(sensitivity, minRegionSize).Some? <==> r == Err(ArgumentOutOfRange)
    ensures r.Err? && r != Err(ArgumentOutOfRange) ==> r.error.ImageProcessing? && r.error.cause.Aggregate?
  {
    match CheckArguments(sensitivity, minRegionSize)
    case Some(e) => Err(e)
    case None =>
      match Coordinates(filter(CreateBinaryMask(gradients, maxGradient, sensitivity)), w, h)
      case Err(e) => Err(ImageProcessing(e))
      case Ok(points) => Ok(points)
  }

  /** With valid arguments, a gradient map of the image's size and a filter
      that keeps the mask's length, the boundary is exactly the set cells of
      the filtered mask. */
  lemma ProcessImageExact(gradients: seq<real>, maxGradient: real, w: int, h: int,
                          sensitivity: real, minRegionSize: int, filter: seq<bool> -> seq<bool>)
    requires 0 <= w && 0 <= h && |gradients| == h * w
    requires CheckArguments(sensitivity, minRegionSize).None?
    requires |filter(CreateBinaryMask(gradients, maxGradient, sensitivity))| == h * w
    ensures var r := ProcessImage(gradients, maxGradient, w, h, sensitivity, minRegionSize, filter);
      var mask := filter(CreateBinaryMask(gradients, maxGradient, sensitivity));
      r.Ok? && forall p :: p in r.value <==> p.1 < h && SetCell(mask, w, p.0, p.1)
  {
    CoordinatesExact(filter(CreateBinaryMask(gradients, maxGradient, sensitivity)), w, h);
  }
}

=== FILE: index_generator.dfy ===
/** `UniqueIndexGenerator`: a counter handed out under a lock. The lock only
    serialises the calls, so the model is the sequential counter; the C# `int`
    increment wraps. */
module IndexGenerator {
  import opened Common

  datatype Generator = Generator(current: int)

  /** A fresh generator starts at 1. */
  const Fresh: Generator := Generator(1)

  /** `GetNextIndexAsync`: return the counter, then increment it. */
  function Next(g: Generator): (r: (int, Generator))
    requires -Int32Max - 1 <= g.current <= Int32Max
    ensures r.0 == g.current
    ensures g.current < Int32Max ==> r.1.current == g.current + 1
    ensures g.current == Int32Max ==> r.1.current == -Int32Max - 1
  {
    (g.current, Generator(Wrap32(g.current + 1)))
  }

  /** `n` calls in a row: the values returned, in order, and the generator
      after them. */
  function Calls(g: Generator, n: nat): (r: (seq<int>, Generator))
    requires -Int32Max - 1 <= g.current <= Int32Max
    ensures |r.0| == n && -Int32Max - 1 <= r.1.current <= Int32Max
    decreases n
  {
    if n == 0 then ([], g)
    else
      var (v, g') := Next(g);
      var (vs, g'') := Calls(g', n - 1);
      ([v] + vs, g'')
  }

  /** Without wrapping, the `k`-th call from counter `c` returns `c + k` and
      leaves the counter at `c + n`. */
  lemma {:induction false} CallsCount(g: Generator, n: nat)
    requires -Int32Max - 1 <= g.current && g.current + n <= Int32Max
    ensures Calls(g, n).0 == seq(n, k => g.current + k)
    ensures Calls(g, n).1.current == g.current + n
    decreases n
  {
    if n > 0 {
      var (v, g') := Next(g);
      CallsCount(g', n - 1);
      assert Calls(g, n).0 == [v] + Calls(g', n - 1).0;
    }
  }

  /** From a fresh generator, the first `n` calls return `1, 2, ..., n` —
      so the first call returns 1 and the values are strictly increasing and
      pairwise distinct — and the counter is then `n + 1`. */
  lemma FreshCalls(n: nat)
    requires n < Int32Max
    ensures Calls(Fresh, n).0 == seq(n, k => k + 1)
    ensures n > 0 ==> Calls(Fresh, n).0[0] == 1
    ensures forall i, j :: 0 <= i < j < n ==> Calls(Fresh, n).0[i] < Calls(Fresh, n).0[j]
    ensures Calls(Fresh, n).1.current == n + 1
  {
    CallsCount(Fresh, n);
  }

  /** After `Int32Max` calls the counter has wrapped, and the next call
      repeats no earlier value only because it is negative. */
  lemma WrapAfterMax()
    ensures Next(Calls(Fresh, Int32Max - 1).1).0 == Int32Max
    ensures Next(Next(Calls(Fresh, Int32Max - 1).1).1).0 == -Int32Max - 1
  {
    CallsCount(Fresh, Int32Max - 1);
  }
}

=== FILE: kernels.dfy ===
/** The error-diffusion kernels: for each algorithm the neighbour offsets that
    receive a share of a pixel's quantisation error and the share each one
    gets, the name registry, and the two name dispatchers (the current
    six-way one and the older eight-way one). */
module Kernels {
  import opened Common

  datatype Algorithm =
    | Atkinson
    | FloydSteinberg
    | JarvisJudiceNinke
    | Stucki
    | Burkes
    | Sierra3
    | SierraLite
    | Sierra24a

  /** The `xOffsets`, `yOffsets` and multipliers of one ditherer class. */
  datatype Kernel = Kernel(xs: seq<int>, ys: seq<int>, ms: seq<real>)

  predicate WellFormed(k: Kernel) {
    |k.xs| == |k.ys| == |k.ms|
  }

  /** A tap lies after the current pixel in row-major scan order. */
  predicate Forward(dx: int, dy: int) {
    dy > 0 || (dy == 0 && dx > 0)
  }

  /** Where a tap lands in scan order, relative to the current pixel (offsets
      are at most two columns either side). */
  function ScanKey(dx: int, dy: int): int {
    dy * 5 + dx
  }

  /** Offsets that only reach forward (so a pixel is never changed again once
      it has been quantised), listed in increasing scan order. */
  predicate ForwardOffsets(xs: seq<int>, ys: seq<int>)
    requires |xs| == |ys|
  {
    (forall i :: 0 <= i < |xs| ==> Forward(xs[i], ys[i]))
    && (forall i :: 0 <= i < |xs| - 1 ==> ScanKey(xs[i], ys[i]) < ScanKey(xs[i + 1], ys[i + 1]))
  }

  /** Taps in increasing scan order are pairwise distinct: no neighbour
      receives two shares. */
  lemma {:induction false} ScanOrderStrict(xs: seq<int>, ys: seq<int>, i: int, j: int)
    requires |xs| == |ys| && ForwardOffsets(xs, ys) && 0 <= i < j < |xs|
    ensures ScanKey(xs[i], ys[i]) < ScanKey(xs[j], ys[j])
    ensures (xs[i], ys[i]) != (xs[j], ys[j])
    decreases j - i
  {
    if j > i + 1 {
      ScanOrderStrict(xs, ys, i + 1, j);
    }
  }

  function Sum(ms: seq<real>): real {
    if |ms| == 0 then 0.0 else ms[0] + Sum(ms[1..])
  }

  /** The shared offsets of the two-row, seven-tap kernels. */
  function SevenTapXs(): seq<int> { [1, 2, -2, -1, 0, 1, 2] }
  function SevenTapYs(): seq<int> { [0, 0, 1, 1, 1, 1, 1] }

  /** The shared offsets of the three-row, twelve-tap kernels. */
  function TwelveTapXs(): seq<int> { [1, 2, -2, -1, 0, 1, 2, -2, -1, 0, 1, 2] }
  function TwelveTapYs(): seq<int> { [0, 0, 1, 1, 1, 1, 1, 2, 2, 2, 2, 2] }

  function AtkinsonWeights(): seq<real> {
    [1.0 / 8.0, 1.0 / 8.0, 1.0 / 8.0, 1.0 / 8.0, 1.0 / 8.0, 1.0 / 8.0]
  }

  function FloydSteinbergWeights(): seq<real> {
    [7.0 / 16.0, 3.0 / 16.0, 5.0 / 16.0, 1.0 / 16.0]
  }

  function JarvisJudiceNinkeWeights(): seq<real> {
    [7.0 / 48.0, 5.0 / 48.0, 3.0 / 48.0, 5.0 / 48.0, 7.0 / 48.0, 5.0 / 48.0,
     3.0 / 48.0, 1.0 / 48.0, 3.0 / 48.0, 5.0 / 48.0, 3.0 / 48.0, 1.0 / 48.0]
  }

  function StuckiWeights(): seq<real> {
    [8.0 / 42.0, 4.0 / 42.0, 2.0 / 42.0, 4.0 / 42.0, 8.0 / 42.0, 4.0 / 42.0,
     2.0 / 42.0, 1.0 / 42.0, 2.0 / 42.0, 4.0 / 42.0, 2.0 / 42.0, 1.0 / 42.0]
  }

  function BurkesWeights(): seq<real> {
    [8.0 / 32.0, 4.0 / 32.0, 2.0 / 32.0, 4.0 / 32.0, 8.0 / 32.0, 4.0 / 32.0, 2.0 / 32.0]
  }

  /** Shared by Sierra3 and Sierra24a. */
  function SierraWeights(): seq<real> {
    [5.0 / 32.0, 3.0 / 32.0, 2.0 / 32.0, 3.0 / 32.0, 5.0 / 32.0, 3.0 / 32.0, 1.0 / 32.0]
  }

  function SierraLiteWeights(): seq<real> {
    [2.0 / 4.0, 1.0 / 4.0, 1.0 / 4.0]
  }

  /** The tables of each ditherer class. */
  function KernelOf(a: Algorithm): (k: Kernel)
    ensures WellFormed(k)
  {
    match a
    case Atkinson => Kernel([1, 2, -1, 0, 1, 0], [0, 0, 1, 1, 1, 2], AtkinsonWeights())
    case FloydSteinberg => Kernel([1, -1, 0, 1], [0, 1, 1, 1], FloydSteinbergWeights())
    case JarvisJudiceNinke => Kernel(TwelveTapXs(), TwelveTapYs(), JarvisJudiceNinkeWeights())
    case Stucki => Kernel(TwelveTapXs(), TwelveTapYs(), StuckiWeights())
    case Burkes => Kernel(SevenTapXs(), SevenTapYs(), BurkesWeights())
    case Sierra3 => Kernel(SevenTapXs(), SevenTapYs(), SierraWeights())
    case SierraLite => Kernel([1, 0, 1], [0, 1, 1], SierraLiteWeights())
    case Sierra24a => Kernel(SevenTapXs(), SevenTapYs(), SierraWeights())
  }

  lemma AtkinsonOffsets()
    ensures ForwardOffsets([1, 2, -1, 0, 1, 0], [0, 0, 1, 1, 1, 2])
  {}

  lemma FloydSteinbergOffsets()
    ensures ForwardOffsets([1, -1, 0, 1], [0, 1, 1, 1])
  {}

  lemma TwelveTapOffsets()
    ensures ForwardOffsets(TwelveTapXs(), TwelveTapYs())
  {
    var xs, ys := TwelveTapXs(), TwelveTapYs();
    forall i | 0 <= i < 12
      ensures Forward(xs[i], ys[i])
    {
    }
    forall i | 0 <= i < 11
      ensures ScanKey(xs[i], ys[i]) < ScanKey(xs[i + 1], ys[i + 1])
    {
    }
  }

  lemma SevenTapOffsets()
    ensures ForwardOffsets(SevenTapXs(), SevenTapYs())
  {}

  lemma SierraLiteOffsets()
    ensures ForwardOffsets([1, 0, 1], [0, 1, 1])
  {}

  lemma AtkinsonTotal()
    ensures Sum(KernelOf(Atkinson).ms) == 6.0 / 8.0
  {}

  lemma FloydSteinbergTotal()
    ensures Sum(KernelOf(FloydSteinberg).ms) == 1.0
  {}

  lemma JarvisJudiceNinkeTotal()
    ensures Sum(KernelOf(JarvisJudiceNinke).ms) == 1.0
  {}

  lemma StuckiTotal()
    ensures Sum(KernelOf(Stucki).ms) == 1.0
  {}

  lemma BurkesTotal()
    ensures Sum(KernelOf(Burkes).ms) == 1.0
  {}

  lemma SierraTotal()
    ensures Sum(KernelOf(Sierra3).ms) == 22.0 / 32.0
  {}

  lemma SierraLiteTotal()
    ensures Sum(KernelOf(SierraLite).ms) == 1.0
  {}

  /** Every kernel only reaches forward, its taps in scan order. */
  lemma KernelForward(a: Algorithm)
    ensures ForwardOffsets(KernelOf(a).xs, KernelOf(a).ys)
  {
    match a
    case Atkinson => AtkinsonOffsets();
    case FloydSteinberg => FloydSteinbergOffsets();
    case JarvisJudiceNinke => TwelveTapOffsets();
    case Stucki => TwelveTapOffsets();
    case Burkes => SevenTapOffsets();
    case Sierra3 => SevenTapOffsets();
    case SierraLite => SierraLiteOffsets();
    case Sierra24a => SevenTapOffsets();
  }

  /** What the diffusion engine relies on: every tap reaches forward and no
      two taps land on the same neighbour. */
  predicate DistinctForward(k: Kernel)
    requires WellFormed(k)
  {
    (forall i :: 0 <= i < |k.xs| ==> Forward(k.xs[i], k.ys[i]))
    && (forall i, j :: 0 <= i < j < |k.xs| ==> (k.xs[i], k.ys[i]) != (k.xs[j], k.ys[j]))
  }

  /** Every kernel's taps reach forward and are pairwise distinct. */
  lemma KernelTaps(a: Algorithm)
    ensures DistinctForward(KernelOf(a))
  {
    var k := KernelOf(a);
    KernelForward(a);
    forall i, j | 0 <= i < j < |k.xs|
      ensures (k.xs[i], k.ys[i]) != (k.xs[j], k.ys[j])
    {
      ScanOrderStrict(k.xs, k.ys, i, j);
    }
  }

  /** Five of the kernels hand on the whole quantisation error. */
  lemma FullShare(a: Algorithm)
    requires a != Atkinson && a != Sierra3 && a != Sierra24a
    ensures Sum(KernelOf(a).ms) == 1.0
  {
    match a
    case FloydSteinberg => FloydSteinbergTotal();
    case JarvisJudiceNinke => JarvisJudiceNinkeTotal();
    case Stucki => StuckiTotal();
    case Burkes => BurkesTotal();
    case SierraLite => SierraLiteTotal();
  }

  /** Atkinson hands on 6/8 of the error and the two seven-tap Sierra tables
      22/32: the rest of it is dropped. */
  lemma PartialShare()
    ensures Sum(KernelOf(Atkinson).ms) == 6.0 / 8.0
    ensures Sum(KernelOf(Sierra3).ms) == 22.0 / 32.0
    ensures Sum(KernelOf(Sierra24a).ms) == 22.0 / 32.0
  {
    AtkinsonTotal();
    SierraTotal();
    assert KernelOf(Sierra24a) == KernelOf(Sierra3);
  }

  /** The Sierra24a table of the older file is the Sierra3 table. */
  lemma Sierra24aIsSierra3()
    ensures KernelOf(Sierra24a) == KernelOf(Sierra3)
  {
  }

  function Name(a: Algorithm): string {
    match a
    case Atkinson => "Atkinson"
    case FloydSteinberg => "FloydSteinberg"
    case JarvisJudiceNinke => "JarvisJudiceNinke"
    case Stucki => "Stucki"
    case Burkes => "Burkes"
    case Sierra3 => "Sierra3"
    case SierraLite => "SierraLite"
    case Sierra24a => "Sierra24a"
  }

  /** The keys of the `DitheringAlgorithms` registry of the current file. */
  function RegisteredNames(): seq<string> {
    ["Atkinson", "FloydSteinberg", "JarvisJudiceNinke", "Burkes", "Sierra3", "SierraLite"]
  }

  /** The keys of the registry of the older file. */
  function LegacyRegisteredNames(): seq<string> {
    ["Atkinson", "FloydSteinberg", "JarvisJudiceNinke", "Stucki", "Burkes", "Sierra3", "SierraLite", "Sierra24a"]
  }

  /** The `switch` of `OptimalDitheringSelector.Do`: six names have a
      ditherer, every other string is not supported. */
  function Dispatch(name: string): (r: Result<Algorithm>)
    ensures r.Ok? <==> name in RegisteredNames()
    ensures r.Ok? ==> Name(r.value) == name
    ensures r.Err? ==> r.error == NotSupported
  {
    if name == "Atkinson" then Ok(Atkinson)
    else if name == "FloydSteinberg" then Ok(FloydSteinberg)
    else if name == "JarvisJudiceNinke" then Ok(JarvisJudiceNinke)
    else if name == "Burkes" then Ok(Burkes)
    else if name == "Sierra3" then Ok(Sierra3)
    else if name == "SierraLite" then Ok(SierraLite)
    else Err(NotSupported)
  }

  /** The eight-way `switch` of the older `AtkinsonDithering.Do`. */
  function LegacyDispatch(name: string): (r: Result<Algorithm>)
    ensures r.Ok? <==> name in LegacyRegisteredNames()
    ensures r.Ok? ==> Name(r.value) == name
    ensures r.Err? ==> r.error == NotSupported
  {
    if name == "Atkinson" then Ok(Atkinson)
    else if name == "FloydSteinberg" then Ok(FloydSteinberg)
    else if name == "JarvisJudiceNinke" then Ok(JarvisJudiceNinke)
    else if name == "Stucki" then Ok(Stucki)
    else if name == "Burkes" then Ok(Burkes)
    else if name == "Sierra3" then Ok(Sierra3)
    else if name == "SierraLite" then Ok(SierraLite)
    else if name == "Sierra24a" then Ok(Sierra24a)
    else Err(NotSupported)
  }

  /** Each algorithm's name dispatches back to it: in the older switch all
      eight do, in the current one all but Stucki and Sierra24a. */
  lemma DispatchNames(a: Algorithm)
    ensures LegacyDispatch(Name(a)) == Ok(a)
    ensures Dispatch(Name(a)).Ok? <==> a != Stucki && a != Sierra24a
    ensures Dispatch(Name(a)).Ok? ==> Dispatch(Name(a)) == Ok(a)
  {
  }
}

=== FILE: matrix_coder.dfy ===
/** `MatrixCoder`: a text obfuscation that pairs UTF-16 code units, multiplies
    each pair by the matrix [[3, 2], [1, 4]] and writes every product as two
    base-62 digits; decoding multiplies by [[4, -2], [-1, 3]] and divides by
    the determinant 10.

    Text, plain and encoded, is a sequence of UTF-16 code units (`U16`),
    because C# `char` is a code unit and may be half of a surrogate pair. The
    digit strings the encoder builds are written as Dafny strings and turned
    into units with `Units`. */
module MatrixCoder {
  import opened Common

  /** The digit alphabet
      "0123456789ABCDEFGHIJKLMNOPQRSTUVWXYZabcdefghijklmnopqrstuvwxyz". */
  function Base62Chars(): (s: string)
    ensures |s| == 62
    ensures forall v :: 0 <= v < 62 ==> s[v] == DigitChar(v)
  {
    seq(62, v requires 0 <= v < 62 => DigitChar(v))
  }

  /** The digit for `v`: '0'..'9', then 'A'..'Z', then 'a'..'z'. */
  function DigitChar(v: int): char
    requires 0 <= v < 62
  {
    if v < 10 then (48 + v) as char
    else if v < 36 then (65 + v - 10) as char
    else (97 + v - 36) as char
  }

  /** The value of a base-62 digit, or -1 for any other character. */
  function DigitValue(c: char): int {
    if '0' <= c <= '9' then c as int - 48
    else if 'A' <= c <= 'Z' then c as int - 65 + 10
    else if 'a' <= c <= 'z' then c as int - 97 + 36
    else -1
  }

  lemma DigitRoundTrip(v: int)
    requires 0 <= v < 62
    ensures DigitValue(DigitChar(v)) == v
  {
  }

  /** Every character lies in the Basic Multilingual Plane. */
  predicate Bmp(s: string) {
    forall i :: 0 <= i < |s| ==> s[i] as int < 0x1_0000
  }

  /** The code units of a string in the Basic Multilingual Plane: one unit
      per character. */
  function Units(s: string): (us: seq<U16>)
    requires Bmp(s)
    ensures |us| == |s|
    ensures forall i :: 0 <= i < |s| ==> us[i] == s[i] as int
  {
    seq(|s|, i requires 0 <= i < |s| => s[i] as int)
  }

  lemma UnitsAppend(a: string, b: string)
    requires Bmp(a) && Bmp(b)
    ensures Bmp(a + b) && Units(a + b) == Units(a) + Units(b)
  {
    assert forall i :: 0 <= i < |a + b| ==> Units(a + b)[i] == (Units(a) + Units(b))[i];
  }

  /** The digit value of a code unit: that of its character for the ASCII
      range, and -1 beyond it, where no digit lies. */
  function UnitDigitValue(u: U16): int {
    if u < 128 then DigitValue(u as char) else -1
  }

  lemma UnitRoundTrip(v: int)
    requires 0 <= v < 62
    ensures DigitChar(v) as int < 128 && UnitDigitValue(DigitChar(v) as int) == v
  {
  }

  /** `Base62Chars.IndexOf(c)` for a code unit `c` is its digit value: -1
      exactly for the units outside the alphabet. */
  lemma IndexOfDigit(u: U16)
    ensures IndexOf(Units(Base62Chars()), u) == UnitDigitValue(u)
  {
    var a := Units(Base62Chars());
    var v := UnitDigitValue(u);
    forall j | 0 <= j < 62
      ensures UnitDigitValue(a[j]) == j
    {
      UnitRoundTrip(j);
    }
    if v == -1 {
      assert u !in a;
    } else {
      assert a[v] == u;
      assert u !in a[..v];
    }
  }

  /** The digits the `do … while` loop of `ToBase62` inserts, most significant
      first; `Base62Chars[d]` is `DigitChar(d)`. */
  function Digits(n: nat): (s: string)
    ensures |s| >= 1 && DigitString(s)
    decreases n
  {
    if n < 62 then [DigitChar(n)] else Digits(n / 62) + [DigitChar(n % 62)]
  }

  /** Every character is a base-62 digit. */
  predicate DigitString(s: string) {
    forall i :: 0 <= i < |s| ==> 0 <= DigitValue(s[i])
  }

  /** Digit strings are ASCII, so they have one code unit per character. */
  lemma DigitStringAscii(s: string)
    requires DigitString(s)
    ensures Bmp(s) && forall i :: 0 <= i < |s| ==> s[i] as int < 128
  {
    forall i | 0 <= i < |s|
      ensures s[i] as int < 128
    {
      assert 0 <= DigitValue(s[i]);
    }
  }

  /** `FromBase62`: a left fold `current * 62 + Base62Chars.IndexOf(c)` over
      the code units, with the index written `UnitDigitValue(c)`
      (`IndexOfDigit`). */
  function FromBase62(us: seq<U16>): int {
    if |us| == 0 then 0 else FromBase62(us[..|us| - 1]) * 62 + UnitDigitValue(us[|us| - 1])
  }

  /** The loop inserts one digit for a number below 62 and two for one below
      62 * 62. */
  lemma DigitsLength(n: nat)
    ensures |Digits(n)| == 1 <==> n < 62
    ensures |Digits(n)| == 2 <==> 62 <= n < 3844
  {
    if n >= 62 {
      DigitsLength(n / 62);
    }
  }

  /** The digits of `n` read back as `n`. */
  lemma {:induction false} DigitsReadBack(n: nat)
    ensures Bmp(Digits(n))
    ensures FromBase62(Units(Digits(n))) == n
    decreases n
  {
    var s := Digits(n);
    DigitStringAscii(s);
    var us := Units(s);
    if n < 62 {
      UnitRoundTrip(n);
      assert us[..0] == [];
    } else {
      DigitsReadBack(n / 62);
      DigitStringAscii(Digits(n / 62));
      assert us[..|us| - 1] == Units(Digits(n / 62));
      UnitRoundTrip(n % 62);
    }
  }

  /** `ToBase62`: a number with one digit is padded with '0', one with two
      is kept, a negative number is an `ArgumentException` and a larger one
      an `InvalidOperationException`. */
  function ToBase62(n: int): (r: Result<string>)
    ensures n < 0 ==> r == Err(Argument)
    ensures n >= 3844 ==> r == Err(InvalidOperation)
    ensures r.Ok? <==> 0 <= n < 3844
    ensures r.Ok? ==> |r.value| == 2 && DigitString(r.value)
  {
    if n < 0 then Err(Argument)
    else
      var d := Digits(n);
      DigitsLength(n);
      if |d| == 1 then Ok("0" + d)
      else if |d| == 2 then Ok(d)
      else Err(InvalidOperation)
  }

  /** Two code units are read as the high digit times 62 plus the low
      digit. */
  lemma FromBase62Pair(us: seq<U16>)
    requires |us| == 2
    ensures FromBase62(us) == UnitDigitValue(us[0]) * 62 + UnitDigitValue(us[1])
  {
    var h := us[..1];
    assert h[..0] == [] && h[0] == us[0];
    assert FromBase62(h) == UnitDigitValue(us[0]);
    assert us[..|us| - 1] == h;
  }

  /** Every two-digit encoding is the quotient and remainder by 62, and reads
      back as the number. */
  lemma ToBase62Value(n: int)
    requires 0 <= n < 3844
    ensures ToBase62(n) == Ok([DigitChar(n / 62), DigitChar(n % 62)])
    ensures Bmp(ToBase62(n).value) && FromBase62(Units(ToBase62(n).value)) == n
  {
    DigitsLength(n);
    var want := [DigitChar(n / 62), DigitChar(n % 62)];
    if n >= 62 {
      assert Digits(n / 62) == [DigitChar(n / 62)];
      assert Digits(n) == want;
    } else {
      assert n / 62 == 0 && n % 62 == n;
      assert DigitChar(0) == '0';
      assert "0" + Digits(n) == want;
    }
    DigitStringAscii(want);
    FromBase62Pair(Units(want));
    UnitRoundTrip(n / 62);
    UnitRoundTrip(n % 62);
  }

  /** Whether both products of the pair `(x, y)` fit in two digits. */
  predicate PairFits(x: int, y: int) {
    0 <= 3 * x + 2 * y < 3844 && 0 <= x + 4 * y < 3844
  }

  /** The encoded digits of an even-length code sequence, pair by pair; the
      first product that does not fit aborts. */
  function EncodePairs(codes: seq<int>): (r: Result<string>)
    requires |codes| % 2 == 0
    ensures r.Ok? ==> |r.value| == 2 * |codes| && DigitString(r.value)
    ensures r.Err? ==> r.error == Argument || r.error == InvalidOperation
  {
    if |codes| == 0 then Ok("")
    else
      var x, y := codes[0], codes[1];
      var sa :- ToBase62(3 * x + 2 * y);
      var sb :- ToBase62(x + 4 * y);
      var rest :- EncodePairs(codes[2..]);
      Ok(sa + (sb + rest))
  }

  /** Whether every pair of an even-length code sequence fits. */
  predicate AllPairsFit(codes: seq<int>)
    requires |codes| % 2 == 0
  {
    |codes| == 0 || (PairFits(codes[0], codes[1]) && AllPairsFit(codes[2..]))
  }

  /** Encoding succeeds exactly when every pair fits. */
  lemma {:induction false} EncodePairsOk(codes: seq<int>)
    requires |codes| % 2 == 0
    ensures EncodePairs(codes).Ok? <==> AllPairsFit(codes)
  {
    if |codes| > 0 {
      EncodePairsOk(codes[2..]);
    }
  }

  /** Pairs of code units up to 768 always fit. */
  lemma {:induction false} SmallPairsFit(codes: seq<int>)
    requires |codes| % 2 == 0
    requires forall i :: 0 <= i < |codes| ==> 0 <= codes[i] <= 768
    ensures AllPairsFit(codes)
  {
    if |codes| > 0 {
      SmallPairsFit(codes[2..]);
    }
  }

  /** A non-negative code unit of 1282 or more never fits, in either slot. */
  lemma {:induction false} LargeUnitDoesNotFit(codes: seq<int>, i: int)
    requires |codes| % 2 == 0
    requires forall j :: 0 <= j < |codes| ==> codes[j] >= 0
    requires 0 <= i < |codes| && codes[i] >= 1282
    ensures !AllPairsFit(codes)
  {
    if i >= 2 {
      LargeUnitDoesNotFit(codes[2..], i - 2);
    }
  }

  /** The codes of `input`, padded with one 0 to an even count. */
  function Pad(input: seq<U16>): (codes: seq<int>)
    ensures |codes| % 2 == 0
    ensures |input| % 2 == 0 ==> codes == input
    ensures |input| % 2 != 0 ==> codes == input + [0]
  {
    if |input| % 2 != 0 then input + [0] else input
  }

  /** `Encode`: an empty input gives the empty string. */
  function Encode(input: seq<U16>): (r: Result<string>)
    ensures |input| == 0 ==> r == Ok("")
    ensures r.Ok? ==> |r.value| == 2 * |Pad(input)| && DigitString(r.value)
    ensures r.Err? ==> r.error == InvalidOperation
  {
    if |input| == 0 then Ok("")
    else
      var codes := Pad(input);
      assert forall i :: 0 <= i < |codes| ==> codes[i] >= 0;
      EncodeNonNegative(codes);
      EncodePairs(codes)
  }

  lemma {:induction false} EncodeNonNegative(codes: seq<int>)
    requires |codes| % 2 == 0
    requires forall i :: 0 <= i < |codes| ==> codes[i] >= 0
    ensures EncodePairs(codes).Err? ==> EncodePairs(codes).error == InvalidOperation
  {
    if |codes| > 0 {
      EncodeNonNegative(codes[2..]);
    }
  }

  /** Every text whose code units are at most 768 can be encoded; one with a
      code unit of at least 1282 cannot. */
  lemma EncodeRange(input: seq<U16>)
    ensures (forall i :: 0 <= i < |input| ==> input[i] <= 768) ==> Encode(input).Ok?
    ensures (exists i :: 0 <= i < |input| && input[i] >= 1282) ==> Encode(input) == Err(InvalidOperation)
  {
    if |input| > 0 {
      var codes := Pad(input);
      EncodePairsOk(codes);
      assert forall i :: 0 <= i < |input| ==> codes[i] == input[i];
      if forall i :: 0 <= i < |input| ==> input[i] <= 768 {
        SmallPairsFit(codes);
      }
      if exists i :: 0 <= i < |input| && input[i] >= 1282 {
        var i :| 0 <= i < |input| && input[i] >= 1282;
        LargeUnitDoesNotFit(codes, i);
      }
    }
  }

  /** C# integer division, which truncates toward zero. */
  function TruncDiv(a: int, d: int): int
    requires d > 0
  {
    if a >= 0 then a / d else -((-a) / d)
  }

  /** The digit pairs of an even number of code units, each read with
      `FromBase62`. */
  function Numbers(us: seq<U16>): (ns: seq<int>)
    requires |us| % 2 == 0
    ensures |ns| == |us| / 2
  {
    if |us| == 0 then [] else [FromBase62(us[..2])] + Numbers(us[2..])
  }

  /** The decoded pairs; an odd number of numbers fails on the missing partner
      of the last one (`List` indexer, `ArgumentOutOfRangeException`). */
  function DecodePairs(ns: seq<int>): (r: Result<seq<int>>)
    ensures |ns| % 2 != 0 <==> r.Err?
    ensures r.Err? ==> r.error == ArgumentOutOfRange
    ensures r.Ok? ==> |r.value| == |ns|
  {
    if |ns| == 0 then Ok([])
    else if |ns| == 1 then Err(ArgumentOutOfRange)
    else
      var a, b := ns[0], ns[1];
      var rest :- DecodePairs(ns[2..]);
      Ok([TruncDiv(4 * a - 2 * b, 10), TruncDiv(-a + 3 * b, 10)] + rest)
  }

  /** The longest prefix without a 0 (`TakeWhile(c => c != 0)`). */
  function TakeNonZero(s: seq<int>): (r: seq<int>)
    ensures r <= s
    ensures forall i :: 0 <= i < |r| ==> r[i] != 0
    ensures |r| < |s| ==> s[|r|] == 0
  {
    if |s| == 0 || s[0] == 0 then [] else [s[0]] + TakeNonZero(s[1..])
  }

  /** The cast `(char)c`: the low 16 bits of each value. */
  function ToUnits(s: seq<int>): (r: seq<U16>)
    ensures |r| == |s|
    ensures forall i :: 0 <= i < |s| ==> r[i] == ToU16(s[i])
  {
    if |s| == 0 then [] else [ToU16(s[0])] + ToUnits(s[1..])
  }

  /** `Decode`: an empty string gives the empty text, an odd length is an
      `ArgumentException`. */
  function Decode(encoded: seq<U16>): (r: Result<seq<U16>>)
    ensures |encoded| == 0 ==> r == Ok([])
    ensures |encoded| % 2 != 0 ==> r == Err(Argument)
    ensures |encoded| % 4 == 2 ==> r == Err(ArgumentOutOfRange)
    ensures |encoded| % 4 == 0 ==> r.Ok? && |r.value| <= |encoded| / 2
  {
    if |encoded| == 0 then Ok([])
    else if |encoded| % 2 != 0 then Err(Argument)
    else
      var codes :- DecodePairs(Numbers(encoded));
      Ok(ToUnits(TakeNonZero(codes)))
  }

  /** The products of each pair with the encoding matrix. */
  function Mix(codes: seq<int>): (ns: seq<int>)
    requires |codes| % 2 == 0
    ensures |ns| == |codes|
  {
    if |codes| == 0 then [] else [3 * codes[0] + 2 * codes[1]] + ([codes[0] + 4 * codes[1]] + Mix(codes[2..]))
  }

  /** Reading back the digits of an encoding gives the products. */
  lemma {:induction false} NumbersOfEncoding(codes: seq<int>)
    requires |codes| % 2 == 0 && EncodePairs(codes).Ok?
    ensures Bmp(EncodePairs(codes).value)
    ensures Numbers(Units(EncodePairs(codes).value)) == Mix(codes)
  {
    if |codes| > 0 {
      EncodePairsCons(codes);
      var x, y := codes[0], codes[1];
      var sa, sb := ToBase62(3 * x + 2 * y).value, ToBase62(x + 4 * y).value;
      var rest := EncodePairs(codes[2..]).value;
      ToBase62Value(3 * x + 2 * y);
      ToBase62Value(x + 4 * y);
      NumbersOfEncoding(codes[2..]);
      DigitStringAscii(sa);
      DigitStringAscii(sb);
      DigitStringAscii(rest);
      UnitsAppend(sb, rest);
      UnitsAppend(sa, sb + rest);
      NumbersCons(Units(sb), Units(rest));
      NumbersCons(Units(sa), Units(sb + rest));
    }
  }

  /** A successful encoding is the digits of the first pair's products
      followed by the encoding of the rest. */
  lemma EncodePairsCons(codes: seq<int>)
    requires |codes| % 2 == 0 && |codes| > 0 && EncodePairs(codes).Ok?
    ensures |codes| >= 2 && |codes[2..]| % 2 == 0
    ensures ToBase62(3 * codes[0] + 2 * codes[1]).Ok? && ToBase62(codes[0] + 4 * codes[1]).Ok?
    ensures EncodePairs(codes[2..]).Ok?
    ensures EncodePairs(codes).value
            == ToBase62(3 * codes[0] + 2 * codes[1]).value
               + (ToBase62(codes[0] + 4 * codes[1]).value + EncodePairs(codes[2..]).value)
  {
    EvenTail(|codes|);
  }

  lemma EvenTail(n: nat)
    requires n % 2 == 0 && n > 0
    ensures n >= 2 && (n - 2) % 2 == 0
  {
  }

  lemma NumbersCons(a: seq<U16>, t: seq<U16>)
    requires |a| == 2 && |t| % 2 == 0
    ensures Numbers(a + t) == [FromBase62(a)] + Numbers(t)
  {
    assert (a + t)[..2] == a && (a + t)[2..] == t;
  }

  /** The decoding matrix undoes the encoding matrix: 4(3x+2y) - 2(x+4y) = 10x
      and -(3x+2y) + 3(x+4y) = 10y. */
  lemma {:induction false} DecodeMix(codes: seq<int>)
    requires |codes| % 2 == 0
    requires forall i :: 0 <= i < |codes| ==> codes[i] >= 0
    ensures DecodePairs(Mix(codes)) == Ok(codes)
  {
    if |codes| > 0 {
      var x, y := codes[0], codes[1];
      DivMod(10 * x, 10, x, 0);
      DivMod(10 * y, 10, y, 0);
      DecodeMix(codes[2..]);
      assert Mix(codes)[2..] == Mix(codes[2..]);
      assert [x, y] + codes[2..] == codes;
    }
  }

  /** A text without U+0000 that encodes decodes back to itself; the padding 0
      is dropped by `TakeWhile`. */
  lemma RoundTrip(input: seq<U16>)
    requires forall i :: 0 <= i < |input| ==> input[i] != 0
    requires Encode(input).Ok?
    ensures Bmp(Encode(input).value)
    ensures Decode(Units(Encode(input).value)) == Ok(input)
  {
    DigitStringAscii(Encode(input).value);
    if |input| > 0 {
      var codes := Pad(input);
      assert Encode(input) == EncodePairs(codes);
      NumbersOfEncoding(codes);
      var us := Units(EncodePairs(codes).value);
      assert Numbers(us) == Mix(codes);
      DecodeMix(codes);
      assert Decode(us) == Ok(ToUnits(TakeNonZero(codes)));
      assert TakeNonZero(codes) == input by {
        TakeNonZeroPrefix(input, codes);
      }
      assert ToUnits(input) == input;
    }
  }

  lemma {:induction false} TakeNonZeroPrefix(input: seq<int>, codes: seq<int>)
    requires forall i :: 0 <= i < |input| ==> input[i] != 0
    requires codes == input || codes == input + [0]
    ensures TakeNonZero(codes) == input
  {
    if |input| > 0 {
      TakeNonZeroPrefix(input[1..], codes[1..]);
    } else if codes != [] {
      assert codes[0] == 0;
    }
  }

  /** The padding is why a trailing U+0000 is lost: "\0" alone decodes to "". */
  lemma TrailingNulLost()
    ensures Encode([0]) == Ok("0000")
    ensures Decode([48, 48, 48, 48]) == Ok([])
  {
    ToBase62Value(0);
    assert DigitChar(0) == '0';
    assert ToBase62(0) == Ok("00");
    assert Pad([0]) == [0, 0];
    assert [0, 0][2..] == [];
    assert EncodePairs([0, 0]) == Ok("00" + ("00" + ""));
    assert "00" + ("00" + "") == "0000";
    var z: seq<U16> := [48, 48];
    FromBase62Pair(z);
    NumbersCons(z, z);
    NumbersCons(z, []);
    assert [48, 48, 48, 48] == z + z;
  }

  /** A surrogate pair is not a digit: each half reads as -1, so the pair
      reads as -63, and two such pairs decode through the truncating division
      and the `(char)` cast to two U+FFF4 units. */
  lemma SurrogatesDecode()
    ensures Decode([0xD83D, 0xDE00, 0xD83D, 0xDE00]) == Ok([0xFFF4, 0xFFF4])
  {
    var p: seq<U16> := [0xD83D, 0xDE00];
    FromBase62Pair(p);
    NumbersCons(p, p);
    NumbersCons(p, []);
    assert [0xD83D, 0xDE00, 0xD83D, 0xDE00] == p + p;
    assert Numbers(p + p) == [-63, -63];
    var ns := [-63, -63];
    assert 4 * ns[0] - 2 * ns[1] == -126 && -ns[0] + 3 * ns[1] == -126;
    assert TruncDiv(-126, 10) == -12;
    assert DecodePairs(ns[2..]) == Ok([]);
    assert DecodePairs(ns) == Ok([TruncDiv(-126, 10), TruncDiv(-126, 10)] + []);
    assert [-12, -12] + [] == [-12, -12];
    assert TakeNonZero([-12, -12]) == [-12, -12];
    assert ToUnits([-12, -12]) == [0xFFF4, 0xFFF4];
  }
}

=== FILE: optimal_dithering.dfy ===
/** `OptimalDitheringSelector.Do` and its helpers: pick a ditherer from the
    image statistics, copy the picture into a byte cube, dither it onto the
    palette, and hand the tile record of every pixel to the binary writer.
    The older `AtkinsonDithering.Do` is the same pipeline with the eight-way
    switch. */
module OptimalDithering {
  import opened Common
  import opened Kernels
  import opened ByteImage
  import opened Diffusion
  import Selector
  import opened ColorApproximater
  import BinaryWorker

  /** An `Image<Rgb24>`: `height` rows of `width` pixels. */
  datatype Bitmap = Bitmap(width: int, height: int, rows: seq<seq<Rgb>>)

  /** A picture is always a full rectangle. */
  predicate Shaped(b: Bitmap) {
    0 <= b.width && 0 <= b.height && |b.rows| == b.height
    && forall y :: 0 <= y < b.height ==> |b.rows[y]| == b.width
  }

  /** The three channel bytes of a colour, red first. */
  function Bytes(c: Rgb): (v: seq<Byte>)
    ensures |v| == 3 && Rgb(v[0], v[1], v[2]) == c
  {
    [c.r, c.g, c.b]
  }

  /** `ReadBitmapToColorBytes`: the `byte[width, height, 3]` cube, indexed by
      column first. An array beyond the runtime's element limit cannot be
      allocated. */
  function ReadBitmap(b: Bitmap): (r: Result<seq<seq<seq<Byte>>>>)
    requires Shaped(b)
    ensures r.Err? <==> b.width * b.height * 3 > Int32Max
    ensures r.Err? ==> r.error == OutOfMemory
    ensures r.Ok? ==> IsArray3(r.value, b.width, b.height, 3)
    ensures r.Ok? ==> forall x, y :: 0 <= x < b.width && 0 <= y < b.height ==>
                        Rgb(r.value[x][y][0], r.value[x][y][1], r.value[x][y][2]) == b.rows[y][x]
  {
    if b.width * b.height * 3 > Int32Max then Err(OutOfMemory)
    else
      Ok(seq(b.width, x requires 0 <= x < b.width =>
           seq(b.height, y requires 0 <= y < b.height => Bytes(b.rows[y][x]))))
  }

  /** The byte cube wrapped as a `TempByteImageFormat` shows every pixel of
      the picture at the same coordinates. */
  lemma ReadBitmapPixels(b: Bitmap)
    requires Shaped(b) && ReadBitmap(b).Ok?
    ensures var img := FromCube(Some(ReadBitmap(b).value), b.width, b.height, 3);
      img.Ok? && Valid(img.value) && (img.value.width, img.value.height, img.value.channels) == (b.width, b.height, 3)
      && forall x, y :: 0 <= x < b.width && 0 <= y < b.height ==>
           Get(img.value, x, y) == Ok(Bytes(b.rows[y][x]))
  {
    var cells := ReadBitmap(b).value;
    forall x, y | 0 <= x < b.width && 0 <= y < b.height
      ensures cells[x][y] == Bytes(b.rows[y][x])
    {
      assert |cells[x][y]| == 3;
    }
  }

  // ------------------------------------------------------------ colour functions

  /** The selector's fixed choice of colour function: 1 is the palette. */
  const ColorFunctionMode: int := 1

  /** `TrueColorBytesToWebSafeColorBytes` on one channel: `v / 51.0` rounded
      to the nearest integer, times 51. The quotient is never a half, so the
      rounding rule for halves does not matter. */
  function WebSafeLevel(v: Byte): (r: Byte)
    ensures r % 51 == 0 && -25 <= v - r <= 25
  {
    51 * ((v + 25) / 51)
  }

  /** The distance between two channel values. */
  function Dist(u: int, v: int): nat {
    if u >= v then u - v else v - u
  }

  /** The web-safe level is the multiple of 51 nearest to the channel. */
  lemma WebSafeNearest(v: Byte, k: int)
    requires 0 <= k <= 5
    ensures WebSafeLevel(v) == 51 * k || Dist(v, WebSafeLevel(v)) < Dist(v, 51 * k)
  {
    var q := (v + 25) / 51;
    assert WebSafeLevel(v) == 51 * q && 51 * q <= v + 25 < 51 * q + 51;
    if k < q {
      assert 51 * k <= 51 * q - 51;
    } else if k > q {
      assert 51 * k >= 51 * q + 51;
    }
  }

  function WebSafe(p: seq<Byte>): (r: seq<Byte>)
    ensures |r| == |p| && forall i :: 0 <= i < |p| ==> r[i] == WebSafeLevel(p[i])
  {
    seq(|p|, i requires 0 <= i < |p| => WebSafeLevel(p[i]))
  }

  /** `TrueColorBytesToPalette`: the approximater's answer for the first three
      channels. The answer is `Convert`'s, which equals `Resolve`'s on a
      coherent memo, so the memo does not show here. */
  function ToPalette(p: seq<Byte>, a: Approximater): (r: Result<seq<Byte>>)
    ensures |p| < 3 ==> r == Err(IndexOutOfRange)
    ensures |p| >= 3 ==> (r.Ok? <==> Resolve(a, Rgb(p[0], p[1], p[2])).Ok?)
    ensures r.Ok? ==> |r.value| == 3
                      && Rgb(r.value[0], r.value[1], r.value[2]) == Resolve(a, Rgb(p[0], p[1], p[2])).value
  {
    if |p| < 3 then Err(IndexOutOfRange)
    else
      var c :- Resolve(a, Rgb(p[0], p[1], p[2]));
      Ok(Bytes(c))
  }

  /** `ColorFunction`, with the mode the selector fixes. */
  function Quantise(p: seq<Byte>, a: Approximater): (r: Result<seq<Byte>>)
    ensures r == ToPalette(p, a)
  {
    if ColorFunctionMode == 0 then Ok(WebSafe(p)) else ToPalette(p, a)
  }

  /** An approximater ready for the pipeline: it resolves every colour to a
      palette colour, and the palette's colour and record lists line up. */
  ghost predicate Ready(a: Approximater) {
    Aligned(a.pixels)
    && forall c: Rgb :: Resolve(a, c).Ok? && Resolve(a, c).value in PaletteColors(a)
  }

  /** One built from a well-formed hue table and a non-empty palette whose two
      lists line up is ready. */
  lemma NewReady(pixels: Palette.Pixels, sampled: seq<seq<Rgb>>, maxLength: int)
    requires New(pixels, sampled, maxLength).Ok?
    requires ColorApproximater.WellFormed(SetHueEqRgb(sampled).value)
    requires |Palette.GetColors(pixels).0| > 0 && Aligned(pixels)
    ensures Ready(New(pixels, sampled, maxLength).value)
  {
    forall c: Rgb
      ensures var a := New(pixels, sampled, maxLength).value;
        Resolve(a, c).Ok? && Resolve(a, c).value in PaletteColors(a)
    {
      ResolveTotal(pixels, sampled, maxLength, c);
    }
  }

  /** A ready approximater answers every three-channel pixel with three
      channels, and every answer is a palette colour. */
  lemma QuantiseReady(a: Approximater)
    requires Ready(a)
    ensures Total(Quantise, a, 3)
    ensures forall v :: Produced(Quantise, a, v) ==>
      |v| == 3 && Rgb(v[0], v[1], v[2]) in PaletteColors(a)
  {
    forall p: seq<Byte> | |p| == 3
      ensures Quantise(p, a).Ok? && |Quantise(p, a).value| == 3
    {
      assert Resolve(a, Rgb(p[0], p[1], p[2])).Ok?;
    }
    forall v | Produced(Quantise, a, v)
      ensures |v| == 3 && Rgb(v[0], v[1], v[2]) in PaletteColors(a)
    {
      var p :| Quantise(p, a) == Ok(v);
      assert Resolve(a, Rgb(p[0], p[1], p[2])).Ok?;
    }
  }

  // ---------------------------------------------------------------- the output

  /** The order `WriteToBitmap` visits pixels: column by column, each column
      top to bottom, so the `k`-th pixel is `(k / h, k % h)`. */
  function ScanOrder(w: int, h: int): (s: seq<(int, int)>)
    requires 0 <= w && 0 <= h
  {
    if h == 0 then []
    else
      MulNonNeg(w, h);
      seq(w * h, k requires 0 <= k < w * h => (k / h, k % h))
  }

  /** Every pixel of the picture is visited, and nothing else; there are
      `w * h` visits, so each pixel is visited exactly once. */
  lemma ScanOrderMembers(w: int, h: int)
    requires 0 <= w && 0 <= h
    ensures |ScanOrder(w, h)| == w * h
    ensures forall p :: p in ScanOrder(w, h) <==> 0 <= p.0 < w && 0 <= p.1 < h
  {
    var s := ScanOrder(w, h);
    forall p | p in s
      ensures 0 <= p.0 < w && 0 <= p.1 < h
    {
      var k :| 0 <= k < |s| && s[k] == p;
      DivBound(k, w, h);
    }
    forall p: (int, int) | 0 <= p.0 < w && 0 <= p.1 < h
      ensures p in s
    {
      var k := p.0 * h + p.1;
      ScanIndex(p.0, p.1, w, h);
      assert s[k] == p;
    }
  }

  /** Pixel `(x, y)` is visit number `x * h + y`. */
  lemma ScanIndex(x: int, y: int, w: int, h: int)
    requires 0 <= x < w && 0 <= y < h
    ensures 0 <= x * h + y < w * h
    ensures (x * h + y) / h == x && (x * h + y) % h == y
  {
    MulNonNeg(x, h);
    MulMono(x + 1, w, h);
    DivMod(x * h + y, h, x, y);
  }

  /** A visit number within `w * h` names a pixel of the picture. */
  lemma DivBound(k: int, w: int, h: int)
    requires 0 <= k < w * h && 0 <= w && 0 < h
    ensures 0 <= k / h < w && 0 <= k % h < h
  {
    if k / h >= w {
      MulMono(w, k / h, h);
    }
  }

  /** The tile record of one dithered pixel, `GetColor` of its bytes. */
  function PixelRecord(img: Image, a: Approximater, p: (int, int)): (r: Result<Record>)
    ensures Get(img, p.0, p.1).Ok? && |Get(img, p.0, p.1).value| >= 3 ==>
      var v := Get(img, p.0, p.1).value;
      r == GetColor(a, Rgb(v[0], v[1], v[2]))
  {
    var read :- Get(img, p.0, p.1);
    if |read| < 3 then Err(IndexOutOfRange) else GetColor(a, Rgb(read[0], read[1], read[2]))
  }

  /** The records of the pixels `ps`, in order; the first pixel without one
      stops the loop. */
  function PixelRecords(img: Image, a: Approximater, ps: seq<(int, int)>): (r: Result<seq<Record>>)
    ensures r.Ok? <==> forall k :: 0 <= k < |ps| ==> PixelRecord(img, a, ps[k]).Ok?
    ensures r.Ok? ==> |r.value| == |ps|
                      && forall k :: 0 <= k < |ps| ==> PixelRecord(img, a, ps[k]) == Ok(r.value[k])
  {
    var f := p => PixelRecord(img, a, p);
    MapResultPointwise(ps, f);
    assert forall k :: 0 <= k < |ps| ==> f(ps[k]) == PixelRecord(img, a, ps[k]);
    MapResult(ps, f)
  }

  /** `WriteToBitmap`: append the record of every pixel to the worker's list,
      in scan order, then write the file with the dimensions cast to
      `ushort`. Without a worker the first `Add` — or, on an empty picture,
      the `Write` — dereferences null. */
  function WriteToBitmap(img: Image, a: Approximater, worker: Option<BinaryWorker.Worker>, w: int, h: int)
    : (r: Result<(BinaryWorker.Worker, seq<Byte>)>)
    requires 0 <= w && 0 <= h
    ensures worker.None? ==> r.Err?
    ensures r.Ok? ==> |r.value.0.fileValues| == |worker.value.fileValues| + |ScanOrder(w, h)|
    ensures r.Ok? ==>
      var (wk, file) := r.value;
      var n := |worker.value.fileValues|;
      wk.fileValues[..n] == worker.value.fileValues
      && (forall k :: 0 <= k < |ScanOrder(w, h)| ==> PixelRecord(img, a, ScanOrder(w, h)[k]) == Ok(wk.fileValues[n + k]))
      && (forall k :: n <= k < |wk.fileValues| ==> wk.fileValues[k] in Palette.GetPixels(a.pixels).0)
      && file == BinaryWorker.Write(wk, ToU16(w), ToU16(h), 0, None)
  {
    match worker
    case None =>
      if w > 0 && h > 0 then
        match Get(img, 0, 0)
        case Err(e) => Err(e)
        case Ok(_) => Err(NullReference)
      else Err(NullReference)
    case Some(wk) =>
      var records :- PixelRecords(img, a, ScanOrder(w, h));
      Appended(img, a, ScanOrder(w, h), wk.fileValues, records);
      var wk' := wk.(fileValues := wk.fileValues + records);
      Ok((wk', BinaryWorker.Write(wk', ToU16(w), ToU16(h), 0, None)))
  }

  /** The worker's list after the records of the pixels `ps` are appended:
      the old entries first, then one palette record per pixel, in order. */
  lemma Appended(img: Image, a: Approximater, ps: seq<(int, int)>, prev: seq<Record>, records: seq<Record>)
    requires PixelRecords(img, a, ps) == Ok(records)
    ensures var ws := prev + records;
      |ws| == |prev| + |ps| && ws[..|prev|] == prev
      && (forall k :: 0 <= k < |ps| ==> PixelRecord(img, a, ps[k]) == Ok(ws[|prev| + k]))
      && (forall k :: |prev| <= k < |ws| ==> ws[k] in Palette.GetPixels(a.pixels).0)
  {
    var ws := prev + records;
    assert ws[..|prev|] == prev;
    forall k | |prev| <= k < |ws|
      ensures ws[k] in Palette.GetPixels(a.pixels).0
    {
      assert PixelRecord(img, a, ps[k - |prev|]) == Ok(ws[k]);
    }
  }

  /** With a worker, writing succeeds exactly when every pixel's colour has a
      record. */
  lemma WriteToBitmapOk(img: Image, a: Approximater, wk: BinaryWorker.Worker, w: int, h: int)
    requires 0 <= w && 0 <= h
    ensures WriteToBitmap(img, a, Some(wk), w, h).Ok? <==>
      forall x, y :: 0 <= x < w && 0 <= y < h ==> PixelRecord(img, a, (x, y)).Ok?
  {
    ScanOrderMembers(w, h);
    RecordsOfAll(img, a, ScanOrder(w, h), w, h);
  }

  /** Records for a list of pixels that covers the picture exist exactly when
      every pixel has one. */
  lemma RecordsOfAll(img: Image, a: Approximater, ps: seq<(int, int)>, w: int, h: int)
    requires forall p :: p in ps <==> 0 <= p.0 < w && 0 <= p.1 < h
    ensures PixelRecords(img, a, ps).Ok? <==>
      forall x, y :: 0 <= x < w && 0 <= y < h ==> PixelRecord(img, a, (x, y)).Ok?
  {
    if PixelRecords(img, a, ps).Ok? {
      forall x, y | 0 <= x < w && 0 <= y < h
        ensures PixelRecord(img, a, (x, y)).Ok?
      {
        assert (x, y) in ps;
      }
    }
  }

  // ---------------------------------------------------------------- the pipeline

  /** The ditherer for a name: the six-way switch of `OptimalDitheringSelector`
      or the eight-way one of the older `AtkinsonDithering`. */
  function Ditherer(name: string, legacy: bool): (r: Result<Algorithm>)
    ensures r.Err? ==> r.error == NotSupported
    ensures legacy ==> r == LegacyDispatch(name)
    ensures !legacy ==> r == Dispatch(name)
  {
    if legacy then LegacyDispatch(name) else Dispatch(name)
  }

  /** `Do(image, approximater, worker)`. The image statistics are the
      analyser's output, an input here. A null image or approximater throws
      unwrapped; every failure after that is wrapped once more by `Do`, so a
      failure inside `DoDithering` arrives wrapped twice. On success the
      picture is returned as given, the worker has gained one record per
      pixel, and the file holds the header and every record. */
  method Do(image: Option<Bitmap>, approximater: Option<Approximater>, worker: Option<BinaryWorker.Worker>,
            analysis: Selector.Analysis, legacy: bool)
    returns (r: Result<(Bitmap, BinaryWorker.Worker, seq<Byte>)>)
    requires image.Some? ==> Shaped(image.value)
    ensures image.None? || approximater.None? <==> r == Err(ArgumentNull)
    ensures r.Err? && r != Err(ArgumentNull) ==> r.error.Dithering?
    ensures image.Some? && approximater.Some? && Ditherer(Selector.Select(analysis), legacy).Err? ==>
      r == Err(Dithering(NotSupported))
    ensures worker.None? ==> r.Err?
    ensures r.Ok? ==>
      var (bmp, wk, file) := r.value;
      var w, h := image.value.width, image.value.height;
      bmp == image.value
      && |wk.fileValues| == |worker.value.fileValues| + w * h
      && wk.fileValues[..|worker.value.fileValues|] == worker.value.fileValues
      && (forall k :: |worker.value.fileValues| <= k < |wk.fileValues| ==> wk.fileValues[k] in Palette.GetPixels(approximater.value.pixels).0)
      && file == BinaryWorker.Write(wk, ToU16(w), ToU16(h), 0, None)
    ensures (image.Some? && approximater.Some? && worker.Some? && Ready(approximater.value)
             && Ditherer(Selector.Select(analysis), legacy).Ok?
             && image.value.width * image.value.height * 3 <= Int32Max) ==> r.Ok?
  {
    if image.None? || approximater.None? {
      return Err(ArgumentNull);
    }
    var bmp, a := image.value, approximater.value;
    var w, h := bmp.width, bmp.height;
    var alg := Ditherer(Selector.Select(analysis), legacy);
    if alg.Err? {
      return Err(Dithering(alg.error));
    }
    var out := Pipeline(bmp, a, worker, alg.value);
    if out.Err? {
      return Err(Dithering(out.error));
    }
    var (wk, file) := out.value;
    return Ok((bmp, wk, file));
  }

  /** The part of `Do` after the ditherer is chosen: dither the picture,
      then write the records of its pixels. */
  method Pipeline(bmp: Bitmap, a: Approximater, worker: Option<BinaryWorker.Worker>, alg: Algorithm)
    returns (r: Result<(BinaryWorker.Worker, seq<Byte>)>)
    requires Shaped(bmp)
    ensures bmp.width * bmp.height * 3 > Int32Max ==> r == Err(OutOfMemory)
    ensures worker.None? ==> r.Err?
    ensures r.Ok? ==>
      var (wk, file) := r.value;
      |wk.fileValues| == |worker.value.fileValues| + bmp.width * bmp.height
      && wk.fileValues[..|worker.value.fileValues|] == worker.value.fileValues
      && (forall k :: |worker.value.fileValues| <= k < |wk.fileValues| ==> wk.fileValues[k] in Palette.GetPixels(a.pixels).0)
      && file == BinaryWorker.Write(wk, ToU16(bmp.width), ToU16(bmp.height), 0, None)
    ensures (worker.Some? && Ready(a) && bmp.width * bmp.height * 3 <= Int32Max) ==> r.Ok?
  {
    var w, h := bmp.width, bmp.height;
    var dithered := DitherPicture(bmp, a, alg);
    if dithered.Err? {
      return Err(dithered.error);
    }
    var img := dithered.value;
    if Ready(a) && worker.Some? {
      WriteToBitmapOk(img, a, worker.value, w, h);
    }
    r := WriteToBitmap(img, a, worker, w, h);
    ScanOrderMembers(w, h);
  }

  /** The picture copied into a byte cube and dithered onto the palette. A
      picture too large for the cube fails; so does every failure inside
      `DoDithering`, which arrives wrapped. With a ready approximater the
      dithering succeeds, and every pixel of the result has a tile record. */
  method DitherPicture(bmp: Bitmap, a: Approximater, alg: Algorithm) returns (r: Result<Image>)
    requires Shaped(bmp)
    ensures r.Err? ==> r.error == OutOfMemory || r.error.Dithering?
    ensures bmp.width * bmp.height * 3 > Int32Max ==> r == Err(OutOfMemory)
    ensures r.Ok? ==> (r.value.width, r.value.height, r.value.channels) == (bmp.width, bmp.height, 3)
    ensures Ready(a) && bmp.width * bmp.height * 3 <= Int32Max ==>
      r.Ok? && forall x, y :: 0 <= x < bmp.width && 0 <= y < bmp.height ==> PixelRecord(r.value, a, (x, y)).Ok?
  {
    var cells := ReadBitmap(bmp);
    if cells.Err? {
      return Err(cells.error);
    }
    ReadBitmapPixels(bmp);
    var temp := FromCube(Some(cells.value), bmp.width, bmp.height, 3).value;
    if Ready(a) {
      QuantiseReady(a);
    }
    r := DoDithering(Some(temp), Some(a), Quantise, alg);
    if r.Ok? && Ready(a) {
      ReadyRecords(r.value, a);
    }
  }

  /** After dithering with a ready approximater, every pixel has a record. */
  lemma ReadyRecords(img: Image, a: Approximater)
    requires Ready(a) && 0 <= img.width && 0 <= img.height
    requires forall x, y :: InBounds(img, x, y) ==> Get(img, x, y).Ok? && Produced(Quantise, a, Get(img, x, y).value)
    ensures forall x, y :: 0 <= x < img.width && 0 <= y < img.height ==> PixelRecord(img, a, (x, y)).Ok?
  {
    QuantiseReady(a);
    forall x, y | 0 <= x < img.width && 0 <= y < img.height
      ensures PixelRecord(img, a, (x, y)).Ok?
    {
      assert InBounds(img, x, y);
      var v := Get(img, x, y).value;
      assert |v| == 3 && Rgb(v[0], v[1], v[2]) in PaletteColors(a);
    }
  }
}

=== FILE: palette.dfy ===
/** The palette model: one `Pixel` per line of the tile list
    (`flags:id:paint:colorHex:category:name:extra`), the `Pixels` collection
    with its memoised projections, and the hex colour parser `Pixel.ToBytes`. */
module Palette {
  import opened Common
  import opened Text

  /** One palette entry. `wallAttached` is the torch flag of the record. */
  datatype Pixel = Pixel(name: string, wall: bool, id: U16, paint: Byte, color: Rgb, wallAttached: bool)

  /** The `(Wall, WallAtached, id, paint)` projection written to tile files. */
  function AsRecord(p: Pixel): (r: Record)
    ensures r.isWall == p.wall && r.isTorch == p.wallAttached && r.id == p.id && r.paint == p.paint
  {
    Record(p.wall, p.wallAttached, p.id, p.paint)
  }

  /** `hexValue.Replace("#", "")`. */
  function RemoveHash(s: string): (t: string)
    ensures forall i :: 0 <= i < |t| ==> t[i] != '#'
    ensures |t| <= |s|
    ensures (forall i :: 0 <= i < |s| ==> s[i] != '#') ==> t == s
    ensures |s| == 1 ==> t == if s[0] == '#' then "" else s
  {
    if |s| == 0 then ""
    else if s[0] == '#' then RemoveHash(s[1..])
    else
      assert s == [s[0]] + s[1..];
      [s[0]] + RemoveHash(s[1..])
  }

  /** Removal works character by character: the kept characters of a
      concatenation are those of each half, in order. */
  lemma {:induction false} RemoveHashAppend(a: string, b: string)
    ensures RemoveHash(a + b) == RemoveHash(a) + RemoveHash(b)
  {
    if |a| > 0 {
      assert (a + b)[0] == a[0] && (a + b)[1..] == a[1..] + b;
      RemoveHashAppend(a[1..], b);
    } else {
      assert a + b == b;
    }
  }

  /** The value whose bytes 2, 1 and 0 are the red, green and blue levels. */
  function Pack(c: Rgb): int {
    c.r * 65536 + c.g * 256 + c.b
  }

  /** Bits 16..23, 8..15 and 0..7 of a value, as a colour. */
  function Unpack(v: int): Rgb {
    Rgb((v / 65536) % 256, (v / 256) % 256, v % 256)
  }

  /** `Pixel.ToBytes`: the colour in the low three bytes of the parsed 32-bit
      value; a string that does not parse throws. */
  function ToBytes(hex: string): (r: Result<Rgb>)
    ensures r.Err? <==> ParseHex32(RemoveHash(hex)).Err?
    ensures r.Ok? ==> Pack(r.value) == ParseHex32(RemoveHash(hex)).value % 0x100_0000
  {
    var v :- ParseHex32(RemoveHash(hex));
    UnpackLow(v);
    Ok(Unpack(v))
  }

  /** The three bytes taken from `v` pack back into its low 24 bits: the top
      byte is ignored. */
  lemma UnpackLow(v: nat)
    ensures Pack(Unpack(v)) == v % 0x100_0000
  {
    var q, m := v / 0x100_0000, v % 0x100_0000;
    var r, low := m / 65536, m % 65536;
    var g, b := low / 256, low % 256;
    DivMod(m, 65536, r, low);
    DivMod(low, 256, g, b);
    assert v == (q * 256 + r) * 65536 + low;
    DivMod(v, 65536, q * 256 + r, low);
    DivMod(q * 256 + r, 256, q, r);
    assert v == (q * 65536 + r * 256 + g) * 256 + b;
    DivMod(v, 256, q * 65536 + r * 256 + g, b);
    DivMod(q * 65536 + r * 256 + g, 256, q * 256 + r, g);
  }

  /** `#RRGGBB`, the colour notation of the palette files. */
  function HexColor(c: Rgb): (s: string)
    ensures |s| == 7 && s[0] == '#'
    ensures AllHex(s[1..])
  {
    "#" + HexByte(c.r) + HexByte(c.g) + HexByte(c.b)
  }

  /** The six hex digits of a colour denote `r * 65536 + g * 256 + b`. */
  lemma HexDigitsValue(c: Rgb)
    ensures AllHex(HexByte(c.r) + HexByte(c.g) + HexByte(c.b))
    ensures HexValue(HexByte(c.r) + HexByte(c.g) + HexByte(c.b)) == Pack(c)
  {
    HexValueAppend2(HexByte(c.r), HexByte(c.g));
    HexValueAppend2(HexByte(c.r) + HexByte(c.g), HexByte(c.b));
  }

  /** The three bytes of `r * 65536 + g * 256 + b` are `r`, `g` and `b`. */
  lemma ByteFields(c: Rgb)
    ensures Unpack(Pack(c)) == c
  {
    var low := c.g * 256 + c.b;
    var v := c.r * 65536 + low;
    DivMod(v, 65536, c.r, low);
    DivMod(v, 256, c.r * 256 + c.g, c.b);
    DivMod(c.r * 256 + c.g, 256, c.r, c.g);
    DivMod(c.r, 256, 0, c.r);
  }

  /** Dropping the '#' of `#RRGGBB` leaves the six digits. */
  lemma HexColorStripped(c: Rgb)
    ensures RemoveHash(HexColor(c)) == HexByte(c.r) + HexByte(c.g) + HexByte(c.b)
  {
    var body := HexByte(c.r) + HexByte(c.g) + HexByte(c.b);
    assert HexColor(c) == "#" + body;
    assert ("#" + body)[1..] == body;
    HexDigitsValue(c);
    assert forall i :: 0 <= i < |body| ==> IsHexDigit(body[i]);
  }

  /** The six digits of a colour parse as `r * 65536 + g * 256 + b`. */
  lemma HexBodyValue(c: Rgb)
    ensures ParseHex32(HexByte(c.r) + HexByte(c.g) + HexByte(c.b)) == Ok(Pack(c))
  {
    var body := HexByte(c.r) + HexByte(c.g) + HexByte(c.b);
    HexDigitsValue(c);
    assert Pack(c) < TwoTo32;
    ParseHex32Digits(body);
  }

  /** The `#RRGGBB` rendering of a colour parses, '#' removed, as
      `r * 65536 + g * 256 + b`. */
  lemma HexColorParses(c: Rgb)
    ensures ParseHex32(RemoveHash(HexColor(c))) == Ok(Pack(c))
  {
    HexColorStripped(c);
    HexBodyValue(c);
  }

  /** Parsing the `#RRGGBB` rendering of a colour gives the colour back. */
  lemma ToBytesHexColor(c: Rgb)
    ensures ToBytes(HexColor(c)) == Ok(c)
  {
    HexColorParses(c);
    ToBytesFields(HexColor(c), c);
  }

  /** A string whose digits denote `r * 65536 + g * 256 + b` parses as the
      colour `(r, g, b)`. */
  lemma ToBytesFields(hex: string, c: Rgb)
    requires ParseHex32(RemoveHash(hex)) == Ok(Pack(c))
    ensures ToBytes(hex) == Ok(c)
  {
    ByteFields(c);
  }

  /** The wall flag the `Pixels` constructor passes for one split line. */
  function WallFlag(parts: seq<string>, mode: bool): bool
    requires |parts| >= 1
  {
    if mode then parts[0] == "0" else true
  }

  /** `new Pixel(parts, wall)`: at least seven fields, the id and paint parsed
      as unsigned decimals, the colour parsed as hex, the name joined from
      fields 5 and 6, and the torch flag looked up in `torchIds` unless the
      entry is a wall. */
  function FromParts(parts: seq<string>, wall: bool, torchIds: seq<string>): (r: Result<Pixel>)
    ensures |parts| < 7 ==> r == Err(IndexOutOfRange)
    ensures r.Ok? <==> |parts| >= 7 && ParseUnsigned(parts[1], 65535).Ok?
                       && ParseUnsigned(parts[2], 255).Ok? && ToBytes(parts[3]).Ok?
    ensures r.Ok? ==> (r.value.name == parts[5] + " " + parts[6]
                       && r.value.wall == wall
                       && r.value.id == ParseUnsigned(parts[1], 65535).value
                       && r.value.paint == ParseUnsigned(parts[2], 255).value
                       && r.value.color == ToBytes(parts[3]).value
                       && (r.value.wallAttached <==> !wall && parts[1] in torchIds))
  {
    if |parts| < 7 then Err(IndexOutOfRange)
    else
      var name := parts[5] + " " + parts[6];
      var id :- ParseUnsigned(parts[1], 65535);
      var paint :- ParseUnsigned(parts[2], 255);
      var color :- ToBytes(parts[3]);
      Ok(Pixel(name, wall, id, paint, color, if wall then false else IndexOf(torchIds, parts[1]) != -1))
  }

  /** One line of the tile list: split on ':' and build the entry. */
  function ParseLine(line: string, mode: bool, torchIds: seq<string>): (r: Result<Pixel>)
    ensures var parts := Split(line, {':'});
      |parts| < 7 ==> r == Err(IndexOutOfRange)
    ensures var parts := Split(line, {':'});
      r.Ok? ==> (|parts| >= 7
                 && r.value.wall == (!mode || parts[0] == "0")
                 && r.value.name == parts[5] + " " + parts[6]
                 && ParseUnsigned(parts[1], 65535) == Ok(r.value.id)
                 && ParseUnsigned(parts[2], 255) == Ok(r.value.paint)
                 && ToBytes(parts[3]) == Ok(r.value.color))
  {
    var parts := Split(line, {':'});
    FromParts(parts, WallFlag(parts, mode), torchIds)
  }

  /** The parsed entries of `lines`, in line order; the first bad line aborts. */
  function ParseLines(lines: seq<string>, mode: bool, torchIds: seq<string>): (r: Result<seq<Pixel>>)
    ensures r.Ok? ==> |r.value| == |lines|
  {
    MapResult(lines, line => ParseLine(line, mode, torchIds))
  }

  /** A parse succeeds exactly when every line does, and then each entry is
      the entry of the line at the same position. */
  lemma ParseLinesPointwise(lines: seq<string>, mode: bool, torchIds: seq<string>)
    ensures ParseLines(lines, mode, torchIds).Ok? <==>
      forall i :: 0 <= i < |lines| ==> ParseLine(lines[i], mode, torchIds).Ok?
    ensures ParseLines(lines, mode, torchIds).Ok? ==>
      forall i :: 0 <= i < |lines| ==>
        ParseLines(lines, mode, torchIds).value[i] == ParseLine(lines[i], mode, torchIds).value
  {
    MapResultPointwise(lines, line => ParseLine(line, mode, torchIds));
  }

  /** The `Pixels` collection: its entries and the two lazily filled caches. */
  datatype Pixels = Pixels(objects: seq<Pixel>, pixelsMemo: Option<seq<Record>>, colorsMemo: Option<seq<Rgb>>)

  /** `new Pixels(lines, mode)`. */
  function NewPixels(lines: seq<string>, mode: bool, torchIds: seq<string>): (r: Result<Pixels>)
    ensures r.Ok? ==> r.value.pixelsMemo.None? && r.value.colorsMemo.None?
    ensures r.Ok? <==> forall i :: 0 <= i < |lines| ==> ParseLine(lines[i], mode, torchIds).Ok?
    ensures r.Ok? ==> (|r.value.objects| == |lines|
                       && forall i :: 0 <= i < |lines| ==>
                            r.value.objects[i] == ParseLine(lines[i], mode, torchIds).value)
  {
    ParseLinesPointwise(lines, mode, torchIds);
    var objects :- ParseLines(lines, mode, torchIds);
    Ok(Pixels(objects, None, None))
  }

  function Add(ps: Pixels, p: Pixel): (r: Pixels)
    ensures r.objects == ps.objects + [p]
    ensures r.pixelsMemo == ps.pixelsMemo && r.colorsMemo == ps.colorsMemo
  {
    ps.(objects := ps.objects + [p])
  }

  function Records(objects: seq<Pixel>): (r: seq<Record>)
    ensures |r| == |objects|
    ensures forall i :: 0 <= i < |objects| ==> r[i] == AsRecord(objects[i])
  {
    if |objects| == 0 then [] else [AsRecord(objects[0])] + Records(objects[1..])
  }

  function Colors(objects: seq<Pixel>): (r: seq<Rgb>)
    ensures |r| == |objects|
    ensures forall i :: 0 <= i < |objects| ==> r[i] == objects[i].color
  {
    if |objects| == 0 then [] else [objects[0].color] + Colors(objects[1..])
  }

  /** `GetPixels`: the memo if present, else the projection of the current
      entries, which becomes the memo. */
  function GetPixels(ps: Pixels): (r: (seq<Record>, Pixels))
    ensures r.1.pixelsMemo == Some(r.0)
    ensures r.1.objects == ps.objects && r.1.colorsMemo == ps.colorsMemo
    ensures ps.pixelsMemo.None? ==> r.0 == Records(ps.objects)
    ensures ps.pixelsMemo.Some? ==> r == (ps.pixelsMemo.value, ps)
  {
    match ps.pixelsMemo
    case Some(m) => (m, ps)
    case None => var m := Records(ps.objects); (m, ps.(pixelsMemo := Some(m)))
  }

  /** `GetColors`, memoised like `GetPixels`. */
  function GetColors(ps: Pixels): (r: (seq<Rgb>, Pixels))
    ensures r.1.colorsMemo == Some(r.0)
    ensures r.1.objects == ps.objects && r.1.pixelsMemo == ps.pixelsMemo
    ensures ps.colorsMemo.None? ==> r.0 == Colors(ps.objects)
    ensures ps.colorsMemo.Some? ==> r == (ps.colorsMemo.value, ps)
  {
    match ps.colorsMemo
    case Some(m) => (m, ps)
    case None => var m := Colors(ps.objects); (m, ps.(colorsMemo := Some(m)))
  }

  /** Once `GetPixels` has run, later `Add` calls are not reflected in it, and
      the projections taken from the same entries stay index-aligned. */
  lemma MemoIgnoresAdd(ps: Pixels, p: Pixel)
    requires ps.pixelsMemo.None? && ps.colorsMemo.None?
    ensures var (recs, ps1) := GetPixels(ps);
      GetPixels(Add(ps1, p)).0 == recs && |recs| == |ps.objects|
    ensures var (cols, ps2) := GetColors(GetPixels(ps).1);
      forall i :: 0 <= i < |cols| ==>
        GetPixels(ps).0[i] == AsRecord(ps.objects[i]) && cols[i] == ps.objects[i].color
  {
  }

  /** Seven fields whose id, paint and colour parse give the entry. */
  lemma FromPartsFields(parts: seq<string>, wall: bool, torchIds: seq<string>, id: U16, paint: Byte, c: Rgb)
    requires |parts| == 7
    requires ParseUnsigned(parts[1], 65535) == Ok(id) && ParseUnsigned(parts[2], 255) == Ok(paint)
    requires ToBytes(parts[3]) == Ok(c)
    ensures FromParts(parts, wall, torchIds)
            == Ok(Pixel(parts[5] + " " + parts[6], wall, id, paint, c, !wall && parts[1] in torchIds))
  {
  }

  /** A line joined with ':' from seven ':'-free fields whose id, paint and
      colour fields parse gives the entry of those fields (`ParseDecimal` and
      `ToBytesHexColor` say that the decimal and `#RRGGBB` renderings parse). */
  lemma ParseLineRoundTrip(parts: seq<string>, torchIds: seq<string>, id: U16, paint: Byte, c: Rgb)
    requires |parts| == 7 && forall i :: 0 <= i < 7 ==> NoneOf(parts[i], {':'})
    requires ParseUnsigned(parts[1], 65535) == Ok(id) && ParseUnsigned(parts[2], 255) == Ok(paint)
    requires ToBytes(parts[3]) == Ok(c)
    ensures ParseLine(Join(parts, ':'), true, torchIds)
            == Ok(Pixel(parts[5] + " " + parts[6], parts[0] == "0", id, paint, c,
                        parts[0] != "0" && parts[1] in torchIds))
  {
    SplitJoin(parts, ':');
    FromPartsFields(parts, parts[0] == "0", torchIds, id, paint, c);
  }
}

=== FILE: selector.dfy ===
/** `DitheringSelector.GetOptimalDithererName`: the rule chain that picks a
    ditherer from the image statistics. */
module Selector {
  import opened Common
  import opened Kernels

  /** `ImageAnalysisResult`. The statistics themselves come from the image
      analyser and are inputs here. */
  datatype Analysis = Analysis(
    width: int,
    height: int,
    contrast: real,
    hasSmoothGradients: bool,
    hasHighFrequency: bool,
    hasSharpEdges: bool,
    colorCount: int,
    noiseLevel: real)

  /** `IsSmallImage`: the pixel count, a C# `int` product that wraps. */
  predicate IsSmallImage(a: Analysis) {
    Wrap32(a.width * a.height) < 500000
  }

  predicate IsTiny(a: Analysis) {
    a.width <= 64 && a.height <= 64
  }

  /** The first matching rule of the chain names the ditherer. */
  function Select(a: Analysis): (name: string)
    ensures name in LegacyRegisteredNames() && name != "Sierra24a"
    ensures IsTiny(a) ==> (name == "Atkinson" <==> a.noiseLevel < 0.1)
    ensures IsTiny(a) ==> name == "Atkinson" || name == "SierraLite"
    ensures name == "Stucki" <==> (
      !IsTiny(a) && !IsSmallImage(a) && a.hasSmoothGradients && 0.05 <= a.noiseLevel < 0.2)
    ensures name == "Sierra3" <==> (
      !IsTiny(a) && !IsSmallImage(a) && !a.hasSmoothGradients && a.hasHighFrequency
      && 0.1 <= a.noiseLevel < 0.3)
  {
    if IsTiny(a) && a.noiseLevel < 0.1 then "Atkinson"
    else if IsTiny(a) then "SierraLite"
    else if IsSmallImage(a) && a.noiseLevel < 0.1 then "Atkinson"
    else if IsSmallImage(a) && a.hasSmoothGradients then "FloydSteinberg"
    else if IsSmallImage(a) then "SierraLite"
    else if a.hasSmoothGradients && a.noiseLevel < 0.05 then "JarvisJudiceNinke"
    else if a.hasSmoothGradients && a.noiseLevel < 0.2 then "Stucki"
    else if a.hasSmoothGradients then "Burkes"
    else if a.hasHighFrequency && a.noiseLevel < 0.1 then "Burkes"
    else if a.hasHighFrequency && a.noiseLevel < 0.3 then "Sierra3"
    else if a.hasHighFrequency then "FloydSteinberg"
    else if a.contrast > 0.25 && a.noiseLevel < 0.15 then "Atkinson"
    else if a.contrast > 0.25 then "FloydSteinberg"
    else if a.noiseLevel < 0.1 then "JarvisJudiceNinke"
    else "FloydSteinberg"
  }

  /** The current six-way switch fails on exactly the analyses the chain
      answers with "Stucki"; the older eight-way switch accepts every answer. */
  lemma SelectDispatch(a: Analysis)
    ensures Dispatch(Select(a)).Err? <==> Select(a) == "Stucki"
    ensures LegacyDispatch(Select(a)).Ok?
    ensures LegacyDispatch(Select(a)).value != Sierra24a
  {
  }

  /** A 1000 x 1000 image with smooth gradients and noise 0.1 is sent to
      Stucki, which the current switch does not support. */
  lemma StuckiReachable()
    ensures var a := Analysis(1000, 1000, 0.0, true, false, false, 0, 0.1);
      Select(a) == "Stucki" && Dispatch(Select(a)) == Err(NotSupported)
  {
    var a := Analysis(1000, 1000, 0.0, true, false, false, 0, 0.1);
    assert !IsSmallImage(a);
  }

  /** The pixel count wraps: a 65536 x 65536 image counts as small. */
  lemma HugeImageCountsAsSmall()
    ensures IsSmallImage(Analysis(65536, 65536, 0.0, false, false, false, 0, 0.5))
  {
    assert 65536 * 65536 == TwoTo32;
  }
}

=== FILE: string_extensions.dfy ===
/** `StringExtensions`: the normaliser that turns a loosely written palette
    line into the 7-field `flags:id:paint:color:category:name:extra` form,
    and its hex-colour test. */
module StringExtensions {
  import opened Common
  import opened Text
  import Palette

  const HexColorChars: string := "#0123456789ABCDEFabcdef"

  /** `IsHexColor`: seven characters, each '#' or a hex digit, in any order. */
  predicate IsHexColor(s: string) {
    |s| == 7 && forall i :: 0 <= i < |s| ==> s[i] in HexColorChars
  }

  /** Every `#RRGGBB` colour rendering is recognised as a hex colour. */
  lemma HexColorRecognised(c: Rgb)
    ensures IsHexColor(Palette.HexColor(c))
  {
    var s := Palette.HexColor(c);
    forall i | 0 <= i < 7
      ensures s[i] in HexColorChars
    {
      if i > 0 {
        assert s[1..][i - 1] == s[i];
        assert IsHexDigit(s[i]);
      }
    }
  }

  /** The test neither requires '#' first nor limits how many '#' there are. */
  lemma HexColorLoose()
    ensures IsHexColor("1234567") && IsHexColor("#######")
    ensures !IsHexColor("#12345") && !IsHexColor("#12345G")
  {
    assert "#12345G"[6] !in HexColorChars;
  }

  /** How `FormatInputData` classifies one trimmed part. */
  datatype Kind = Id | Color | Name

  /** An unsigned 32-bit integer first, then a hex colour, else a name. */
  function KindOf(t: string): Kind {
    if ParseUnsigned(t, 0xFFFF_FFFF).Ok? then Id
    else if IsHexColor(t) then Color
    else Name
  }

  /** The last part of kind `k`, or the empty string when there is none. */
  function LastOfKind(ts: seq<string>, k: Kind): (r: string)
    ensures r == "" || exists i :: 0 <= i < |ts| && ts[i] == r && KindOf(r) == k
  {
    if |ts| == 0 then ""
    else if KindOf(ts[|ts| - 1]) == k then ts[|ts| - 1]
    else LastOfKind(ts[..|ts| - 1], k)
  }

  function TrimAll(parts: seq<string>): (ts: seq<string>)
    ensures |ts| == |parts|
    ensures forall i :: 0 <= i < |parts| ==> ts[i] == Trim(parts[i])
  {
    seq(|parts|, i requires 0 <= i < |parts| => Trim(parts[i]))
  }

  /** The loop of `FormatInputData` after `ts` has been scanned from the front:
      each part overwrites the slot of its kind. */
  function Scan(ts: seq<string>): (r: (string, string, string))
    ensures r == (LastOfKind(ts, Id), LastOfKind(ts, Color), LastOfKind(ts, Name))
  {
    if |ts| == 0 then ("", "", "")
    else
      var (id, color, name) := Scan(ts[..|ts| - 1]);
      var t := ts[|ts| - 1];
      match KindOf(t)
      case Id => (t, color, name)
      case Color => (id, t, name)
      case Name => (id, color, t)
  }

  const Separators: set<char> := {':', ','}

  /** The trimmed non-empty pieces of `input` split on ':' and ','. */
  function InputParts(input: string): (ts: seq<string>)
    ensures forall i :: 0 <= i < |ts| ==> NoneOf(ts[i], Separators)
  {
    var parts := RemoveEmpty(Split(input, Separators));
    var ts := TrimAll(parts);
    assert forall i :: 0 <= i < |ts| ==> NoneOf(ts[i], Separators) by {
      forall i | 0 <= i < |ts|
        ensures NoneOf(ts[i], Separators)
      {
        TrimNoneOf(parts[i], Separators);
      }
    }
    ts
  }

  /** The chosen part of each kind contains no ':'. */
  lemma LastOfKindFree(ts: seq<string>, k: Kind)
    requires forall i :: 0 <= i < |ts| ==> NoneOf(ts[i], Separators)
    ensures NoneOf(LastOfKind(ts, k), {':'})
  {
    var r := LastOfKind(ts, k);
    if r != "" {
      var i :| 0 <= i < |ts| && ts[i] == r && KindOf(r) == k;
      assert NoneOf(ts[i], Separators);
    }
  }

  /** The output line `1:<id>:0:<color>:Block:<name>:-`. */
  function BlockLine(id: string, color: string, name: string): string {
    Join(["1", id, "0", color, "Block", name, "-"], ':')
  }

  /** Splitting a block line recovers its seven fields. */
  lemma BlockLineFields(id: string, color: string, name: string)
    requires NoneOf(id, {':'}) && NoneOf(color, {':'}) && NoneOf(name, {':'})
    ensures Split(BlockLine(id, color, name), {':'}) == ["1", id, "0", color, "Block", name, "-"]
  {
    var fields := ["1", id, "0", color, "Block", name, "-"];
    assert forall i :: 0 <= i < 7 ==> NoneOf(fields[i], {':'});
    SplitJoin(fields, ':');
  }

  /** `FormatInputData`: the id, colour and name found in `input`, each the
      last part of its kind, placed in a 7-field block line. */
  function FormatInputData(input: string): (r: string)
    ensures var ts := InputParts(input);
      Split(r, {':'}) == ["1", LastOfKind(ts, Id), "0", LastOfKind(ts, Color), "Block", LastOfKind(ts, Name), "-"]
  {
    var ts := InputParts(input);
    var (id, color, name) := Scan(ts);
    LastOfKindFree(ts, Id);
    LastOfKindFree(ts, Color);
    LastOfKindFree(ts, Name);
    BlockLineFields(id, color, name);
    BlockLine(id, color, name)
  }
}

=== FILE: text.dfy ===
/** The .NET string and number-parsing primitives the core relies on:
    `String.Split`, `String.Trim`, unsigned decimal parsing (`Convert.ToUInt16`,
    `Convert.ToByte`, `uint.TryParse`) and base-16 parsing (`Convert.ToInt32(s, 16)`). */
module Text {
  import opened Common

  /** True when no character of `s` is in `seps`. */
  predicate NoneOf(s: string, seps: set<char>) {
    forall i :: 0 <= i < |s| ==> s[i] !in seps
  }

  /** `s.Split(seps)`: the pieces between separators, empty pieces kept. */
  function Split(s: string, seps: set<char>): (parts: seq<string>)
    ensures |parts| >= 1
    ensures forall i :: 0 <= i < |parts| ==> NoneOf(parts[i], seps)
    ensures NoneOf(s, seps) ==> parts == [s]
  {
    if |s| == 0 then [""]
    else
      var rest := Split(s[1..], seps);
      assert s == [s[0]] + s[1..];
      if s[0] in seps then [""] + rest
      else [[s[0]] + rest[0]] + rest[1..]
  }

  /** `string.Join(sep, parts)`. */
  function Join(parts: seq<string>, sep: char): string
    requires |parts| >= 1
  {
    if |parts| == 1 then parts[0] else parts[0] + [sep] + Join(parts[1..], sep)
  }

  /** Splitting a separator-free prefix glued to a tail extends the first piece. */
  lemma {:induction false} SplitPrefix(a: string, t: string, seps: set<char>)
    requires NoneOf(a, seps)
    ensures Split(a + t, seps) == [a + Split(t, seps)[0]] + Split(t, seps)[1..]
    decreases |a|
  {
    if |a| > 0 {
      assert (a + t)[1..] == a[1..] + t;
      SplitPrefix(a[1..], t, seps);
      assert [a[0]] + (a[1..] + Split(t, seps)[0]) == a + Split(t, seps)[0];
    } else {
      var p := Split(t, seps);
      assert a + t == t;
      assert a + p[0] == p[0];
      assert [p[0]] + p[1..] == p;
    }
  }

  /** Splitting a join on its own separator gives the parts back, provided
      no part contains the separator. */
  lemma {:induction false} SplitJoin(parts: seq<string>, sep: char)
    requires |parts| >= 1
    requires forall i :: 0 <= i < |parts| ==> NoneOf(parts[i], {sep})
    ensures Split(Join(parts, sep), {sep}) == parts
  {
    if |parts| == 1 {
    } else {
      var tail := Join(parts[1..], sep);
      SplitJoin(parts[1..], sep);
      assert Join(parts, sep) == parts[0] + ([sep] + tail);
      SplitPrefix(parts[0], [sep] + tail, {sep});
      assert ([sep] + tail)[1..] == tail;
      assert Split([sep] + tail, {sep}) == [""] + parts[1..];
      assert parts[0] + "" == parts[0];
    }
  }

  /** Joining the pieces of a split on the same separator rebuilds the input. */
  lemma {:induction false} JoinSplit(s: string, sep: char)
    ensures Join(Split(s, {sep}), sep) == s
  {
    if |s| > 0 {
      JoinSplit(s[1..], sep);
      var rest := Split(s[1..], {sep});
      if s[0] == sep {
        assert Split(s, {sep})[1..] == rest;
        assert s == [sep] + s[1..];
      } else {
        var parts := Split(s, {sep});
        assert parts[1..] == rest[1..];
        if |rest| == 1 {
          assert s == [s[0]] + s[1..];
        } else {
          assert Join(rest, sep) == rest[0] + [sep] + Join(rest[1..], sep);
          assert s == [s[0]] + s[1..];
        }
      }
    }
  }

  /** Every piece of `r` is non-empty and one of `parts`, and every non-empty
      piece of `parts` is in `r`. */
  predicate NonEmptyOf(r: seq<string>, parts: seq<string>) {
    && (forall i :: 0 <= i < |r| ==> |r[i]| > 0 && r[i] in parts)
    && (forall p :: p in parts && |p| > 0 ==> p in r)
  }

  /** The pieces of `s.Split(seps, StringSplitOptions.RemoveEmptyEntries)`. */
  function RemoveEmpty(parts: seq<string>): (r: seq<string>)
    ensures NonEmptyOf(r, parts)
    ensures |parts| == 1 ==> r == if |parts[0]| == 0 then [] else parts
  {
    if |parts| == 0 then []
    else if |parts[0]| == 0 then RemoveEmpty(parts[1..])
    else [parts[0]] + RemoveEmpty(parts[1..])
  }

  /** Removal works piece by piece: the kept pieces of a concatenation are
      those of each half, in order, duplicates included. */
  lemma {:induction false} RemoveEmptyAppend(a: seq<string>, b: seq<string>)
    ensures RemoveEmpty(a + b) == RemoveEmpty(a) + RemoveEmpty(b)
  {
    if |a| > 0 {
      assert (a + b)[0] == a[0] && (a + b)[1..] == a[1..] + b;
      RemoveEmptyAppend(a[1..], b);
    } else {
      assert a + b == b;
    }
  }

  /** `char.IsWhiteSpace`: the Unicode space separators plus the line and
      paragraph separators and the control characters U+0009..U+000D, U+0085. */
  predicate IsWhiteSpace(c: char) {
    c == ' ' || ('\t' <= c <= '\r') || c == '\U{0085}' || c == '\U{00A0}'
    || c == '\U{1680}' || ('\U{2000}' <= c <= '\U{200A}') || c == '\U{2028}'
    || c == '\U{2029}' || c == '\U{202F}' || c == '\U{205F}' || c == '\U{3000}'
  }

  /** Positions `lo..hi-1` of `s` all hold white space. */
  predicate AllWhite(s: string, lo: int, hi: int) {
    0 <= lo <= hi <= |s| && forall k :: lo <= k < hi ==> IsWhiteSpace(s[k])
  }

  function TrimStart(s: string): (t: string)
    ensures |t| <= |s| && t == s[|s| - |t|..]
    ensures AllWhite(s, 0, |s| - |t|)
    ensures |t| > 0 ==> !IsWhiteSpace(t[0])
  {
    if |s| > 0 && IsWhiteSpace(s[0]) then TrimStart(s[1..]) else s
  }

  function TrimEnd(s: string): (t: string)
    ensures |t| <= |s| && t == s[..|t|]
    ensures AllWhite(s, |t|, |s|)
    ensures |t| > 0 ==> !IsWhiteSpace(t[|t| - 1])
  {
    if |s| > 0 && IsWhiteSpace(s[|s| - 1]) then TrimEnd(s[..|s| - 1]) else s
  }

  /** White space found in a suffix of `s` is white space of `s`. */
  lemma AllWhiteShift(s: string, i: nat, lo: int, hi: int)
    requires i <= |s| && AllWhite(s[i..], lo, hi)
    ensures AllWhite(s, lo + i, hi + i)
  {
    forall k | lo + i <= k < hi + i
      ensures IsWhiteSpace(s[k])
    {
      assert s[k] == s[i..][k - i];
    }
  }

  /** `t` is the slice `s[i..j]`, and everything before `i` and from `j` on
      is white space. */
  predicate WhiteCut(s: string, t: string, i: int, j: int) {
    0 <= i <= j <= |s| && t == s[i..j] && AllWhite(s, 0, i) && AllWhite(s, j, |s|)
  }

  /** `s.Trim()`: the slice of `s` left after removing leading and trailing
      white space. */
  function Trim(s: string): (t: string)
    ensures exists i, j :: WhiteCut(s, t, i, j)
    ensures |t| > 0 ==> !IsWhiteSpace(t[0]) && !IsWhiteSpace(t[|t| - 1])
    ensures (forall i :: 0 <= i < |s| ==> IsWhiteSpace(s[i])) ==> t == ""
  {
    var a := TrimStart(s);
    var t := TrimEnd(a);
    TrimSlice(s, a, t);
    assert |t| > 0 ==> a[0] == t[0];
    t
  }

  /** Trimming the start and then the end removes white space only: `a` is a
      suffix of `s` after white space, and `t` a prefix of `a` before white
      space. */
  lemma TrimSlice(s: string, a: string, t: string)
    requires |a| <= |s| && a == s[|s| - |a|..] && AllWhite(s, 0, |s| - |a|)
    requires |t| <= |a| && t == a[..|t|] && AllWhite(a, |t|, |a|)
    ensures WhiteCut(s, t, |s| - |a|, |s| - |a| + |t|)
  {
    var i := |s| - |a|;
    AllWhiteShift(s, i, |t|, |a|);
    assert s[i..][..|t|] == s[i..i + |t|];
  }

  /** The characters of `t` are characters of `s` whenever `t` is a slice of it. */
  lemma SliceNoneOf(s: string, i: int, j: int, seps: set<char>)
    requires 0 <= i <= j <= |s| && NoneOf(s, seps)
    ensures NoneOf(s[i..j], seps)
  {
  }

  lemma TrimNoneOf(s: string, seps: set<char>)
    requires NoneOf(s, seps)
    ensures NoneOf(Trim(s), seps)
  {
    var i, j :| WhiteCut(s, Trim(s), i, j);
    SliceNoneOf(s, i, j, seps);
  }

  // ---------------------------------------------------------------------------
  // Decimal digits

  predicate IsDigit(c: char) {
    '0' <= c <= '9'
  }

  predicate AllDigits(s: string) {
    forall i :: 0 <= i < |s| ==> IsDigit(s[i])
  }

  /** The value of a string of decimal digits, most significant first. */
  function DigitsValue(s: string): nat
    requires AllDigits(s)
  {
    if |s| == 0 then 0
    else DigitsValue(s[..|s| - 1]) * 10 + (s[|s| - 1] as int - '0' as int)
  }

  /** The white space `NumberStyles.Integer` allows around a number:
      U+0009..U+000D and U+0020. */
  predicate IsNumberWhite(c: char) {
    c == ' ' || ('\t' <= c <= '\r')
  }

  /** Positions `lo..hi-1` of `s` all hold number white space. */
  predicate AllNumberWhite(s: string, lo: int, hi: int) {
    0 <= lo <= hi <= |s| && forall k :: lo <= k < hi ==> IsNumberWhite(s[k])
  }

  /** The white space around a number removed, one character at a time from
      either end. */
  function StripNumberWhite(s: string): (t: string)
    ensures |t| <= |s|
    ensures |t| > 0 ==> !IsNumberWhite(t[0]) && !IsNumberWhite(t[|t| - 1])
  {
    if |s| > 0 && IsNumberWhite(s[0]) then StripNumberWhite(s[1..])
    else if |s| > 0 && IsNumberWhite(s[|s| - 1]) then StripNumberWhite(s[..|s| - 1])
    else s
  }

  /** A cut of `s[1..]` is a cut of `s` one position further on, when `s[0]`
      is white space. */
  lemma FrontCut(s: string, i: int, j: int)
    requires |s| > 0 && IsNumberWhite(s[0])
    requires 0 <= i <= j <= |s| - 1
    requires AllNumberWhite(s[1..], 0, i) && AllNumberWhite(s[1..], j, |s| - 1)
    ensures s[1..][i..j] == s[i + 1..j + 1]
    ensures AllNumberWhite(s, 0, i + 1) && AllNumberWhite(s, j + 1, |s|)
  {
    assert forall k :: 1 <= k < |s| ==> s[k] == s[1..][k - 1];
  }

  /** A cut of `s[..|s| - 1]` is a cut of `s`, when the last character of `s`
      is white space. */
  lemma BackCut(s: string, i: int, j: int)
    requires |s| > 0 && IsNumberWhite(s[|s| - 1])
    requires 0 <= i <= j <= |s| - 1
    requires AllNumberWhite(s[..|s| - 1], 0, i) && AllNumberWhite(s[..|s| - 1], j, |s| - 1)
    ensures s[..|s| - 1][i..j] == s[i..j]
    ensures AllNumberWhite(s, 0, i) && AllNumberWhite(s, j, |s|)
  {
    assert forall k :: 0 <= k < |s| - 1 ==> s[k] == s[..|s| - 1][k];
  }

  /** `StripNumberWhite` keeps a slice `i..j` of `s` and removes only white
      space before and after it. */
  lemma {:induction false} StripNumberWhiteCut(s: string)
    ensures exists i, j :: 0 <= i <= j <= |s| && StripNumberWhite(s) == s[i..j]
                           && AllNumberWhite(s, 0, i) && AllNumberWhite(s, j, |s|)
    decreases |s|
  {
    if |s| > 0 && IsNumberWhite(s[0]) {
      var a := s[1..];
      StripNumberWhiteCut(a);
      var i, j :| 0 <= i <= j <= |a| && StripNumberWhite(a) == a[i..j]
                  && AllNumberWhite(a, 0, i) && AllNumberWhite(a, j, |a|);
      FrontCut(s, i, j);
      assert StripNumberWhite(s) == s[i + 1..j + 1];
    } else if |s| > 0 && IsNumberWhite(s[|s| - 1]) {
      var a := s[..|s| - 1];
      StripNumberWhiteCut(a);
      var i, j :| 0 <= i <= j <= |a| && StripNumberWhite(a) == a[i..j]
                  && AllNumberWhite(a, 0, i) && AllNumberWhite(a, j, |a|);
      BackCut(s, i, j);
      assert StripNumberWhite(s) == s[i..j];
    } else {
      assert StripNumberWhite(s) == s[0..|s|];
    }
  }

  /** `s` without its trailing U+0000 characters, which the number parser
      accepts after the number and its trailing white space. */
  function DropTrailingNul(s: string): (t: string)
    ensures |t| <= |s| && t == s[..|t|]
    ensures forall k :: |t| <= k < |s| ==> s[k] == '\0'
    ensures |t| > 0 ==> t[|t| - 1] != '\0'
  {
    if |s| > 0 && s[|s| - 1] == '\0' then DropTrailingNul(s[..|s| - 1]) else s
  }

  /** The text of the number: trailing NULs dropped, then the white space
      around it removed. */
  function NumberText(s: string): string {
    StripNumberWhite(DropTrailingNul(s))
  }

  /** Whether the number text starts with a minus sign. */
  predicate NegativeSign(t: string) {
    |t| > 0 && t[0] == '-'
  }

  /** The digits of the number text, after its optional sign. */
  function UnsignedPart(t: string): (body: string)
    ensures |t| > 0 && (t[0] == '+' || t[0] == '-') ==> body == t[1..]
    ensures |t| == 0 || (t[0] != '+' && t[0] != '-') ==> body == t
  {
    if |t| > 0 && (t[0] == '+' || t[0] == '-') then t[1..] else t
  }

  /** `Convert.ToUInt16` / `Convert.ToByte` / `uint.TryParse` with
      `NumberStyles.Integer`: white space around the number, one optional
      sign, one or more digits (leading zeros allowed), and trailing NULs
      after everything. A minus sign is accepted only in front of zero;
      anything else that is not of this shape is a format error, and a value
      above `max` (or negative) is an overflow. */
  function ParseUnsigned(s: string, max: nat): (r: Result<nat>)
    ensures var body := UnsignedPart(NumberText(s));
      r == Err(Format) <==> |body| == 0 || !AllDigits(body)
    ensures var t := NumberText(s); var body := UnsignedPart(t);
      r.Ok? <==> |body| > 0 && AllDigits(body) && (NegativeSign(t) ==> DigitsValue(body) == 0)
                 && DigitsValue(body) <= max
    ensures var body := UnsignedPart(NumberText(s));
      r.Ok? ==> AllDigits(body) && r.value == DigitsValue(body) && r.value <= max
    ensures r.Err? ==> r.error == Format || r.error == Overflow
  {
    var t := NumberText(s);
    var body := UnsignedPart(t);
    if |body| == 0 || !AllDigits(body) then Err(Format)
    else
      var v := DigitsValue(body);
      if NegativeSign(t) && v != 0 then Err(Overflow)
      else if v > max then Err(Overflow)
      else Ok(v)
  }

  /** Trailing NULs after the trailing white space are accepted; a NUL before
      white space is not. */
  lemma TrailingNul()
    ensures ParseUnsigned("5 \0\0", 255) == Ok(5)
    ensures ParseUnsigned("5\0 ", 255) == Err(Format)
  {
    assert DropTrailingNul("5 \0\0") == "5 ";
    assert StripNumberWhite("5 ") == "5";
    assert DigitsValue("5") == 5;
    assert DropTrailingNul("5\0 ") == "5\0 ";
    assert StripNumberWhite("5\0 ") == "5\0";
    assert !IsDigit("5\0"[1]);
  }

  /** A minus sign is accepted in front of zero: " -0 " is zero. */
  lemma NegativeZero()
    ensures ParseUnsigned(" -0 ", 255) == Ok(0)
  {
    assert StripNumberWhite(" -0 ") == "-0";
    assert UnsignedPart("-0") == "0" && DigitsValue("0") == 0;
  }

  /** A plus sign and leading zeros are accepted: "+007" is 7. */
  lemma PlusLeadingZeros()
    ensures ParseUnsigned("+007", 255) == Ok(7)
  {
    assert UnsignedPart("+007") == "007";
    assert "007"[..2] == "00" && "00"[..1] == "0";
    assert DigitsValue("007") == 7;
  }

  /** A negative value other than zero overflows: "-1". */
  lemma NegativeOverflows()
    ensures ParseUnsigned("-1", 255) == Err(Overflow)
  {
    assert UnsignedPart("-1") == "1" && DigitsValue("1") == 1;
  }

  /** The shortest decimal rendering of `n`. */
  function Decimal(n: nat): (s: string)
    ensures |s| >= 1 && AllDigits(s)
    ensures DigitsValue(s) == n
    ensures IsDigit(s[0])
  {
    var d := [('0' as int + n % 10) as char];
    if n < 10 then d
    else
      var s := Decimal(n / 10) + d;
      assert s[..|s| - 1] == Decimal(n / 10);
      s
  }

  /** Decimal rendering and parsing are inverse for values within the bound. */
  lemma ParseDecimal(n: nat, max: nat)
    requires n <= max
    ensures ParseUnsigned(Decimal(n), max) == Ok(n)
  {
    var s := Decimal(n);
    assert DropTrailingNul(s) == s;
    assert StripNumberWhite(s) == s;
  }

  // ---------------------------------------------------------------------------
  // Hexadecimal digits

  predicate IsHexDigit(c: char) {
    ('0' <= c <= '9') || ('a' <= c <= 'f') || ('A' <= c <= 'F')
  }

  function HexDigitValue(c: char): (v: nat)
    requires IsHexDigit(c)
    ensures v < 16
  {
    if '0' <= c <= '9' then c as int - '0' as int
    else if 'a' <= c <= 'f' then c as int - 'a' as int + 10
    else c as int - 'A' as int + 10
  }

  predicate AllHex(s: string) {
    forall i :: 0 <= i < |s| ==> IsHexDigit(s[i])
  }

  function HexValue(s: string): nat
    requires AllHex(s)
  {
    if |s| == 0 then 0
    else HexValue(s[..|s| - 1]) * 16 + HexDigitValue(s[|s| - 1])
  }

  /** The length of the longest prefix of `s` made of hex digits. */
  function HexRun(s: string): (n: nat)
    ensures n <= |s| && AllHex(s[..n])
    ensures n < |s| ==> !IsHexDigit(s[n])
  {
    if |s| > 0 && IsHexDigit(s[0]) then
      var n := 1 + HexRun(s[1..]);
      assert s[..n] == [s[0]] + s[1..][..n - 1];
      n
    else 0
  }

  /** The digit loop of `ParseNumbers.GrabInts` for base 16: starting at `i`
      with `acc`, it consumes hex digits, and before each one throws an
      overflow when `acc` already exceeds `0x0FFFFFFF`. The result is the
      index where the digits stop and the value read. */
  function GrabHex(s: string, i: nat, acc: nat): (r: Result<(nat, nat)>)
    requires i <= |s| && acc < TwoTo32
    ensures r.Ok? ==> i <= r.value.0 <= |s| && r.value.1 < TwoTo32
    ensures r.Err? ==> r.error == Overflow
    decreases |s| - i
  {
    if i < |s| && IsHexDigit(s[i]) then
      if acc > 0x0FFF_FFFF then Err(Overflow)
      else GrabHex(s, i + 1, acc * 16 + HexDigitValue(s[i]))
    else Ok((i, acc))
  }

  /** Where the digits of `Convert.ToInt32(s, 16)` start: after one optional
      '+' and then an optional `0x`/`0X`. */
  function HexStart(s: string): (j: nat)
    requires |s| > 0
    ensures j <= |s|
  {
    var i := if s[0] == '+' then 1 else 0;
    if i + 1 < |s| && s[i] == '0' && (s[i + 1] == 'x' || s[i + 1] == 'X') then i + 2 else i
  }

  /** `Convert.ToInt32(s, 16)` (`ParseNumbers.StringToInt` with `IsTight`), as
      the 32-bit pattern it produces. An empty string is out of range; a
      leading '-' is refused for base 16; after the optional '+' and `0x`
      the digits are read, with the overflow check of the digit loop; no
      digits at all, or anything after them, is a format error. */
  function ParseHex32(s: string): (r: Result<nat>)
    ensures r.Ok? ==> r.value < TwoTo32
    ensures r.Err? ==> r.error in {ArgumentOutOfRange, Argument, Format, Overflow}
    ensures r == Err(ArgumentOutOfRange) <==> |s| == 0
    ensures r == Err(Argument) <==> |s| > 0 && s[0] == '-'
  {
    if |s| == 0 then Err(ArgumentOutOfRange)
    else if s[0] == '-' then Err(Argument)
    else
      var body := s[HexStart(s)..];
      var g :- GrabHex(body, 0, 0);
      if g.0 == 0 || g.0 < |body| then Err(Format) else Ok(g.1)
  }

  /** Extending a run of hex digits by one digit scales its value by 16. */
  lemma HexValueStep(s: string, i: nat)
    requires i < |s| && AllHex(s[..i + 1])
    ensures AllHex(s[..i])
    ensures HexValue(s[..i + 1]) == HexValue(s[..i]) * 16 + HexDigitValue(s[i])
  {
    assert s[..i + 1][..i] == s[..i];
  }

  /** A longer run of hex digits has at least the value of a shorter one. */
  lemma {:induction false} HexValueMono(s: string, i: nat, j: nat)
    requires i <= j <= |s| && AllHex(s[..j])
    ensures AllHex(s[..i]) && HexValue(s[..i]) <= HexValue(s[..j])
    decreases j - i
  {
    assert forall k :: 0 <= k < i ==> s[..i][k] == s[..j][k];
    if i < j {
      assert forall k :: 0 <= k < i + 1 ==> s[..i + 1][k] == s[..j][k];
      HexValueStep(s, i);
      HexValueMono(s, i + 1, j);
    }
  }

  /** The digit loop reads the whole run of hex digits, and it overflows
      exactly when the value of that run needs more than 32 bits. */
  lemma {:induction false} GrabHexRun(s: string, i: nat)
    requires i <= HexRun(s) && HexValue(s[..i]) < TwoTo32
    ensures GrabHex(s, i, HexValue(s[..i])) ==
              if HexValue(s[..HexRun(s)]) >= TwoTo32 then Err(Overflow)
              else Ok((HexRun(s), HexValue(s[..HexRun(s)])))
    decreases |s| - i
  {
    var n := HexRun(s);
    HexValueMono(s, i, n);
    if i < n {
      assert s[..n][i] == s[i];
      HexValueMono(s, i + 1, n);
      HexValueStep(s, i);
      var acc := HexValue(s[..i]);
      if acc > 0x0FFF_FFFF {
        assert HexValue(s[..i + 1]) >= TwoTo32;
      } else {
        GrabHexRun(s, i + 1);
      }
    }
  }

  /** What `Convert.ToInt32(s, 16)` accepts and rejects, in terms of the
      digits after the optional '+' and `0x`: an overflow exactly when the
      leading run of hex digits needs more than 32 bits, even if junk
      follows it; success exactly when the digits are all hex, at least one,
      and fit, with their value as the result. */
  lemma ParseHex32Exact(s: string)
    requires |s| > 0 && s[0] != '-'
    ensures var body := s[HexStart(s)..];
      && (ParseHex32(s) == Err(Overflow) <==> HexValue(body[..HexRun(body)]) >= TwoTo32)
      && (ParseHex32(s).Ok? <==> |body| > 0 && AllHex(body) && HexValue(body) < TwoTo32)
      && (ParseHex32(s).Ok? ==> ParseHex32(s).value == HexValue(body))
  {
    var body := s[HexStart(s)..];
    assert body[..0] == [];
    GrabHexRun(body, 0);
    if AllHex(body) {
      assert body[..|body|] == body;
    }
  }

  /** A non-empty string of hex digits parses to its value when that fits in
      32 bits. */
  lemma ParseHex32Digits(s: string)
    requires |s| > 0 && AllHex(s) && HexValue(s) < TwoTo32
    ensures ParseHex32(s) == Ok(HexValue(s))
  {
    assert HexStart(s) == 0;
    assert s[0..] == s;
    ParseHex32Exact(s);
  }

  /** One leading '+' is accepted: "+FF" is 255. */
  lemma PlusAccepted()
    ensures ParseHex32("+FF") == Ok(255)
  {
    var s := "+FF";
    assert HexStart(s) == 1;
    var body := s[1..];
    assert body == "FF" && AllHex(body);
    assert body[..1] == "F" && body[..1][..0] == [];
    assert HexValue(body[..1]) == 15;
    assert HexValue(body) == 255;
    ParseHex32Exact(s);
  }

  /** Upper-case hex digit for a value below 16. */
  function HexChar(v: nat): (c: char)
    requires v < 16
    ensures IsHexDigit(c) && HexDigitValue(c) == v
  {
    if v < 10 then ('0' as int + v) as char else ('A' as int + v - 10) as char
  }

  /** Two hex digits for a byte. */
  function HexByte(b: Byte): (s: string)
    ensures |s| == 2 && AllHex(s) && HexValue(s) == b
  {
    var s := [HexChar(b / 16), HexChar(b % 16)];
    assert s[..1] == [HexChar(b / 16)];
    assert s[..1][..0] == [];
    assert HexValue(s[..1]) == b / 16;
    assert HexValue(s) == (b / 16) * 16 + b % 16;
    s
  }

  /** Appending two hex digits multiplies the value so far by 256. */
  lemma HexValueAppend2(a: string, d: string)
    requires AllHex(a) && |d| == 2 && AllHex(d)
    ensures AllHex(a + d)
    ensures HexValue(a + d) == HexValue(a) * 256 + HexValue(d)
  {
    var ad := a + d;
    assert ad[..|ad| - 1] == a + [d[0]];
    assert (a + [d[0]])[..|a|] == a;
    assert d[..|d| - 1] == [d[0]] && d[..1][..0] == [];
    assert HexValue(d[..1]) == HexDigitValue(d[0]);
    var v := HexValue(a);
    assert HexValue(ad) == (v * 16 + HexDigitValue(d[0])) * 16 + HexDigitValue(d[1]);
    assert HexValue(d) == HexDigitValue(d[0]) * 16 + HexDigitValue(d[1]);
  }
}

=== FILE: union_find.dfy ===
/** `UnionFind` of the edge detector: a parent array with path halving in
    `Find` and an unranked link of the second root under the first in
    `Union`. The forest shape is witnessed by a ghost rank that strictly
    grows from child to parent. */
module UnionFind {
  import opened Common

  /** A bound on the ranks, for termination measures. */
  ghost function MaxRank(rank: seq<nat>): (m: nat)
    ensures forall i :: 0 <= i < |rank| ==> rank[i] <= m
  {
    if |rank| == 0 then 0
    else
      var rest := MaxRank(rank[1..]);
      assert forall i :: 1 <= i < |rank| ==> rank[i] == rank[1..][i - 1];
      if rank[0] > rest then rank[0] else rest
  }

  /** Every parent is an element, and every non-root's parent has a higher
      rank: following parents ends at a root. */
  ghost predicate Forest(parent: seq<int>, rank: seq<nat>) {
    |rank| == |parent|
    && (forall i :: 0 <= i < |parent| ==> 0 <= parent[i] < |parent|)
    && (forall i :: 0 <= i < |parent| && parent[i] != i ==> rank[i] < rank[parent[i]])
  }

  /** The root of `i`'s tree. */
  ghost function Root(parent: seq<int>, rank: seq<nat>, i: int): (r: int)
    requires Forest(parent, rank) && 0 <= i < |parent|
    ensures 0 <= r < |parent| && parent[r] == r
    decreases MaxRank(rank) - rank[i]
  {
    if parent[i] == i then i else Root(parent, rank, parent[i])
  }

  /** The root does not depend on which rank witnesses the forest. */
  lemma {:induction false} RootRankFree(parent: seq<int>, r1: seq<nat>, r2: seq<nat>, i: int)
    requires Forest(parent, r1) && Forest(parent, r2) && 0 <= i < |parent|
    ensures Root(parent, r1, i) == Root(parent, r2, i)
    decreases MaxRank(r1) - r1[i]
  {
    if parent[i] != i {
      RootRankFree(parent, r1, r2, parent[i]);
    }
  }

  /** `new UnionFind(size)`: `size + 1` elements, each its own parent. The
      length is an `int` sum; a negative length throws. */
  function New(size: int): (r: Result<seq<int>>)
    ensures Wrap32(size + 1) < 0 <==> r == Err(Overflow)
    ensures r.Ok? ==> |r.value| == Wrap32(size + 1)
  {
    var n := Wrap32(size + 1);
    if n < 0 then Err(Overflow) else Ok(seq(n, i => i))
  }

  function Zeros(n: nat): (z: seq<nat>)
    ensures |z| == n && forall i :: 0 <= i < n ==> z[i] == 0
  {
    seq(n, _ => 0)
  }

  /** A fresh structure is a forest of singletons. */
  lemma NewSingletons(size: int)
    requires New(size).Ok?
    ensures var p := New(size).value;
      Forest(p, Zeros(|p|)) && forall i :: 0 <= i < |p| ==> Root(p, Zeros(|p|), i) == i
  {
  }

  /** The root of a node is the root of its parent. */
  lemma RootStep(parent: seq<int>, rank: seq<nat>, i: int)
    requires Forest(parent, rank) && 0 <= i < |parent|
    ensures Root(parent, rank, i) == Root(parent, rank, parent[i])
  {
  }

  /** One halving step: `x` is re-pointed at its grandparent. */
  function Halve(parent: seq<int>, x: int): seq<int>
    requires 0 <= x < |parent| && 0 <= parent[x] < |parent|
  {
    parent[x := parent[parent[x]]]
  }

  lemma HalveForest(parent: seq<int>, rank: seq<nat>, x: int)
    requires Forest(parent, rank) && 0 <= x < |parent| && parent[x] != x
    ensures Forest(Halve(parent, x), rank)
    ensures rank[x] < rank[Halve(parent, x)[x]]
  {
  }

  /** Halving changes no element's root. */
  lemma {:induction false} HalveRoots(parent: seq<int>, rank: seq<nat>, x: int, i: int)
    requires Forest(parent, rank) && 0 <= x < |parent| && parent[x] != x && 0 <= i < |parent|
    ensures Forest(Halve(parent, x), rank)
    ensures Root(Halve(parent, x), rank, i) == Root(parent, rank, i)
    decreases MaxRank(rank) - rank[i]
  {
    HalveForest(parent, rank, x);
    var p' := Halve(parent, x);
    if p'[i] != i {
      HalveRoots(parent, rank, x, p'[i]);
      if i == x {
        RootStep(parent, rank, parent[x]);
      }
      RootStep(parent, rank, i);
    }
  }

  /** Every element keeps its root. */
  ghost predicate SameRoots(p1: seq<int>, p2: seq<int>, rank: seq<nat>)
    requires Forest(p1, rank) && Forest(p2, rank) && |p1| == |p2|
  {
    forall i :: 0 <= i < |p1| ==> Root(p2, rank, i) == Root(p1, rank, i)
  }

  /** `Find`: walk to the root, pointing each visited node at its
      grandparent on the way. An index outside the array throws. The root is
      that of `x`, and no element's root changes. */
  function Find(parent: seq<int>, ghost rank: seq<nat>, x: int): (r: Result<(seq<int>, int)>)
    requires Forest(parent, rank)
    ensures r.Err? <==> !(0 <= x < |parent|)
    ensures r.Err? ==> r.error == IndexOutOfRange
    ensures r.Ok? ==>
      var (p', root) := r.value;
      |p'| == |parent| && Forest(p', rank) && SameRoots(parent, p', rank)
      && root == Root(parent, rank, x) && p'[root] == root
    decreases if 0 <= x < |parent| then MaxRank(rank) - rank[x] else 0
  {
    if !(0 <= x < |parent|) then Err(IndexOutOfRange)
    else if parent[x] == x then Ok((parent, x))
    else
      var p' := Halve(parent, x);
      HalveForest(parent, rank, x);
      HalveAll(parent, rank, x);
      RootStep(parent, rank, parent[x]);
      RootStep(parent, rank, x);
      var r' := Find(p', rank, p'[x]);
      r'
  }

  lemma HalveAll(parent: seq<int>, rank: seq<nat>, x: int)
    requires Forest(parent, rank) && 0 <= x < |parent| && parent[x] != x
    ensures Forest(Halve(parent, x), rank) && SameRoots(parent, Halve(parent, x), rank)
  {
    HalveForest(parent, rank, x);
    forall i | 0 <= i < |parent|
      ensures Root(Halve(parent, x), rank, i) == Root(parent, rank, i)
    {
      HalveRoots(parent, rank, x, i);
    }
  }

  /** The rank after linking root `ry` under root `rx`. */
  ghost function LinkRank(rank: seq<nat>, rx: int, ry: int): seq<nat>
    requires 0 <= rx < |rank| && 0 <= ry < |rank|
  {
    rank[rx := if rank[rx] > rank[ry] then rank[rx] else rank[ry] + 1]
  }

  lemma LinkForest(parent: seq<int>, rank: seq<nat>, rx: int, ry: int)
    requires Forest(parent, rank) && 0 <= rx < |parent| && 0 <= ry < |parent|
    requires parent[rx] == rx && parent[ry] == ry && rx != ry
    ensures Forest(parent[ry := rx], LinkRank(rank, rx, ry))
  {
  }

  /** After linking, the elements of `ry`'s tree have root `rx`, and every
      other element keeps its root. */
  lemma {:induction false} LinkRoots(parent: seq<int>, rank: seq<nat>, rx: int, ry: int, i: int)
    requires Forest(parent, rank) && 0 <= rx < |parent| && 0 <= ry < |parent|
    requires parent[rx] == rx && parent[ry] == ry && rx != ry && 0 <= i < |parent|
    ensures Forest(parent[ry := rx], LinkRank(rank, rx, ry))
    ensures Root(parent[ry := rx], LinkRank(rank, rx, ry), i)
            == if Root(parent, rank, i) == ry then rx else Root(parent, rank, i)
    decreases MaxRank(rank) - rank[i]
  {
    LinkForest(parent, rank, rx, ry);
    if parent[i] != i {
      LinkRoots(parent, rank, rx, ry, parent[i]);
    }
  }

  /** `Union(x, y)`: find both roots, and hang `y`'s root under `x`'s when
      they differ. */
  function Union(parent: seq<int>, ghost rank: seq<nat>, x: int, y: int): (r: Result<seq<int>>)
    requires Forest(parent, rank)
    ensures r.Ok? <==> 0 <= x < |parent| && 0 <= y < |parent|
    ensures r.Err? ==> r.error == IndexOutOfRange
  {
    var (p1, rx) :- Find(parent, rank, x);
    var (p2, ry) :- Find(p1, rank, y);
    if rx != ry then Ok(p2[ry := rx]) else Ok(p2)
  }

  /** The rank that witnesses the forest after `Union`. */
  ghost function UnionRank(parent: seq<int>, rank: seq<nat>, x: int, y: int): seq<nat>
    requires Forest(parent, rank) && 0 <= x < |parent| && 0 <= y < |parent|
  {
    var rx, ry := Root(parent, rank, x), Root(parent, rank, y);
    if rx != ry then LinkRank(rank, rx, ry) else rank
  }

  /** After `Union(x, y)` the result is a forest in which `x` and `y` share
      a root; the elements of `y`'s class join `x`'s class, and every other
      element keeps its root. */
  lemma UnionEffect(parent: seq<int>, rank: seq<nat>, x: int, y: int)
    requires Forest(parent, rank) && 0 <= x < |parent| && 0 <= y < |parent|
    ensures Union(parent, rank, x, y).Ok?
    ensures var p' := Union(parent, rank, x, y).value;
      var rank' := UnionRank(parent, rank, x, y);
      |p'| == |parent| && Forest(p', rank')
      && Root(p', rank', x) == Root(p', rank', y)
      && forall i :: 0 <= i < |parent| ==>
           Root(p', rank', i) == if Root(parent, rank, i) == Root(parent, rank, y)
                                 then Root(parent, rank, x) else Root(parent, rank, i)
  {
    var (p1, rx) := Find(parent, rank, x).value;
    var (p2, ry) := Find(p1, rank, y).value;
    assert ry == Root(parent, rank, y);
    var p' := Union(parent, rank, x, y).value;
    var rank' := UnionRank(parent, rank, x, y);
    if rx != ry {
      LinkForest(p2, rank, rx, ry);
      forall i | 0 <= i < |parent|
        ensures Root(p', rank', i) == if Root(parent, rank, i) == ry then rx else Root(parent, rank, i)
      {
        LinkRoots(p2, rank, rx, ry, i);
      }
    }
  }
}
